=== FILE: README.md ===
# pycfr in Dafny: hand ranges, game evaluators and vanilla CFR

This project models three parts of pycfr, a counterfactual regret
minimization (CFR) library for small poker games, and proves properties of
them.

- **The hand-range indexer** (`hand_ranges.py`). A hand range is the list
  of all possible hole-card holdings of one player. The indexer turns a
  holding into a dense position in that list and back: a deck position for
  one hole card, and a position in `0..1325` for an unordered pair of two
  distinct cards. Modules `Cards` and `HandRanges`.
- **The game helpers** (`pokergames.py`). These are the hand evaluators of
  Kuhn, Leduc, "royal" and hold'em poker, their information-set key
  formats, and the 52-card hold'em deck. Module `PokerGames`.
- **The vanilla CFR minimizer** (`pokercfr.py`,
  `CounterfactualRegretMinimizer`). It keeps a regret table and an
  average-strategy accumulator per information set. It also keeps an
  average profile, a current profile and a sweep counter. One sweep walks
  the public game tree recursively, passing reach probabilities down and
  payoffs up.
  - Module `PublicTree` holds the tree as a datatype.
  - Module `Strategies` holds regret matching, `equal_probs` and the
    accumulator arithmetic.
  - Module `CfrNodes` holds the per-node computations.
  - Module `CfrUpdates` holds the strategy and regret updates on table
    values.
  - Module `PokerCfr` holds the minimizer as a class whose methods update
    its fields.

Numbers are Dafny `real`s. A holding is a `seq<Card>`. A payoff dict is a
`map<seq<Card>, real>`, and an accumulator dict of numpy arrays is a map
from the information set to one three-slot row per player. Every Python
exception becomes a failure result: a `None`, or `false` in an `ok`
out-parameter. The exceptions are failed assertions, `KeyError`,
`IndexError` and division by zero.

The class invariant `Valid` states the following:
- both tables have exactly the information sets of the default
  strategies, with one three-slot row per player;
- the accumulator and every policy are non-negative;
- the mask covers the whole hand range.

Every method keeps `Valid`. So does every sweep, including one that fails.

**What a sweep returns.** A completed sweep is recorded as a ghost `Trace`:
the node, the reach it was given, the payoffs it returned and, at an action
node, the policy read and the probability table built from it, with one
record per recursive call. `PokerCfr.Sound` states, node kind by node kind,
what `cfr_helper` returns at a node given its reach, and with which reach
each child is swept. `Run` returns one record per completed sweep, each
rooted at the tree's root with reach 1 everywhere and `Sound`.

**Signature drift.** The hand-range functions take `rules` and read the
hole-card count from it (`hand_ranges.py:15-37`). The callers in the
minimizer pass the hole-card count itself or leave `rules` out
(`pokercfr.py:18`, `:28`, `:49`, `:74`, `:113`, `:118`, `:150`, `:157`,
`:171`, `:184`). The test does the same (`tests/test_hand_ranges.py:15`,
`:21`). As written, those calls raise. The model follows the definitions:
every call passes the game rules.

The sweep takes two assumptions from `hand_ranges.py`, not from
`pokercfr.py`:
- it reads reach rows through `cards_to_range_index`;
- the action node's payoff keys come from `range_index_to_cards`.

**Accumulator positivity.** Every accumulator slot starts at 1e-10
(`pokercfr.py:40-41`), so a fresh row has a positive sum. The first sweep
overwrites the acting player's row instead of adding to it
(`pokercfr.py:171`). `CfrUpdates.SeedZeroReachClears` shows that the row
then sums to 0 when the last hand of that information set has zero reach.
A later sweep that adds zero reach again divides by that zero sum. In
numpy that gives NaN; in the model it is a failure, covered by
`AccumulateFits`. While the reach stays non-negative, accumulation never
lowers a row's sum (`Strategies.AccumulateKeepsPositive`), and a normalised
row is a probability vector (`Strategies.NormalizeDistribution`).

## Model

| member | source | states |
|---|---|---|
| Cards.Ordinal | hand_ranges.py:46 | A valid card's ordinal `(rank-2)*4+(suit-1)` lies in 0..51. |
| Cards.OfOrdinal | hand_ranges.py:78-81 | Decoding an ordinal in 0..51 gives a valid card with that ordinal. |
| Cards.OrdinalRoundTrip | hand_ranges.py:78-81 | Decoding a valid card's ordinal gives the card back. |
| Cards.OrdinalInjective | hand_ranges.py:46 | Two valid cards have the same ordinal iff they are equal. |
| HandRanges.SortCards | hand_ranges.py:5-13 | Fails unless given 1 or 2 cards. Returns one card unchanged. Returns two cards as a permutation with the larger `rank*4+suit` key first, keeping the order when it is already descending. |
| HandRanges.PairIndex | hand_ranges.py:48-53 | The position of ordinal pair `lo < hi` in the `lo < hi` enumeration lies between the offsets of `lo` and `lo+1`, and below 1326. |
| HandRanges.OffsetClosedForm | hand_ranges.py:48-53 | Closed form of the count of pairs before row `lo`: `2*Offset(lo) == lo*(103-lo)`. |
| HandRanges.OffsetTotal | hand_ranges.py:19-20 | The enumeration has exactly 1326 pairs. |
| HandRanges.PairIndexInjective | hand_ranges.py:48-53 | Different ordinal pairs get different positions. |
| HandRanges.Unpair | hand_ranges.py:99-109 | The decoding loop finds the ordinal pair `lo < hi` of every position below 1326. |
| HandRanges.UnpairPairIndex | hand_ranges.py:99-109 | Decoding the position of a pair gives that pair back. |
| HandRanges.DecodePairIndex | hand_ranges.py:99-109 | The position of `lo < hi` decodes to the cards of ordinals `lo` and `hi`, lower first. |
| HandRanges.OrdinalPairIndex | hand_ranges.py:48-62 | The two loop nests find a position exactly when the ordinals are distinct and in 0..51. The position is below 1326. |
| HandRanges.CardsToRangeIndex2 | hand_ranges.py:42-62 | The nested counting loops compute the index of the sorted holding, and fail where the final assertion fires. |
| HandRanges.RangeIndexToCards2 | hand_ranges.py:99-120 | The nested counting loops decode the index. Outside 0..1325 they return None, since this definition has no trailing assertion. |
| HandRanges.DeckIndex | hand_ranges.py:65-70 | The position found is the first deck position holding the card, and there is one iff the card is in the deck. |
| HandRanges.CardsToRangeIndex1 | hand_ranges.py:65-70 | The deck scan returns the first position of the held card, and fails when it is absent. |
| HandRanges.RangeIndexToCards1 | hand_ranges.py:122-124 | `(deck[index],)`, with Python's negative indexing, failing outside the deck. |
| HandRanges.RangeSize | hand_ranges.py:15-22 | Deck size for one hole card, 1326 for two, failure otherwise. |
| HandRanges.RangeSizeAsWritten | hand_ranges.py:15-22 | Defined exactly for one or two hole cards. For two it is a float. |
| HandRanges.RangeSizeAsWrittenIsFloat | hand_ranges.py:19-20 | `range_size` as written has the same value as `RangeSize`, but for two hole cards it is a float, which `range`/`np.zeros` reject. |
| HandRanges.CardsToRangeIndex | hand_ranges.py:24-29 | Fails unless given one or two cards. One card has an index iff it is in the deck, and the index is a deck position holding it. Two cards index below 1326. |
| HandRanges.RangeIndexToCards | hand_ranges.py:31-37 | With two hole cards it decodes exactly the indices 0..1325. With one it decodes exactly `-len(deck)..len(deck)-1`, to a deck card. Any other count fails. A decoded holding has `holecard_count` cards. |
| HandRanges.SortedOrdinalsDescending | hand_ranges.py:45-46 | After sorting, the first card's ordinal is at least the second's. |
| HandRanges.PairIndexOrderIndependent | hand_ranges.py:45 | `cards_to_range_index_2((a,b)) == cards_to_range_index_2((b,a))`. |
| HandRanges.PairIndexOfValid | hand_ranges.py:48-62 | Two valid cards have an index iff they are distinct. The index is the closed-form position of their ordinals, lower first. |
| HandRanges.PairRoundTrip | hand_ranges.py:99-109 | For every `0 <= k < 1326`, indexing the decoded pair gives `k`. |
| HandRanges.PairRoundTripCards | hand_ranges.py:99-109 | Indexing then decoding two distinct valid cards gives them in reverse sort order. |
| HandRanges.PairIndexInjectiveOnCards | tests/test_hand_ranges.py:18-20 | Two unordered pairs of distinct valid cards with the same index are the same pair. |
| HandRanges.PairIndexSurjective | tests/test_hand_ranges.py:18-20 | Every position in 0..1325 is the index of some pair of distinct valid cards. |
| HandRanges.IdenticalCardsHaveNoIndex | hand_ranges.py:49-62 | Two identical cards have no index. |
| HandRanges.DecodeOutOfRange | hand_ranges.py:111-120 | An index outside 0..1325 decodes to None. |
| HandRanges.DeckRoundTrip | hand_ranges.py:65-70 | Over a deck without repeats, decoding then indexing a deck position gives it back. |
| HandRanges.DeckRoundTripCard | hand_ranges.py:122-124 | Looking up a deck card's position decodes to that card. |
| HandRanges.RangeRoundTrip | hand_ranges.py:31-37 | Every index below `range_size` decodes to a holding of `holecard_count` cards, which indexes back below `range_size`. It gives the same index for two cards, and for one card over a deck without repeats. |
| PokerGames.HoldemDeck | pokergames.py:8-12 | 52 distinct valid cards. The card at position k has ordinal k, and every valid card is present. |
| PokerGames.HoldemEval | pokergames.py:4-6 | Always fails. |
| PokerGames.KuhnEval | pokergames.py:27-28 | Fails exactly when there is no hole card, where `hc[0]` raises IndexError. |
| PokerGames.KuhnEvalIgnoresBoard | pokergames.py:27-28 | The score is the hole card's rank, whatever the board. |
| PokerGames.LeducEval | pokergames.py:76-80 | Fails exactly when hole and board cards together are fewer than two, where `hand[1]` raises IndexError. |
| PokerGames.LeducEvalSymmetric | pokergames.py:76-80 | Swapping the hole card and the board card keeps the score. |
| PokerGames.LeducEvalRanksHands | pokergames.py:76-80 | For ranks 2..14, one score beats another iff the first hand wins: a pair beats a non-pair, a higher pair beats a lower one, and non-pairs compare by top rank, then by low rank. |
| PokerGames.RoyalEval | pokergames.py:112-127 | The short-circuiting tests decide which cards are read. It fails with fewer than two cards. With exactly two it succeeds iff they are a `TwoCardPair` (different suits, equal rank), scoring 100 plus that rank. With a hole card and at least three cards it never fails. Without a hole card and with at least three cards, it fails exactly on a flush, where `hc[0]` raises. |
| PokerGames.RoyalTwoCardsNoStraight | pokergames.py:119-123 | Two cards never hold a queen, a king and an ace or a jack, so the straight test cannot fire on a two-card hand. |
| PokerGames.RoyalEvalBands | pokergames.py:112-127 | With a hole card and three cards the score is defined. Each category has its own score band: flush 10002..10014; straight 1014 or 1011; pair 102..114; high card 2..14. |
| PokerGames.RoyalTiersOrdered | pokergames.py:112-127 | For valid ranks, a stronger category always scores higher. |
| PokerGames.LeducFormat | pokergames.py:70-74 | Fails exactly when there is no hole card, where `holecards[0]` raises IndexError. |
| PokerGames.LeducFormatIgnoresSuits | pokergames.py:70-74 | The key depends only on ranks and history: renaming suits or changing the player keeps it. |
| PokerGames.RoyalFormat | pokergames.py:102-110 | Fails exactly when there is no hole card. Otherwise the appending loop builds the hole card's rank name, one piece per board card (rank name, then `s` or `o`), then `:history:`. |
| PokerGames.RoyalBoardSuitSymmetric | pokergames.py:102-110 | A one-to-one renaming of suits keeps the board part of the key. |
| PokerGames.HoldemFormat | pokergames.py:21-25 | The appending loop builds rank name and suit name for every hole and board card, then `:history:`. |
| PokerGames.HoldemCardsLength | pokergames.py:21-25 | With one-character names, the card part has two characters per card. |
| PokerGames.HoldemCardsInjective | pokergames.py:21-25 | With one-character names, different valid card sequences give different keys. |
| PublicTree.ChoosePositive | pokercfr.py:86-88 | Dealing no more cards than remain can be done in at least one way, so the chance nodes divide by a positive count. |
| PublicTree.ChooseOne | pokercfr.py:86 | Dealing one card from n can be done in n ways. |
| Strategies.Clip | pokercfr.py:176 | Negative regrets become 0 and the others stay. |
| Strategies.EqualProbs | pokercfr.py:200-209 | `1/len(children)` for each legal action, 0 for the others. |
| Strategies.EqualProbsDistribution | pokercfr.py:200-209 | When the children list holds exactly the legal actions, `equal_probs` sums to 1. |
| Strategies.RegretMatch | pokercfr.py:176-181 | Regret matching yields three non-negative probabilities. |
| Strategies.RegretMatchProportional | pokercfr.py:180-181 | With some positive regret, each probability is the clipped regret over the positive sum. The result sums to 1, and is 0 exactly where the regret is at most 0. |
| Strategies.RegretMatchFallback | pokercfr.py:178-179 | With no positive regret the result is `equal_probs`. With exact children it is a distribution iff some action is legal. |
| Strategies.RegretMatchDistribution | pokercfr.py:176-181 | With exact, non-empty children the result is always a probability vector. |
| Strategies.InitialAccumulator | pokercfr.py:40-41 | The fresh accumulator row is non-negative with a positive sum. |
| Strategies.AccumulateTwice | pokercfr.py:184 | Accumulating the same probabilities twice equals accumulating once with the summed reach. |
| Strategies.AccumulateKeepsPositive | pokercfr.py:184 | Non-negative reach and probabilities keep the row non-negative and never lower its sum. |
| Strategies.NormalizeDistribution | pokercfr.py:185-186 | A non-negative row with positive sum normalises to a probability vector proportional to the row. |
| CfrNodes.ZeroPayoffs | pokercfr.py:90 | `{hc: 0 for hc in hands}`: keyed by the hands, all zero. |
| CfrNodes.OpponentReach | pokercfr.py:68-74 | The product of the opponents' reach of their hands, failing where a hand has no reach index. |
| CfrNodes.SumEntries | pokercfr.py:64-77 | Per hand of the player, the reach-weighted winnings summed over the matching payoff entries, and their count. Fails where an entry's hand is not listed. |
| CfrNodes.DivideByCounts | pokercfr.py:78-80 | Each sum with a positive count is divided by it. The others are kept. |
| CfrNodes.PlayerTerminal | pokercfr.py:62-81 | One player's terminal payoffs are defined iff the node lists the player and every payoff entry has a value whose hand the player holds. They are keyed by the player's hands. Each is the mean of the hand's entry values, or 0 with no entry. |
| CfrNodes.DividedIsTerminal | pokercfr.py:78-81 | The per-hand sums divided by their positive counts are the player's terminal payoffs. |
| CfrNodes.TerminalPayoffs | pokercfr.py:62-81 | Succeeds iff every player's terminal payoffs are defined, and then returns them. |
| CfrNodes.NoEntriesNoSum | pokercfr.py:78-80 | A hand with no payoff entries keeps payoff 0. |
| CfrNodes.OppReachInUnit | pokercfr.py:68-74 | With reach in [0,1], the opponents' reach product is in [0,1]. |
| CfrNodes.TerminalPayoffBounded | pokercfr.py:62-81 | With reach in [0,1] and winnings within ±bound, every terminal payoff is within ±bound: terminal payoffs are averages. |
| CfrNodes.DivideReach | pokercfr.py:88 | Every reach entry is divided by the number of deals, and the shape is kept. |
| CfrNodes.DivideReachKeepsProbabilities | pokercfr.py:88 | Division by a positive count keeps reach non-negative. Division by at least 1 keeps it in [0,1]. |
| CfrNodes.CollapseToEmptyHand | pokercfr.py:90-95 | Every child payoff of a player is summed into the empty tuple of the node's hands. Fails iff a player with child payoffs lacks the empty tuple, or the node lists too few players. |
| CfrNodes.SumIntoEmptyHand | pokercfr.py:91-94 | One player's child payoffs summed into the empty tuple. |
| CfrNodes.AddChildPayoffs | pokercfr.py:104-106 | Each child payoff is added to the same hand's payoff. Fails iff the child has a hand the node does not list. |
| CfrNodes.ActionProbs | pokercfr.py:113-120 | Row i is the policy's vector at the information set of decoded hand i, or zeros when the mask excludes it. An information set the policy lacks gets the equal split over the node's actions. Fails only where a hand does not decode or that split divides by zero. Non-negative policies give a non-negative table. |
| CfrNodes.ScaleActingRow | pokercfr.py:123-143 | The reach passed down an action differs from the incoming reach only in the acting player's row, at allowed hands, where it is `probs[hc][a] * p`. |
| CfrNodes.AllowedZeros | pokercfr.py:146-150 | A zero payoff for every allowed hand. |
| CfrNodes.AddContribution | pokercfr.py:151-159 | One action's child payoffs are added, weighted by the action probability for the acting player and unweighted for the others. |
| CfrNodes.CombineActionPayoffs | pokercfr.py:144-160 | Every player's payoffs are keyed by the allowed hands. Each is the sum over legal actions of the child payoff, times the action probability for the acting player only. |
| CfrNodes.CombinePlayer | pokercfr.py:146-159 | One player's payoffs start at 0 for every allowed hand, and gain each legal action's contribution in turn. Fails iff some action's payoffs do not fit. |
| CfrNodes.ActingPayoffBounded | pokercfr.py:151-159 | When the hand's probabilities form a distribution, the acting player's combined payoff stays within the children's bound. |
| CfrNodes.PolicyProbs | pokercfr.py:120 | `Strategy.probs`: the stored vector for a stored information set; for any other, defined iff the equal split is, and then equal to `EqualProbs`. Three slots for a three-slot policy, non-negative for a non-negative one. |
| CfrUpdates.SeedAccumulators | pokercfr.py:166-172 | First sweep: the acting player's row of each information set becomes default vector × the reach of its last hand. The default vector is read through `PolicyProbs`, the same `Strategy.probs` the action table uses, so an information set the default strategy lacks gets the equal split. Other rows and entries are unchanged. It fails exactly where an information set has no accumulator entry, a hand has no reach index, or that equal split divides by zero. |
| CfrUpdates.SeedZeroReachClears | pokercfr.py:171 | The first-sweep overwrite drops the 1e-10 start: zero reach leaves a row summing to 0. |
| CfrUpdates.Matched | pokercfr.py:175-181 | The regret-matched vector of an information set is three non-negative numbers. |
| CfrUpdates.AccumulateStrategies | pokercfr.py:173-186 | Later sweeps. The current policy becomes the regret-matched vector. The accumulator row gains it times the summed reach of the set's hands. The average policy is the normalised row, a probability vector. It fails exactly where the source raises or divides by zero. |
| CfrUpdates.AddRegrets | pokercfr.py:195-198 | One action: slot a of the acting player's row of each information set gains `winnings - ev[hc]` of its hands. Fails iff a hand lacks a node value or an information set lacks a regret entry. |
| CfrUpdates.RegretUpdate | pokercfr.py:191-198 | All legal actions in turn. A missing action is skipped. Fails exactly where the source raises. |
| CfrUpdates.RegretUpdatedSlot | pokercfr.py:191-198 | After the update, slot b of the acting player's row gained exactly action b's regret, or nothing when b is not legal. |
| CfrUpdates.RegretUpdatedOthers | pokercfr.py:191-198 | Other players' rows are untouched. |
| CfrUpdates.RegretBalance | pokercfr.py:144-162 | When the children's payoffs cover the same hands and the node value is the probability-weighted combination, the probability-weighted regret gains of an information set sum to 0. |
| CfrUpdates.HandBalance | pokercfr.py:154-157 | Per hand, the probability-weighted immediate regrets against the combined payoff sum to 0. |
| PokerCfr.HandValid | pokercfr.py:21-25 | True iff every card of the holding is in the deck. |
| PokerCfr.BuildAllowedHands | pokercfr.py:27-30 | One entry per range index, set iff the decoded holding is made of deck cards. Every index decodes. |
| PokerCfr.OneCardMaskFull | pokercfr.py:27-30 | With one hole card the mask admits every index. |
| PokerCfr.TwoCardMaskExact | pokercfr.py:27-30 | With two hole cards, the index of two distinct valid cards is admitted iff both are in the deck. |
| PokerCfr.AddInfosets | pokercfr.py:34-41 | A new information set gets zero regrets and 1e-10 accumulator rows. Existing entries are kept. |
| PokerCfr.DefaultTables | pokercfr.py:32-41 | The tables hold exactly the information sets of the default policies, with zero regrets and 1e-10 rows. |
| PokerCfr.CounterfactualRegretMinimizer.constructor | pokercfr.py:9-41 | The minimizer starts `Valid` with counter 0, the default strategies as the average profile and an empty current profile. Its tables and mask are as above. |
| PokerCfr.CounterfactualRegretMinimizer.Run | pokercfr.py:43-46 | Keeps `Valid`. The counter grows by the number of completed sweeps, which is n iff the run succeeds. Each completed sweep is a `Sound` sweep from the root with reach 1 everywhere. |
| PokerCfr.CounterfactualRegretMinimizer.Cfr | pokercfr.py:48-51 | Keeps `Valid` and the counter. A completed sweep starts at the root with reach 1 for every player and hand, and is `Sound`. |
| PokerCfr.CounterfactualRegretMinimizer.CfrHelper | pokercfr.py:53-60 | Keeps `Valid` and the counter. A completed call returns the payoffs `Sound` prescribes for the node under the given reach. At a terminal node it fails exactly where a player's terminal payoffs are undefined. |
| PokerCfr.CounterfactualRegretMinimizer.TerminalNode | pokercfr.py:62-81 | Succeeds iff every player's terminal payoffs are defined, and returns them. |
| PokerCfr.CounterfactualRegretMinimizer.HolecardNode | pokercfr.py:83-95 | Needs exactly one child and a positive deal count. The child is swept, `Sound`, with every reach divided by the deal count. Returns each player's node hands at 0, with the child's payoffs summed into the empty tuple. |
| PokerCfr.CounterfactualRegretMinimizer.BoardcardNode | pokercfr.py:97-107 | Every child is swept, `Sound`, with every reach divided by the deal count. Every child's hands are among the node's hands, as the `+=` at line 106 demands. Each player's payoffs are keyed by the node's hands. Each is the sum of the children's payoffs of that hand. |
| PokerCfr.CounterfactualRegretMinimizer.ActionNode | pokercfr.py:109-163 | The strategy update, from the state at the call, gives the policy (`StrategyStep`): the default strategy on sweep 0, else the regret-matched current policy. The probability table is read from it. Exactly the legal actions are swept, `Sound`, with the acting row scaled by the action's probabilities. The payoffs combine the children's. The regret table becomes the regret update of the table before it, against the acting player's payoffs. |
| PokerCfr.CounterfactualRegretMinimizer.SweepActions | pokercfr.py:123-143 | Sweeps exactly the legal actions' children, each `Sound` with the incoming reach whose acting row is scaled by that action's probabilities at the allowed hands. The children's payoffs are returned per action slot. |
| PokerCfr.CounterfactualRegretMinimizer.FinishAction | pokercfr.py:144-162 | Combines the payoffs, then applies the regret update against the acting player's payoffs. It fails exactly where a player's combine (`CombineFits`) or the regret update (`UpdateFits` against the combined payoffs) raises. A completed call returns the combined payoffs, and the regret table becomes `RegretUpdated` of its old value. |
| PokerCfr.CounterfactualRegretMinimizer.RegretUpdate | pokercfr.py:191-198 | The regret field becomes `RegretUpdated` of its old value, and fails exactly where the source raises. |
| PokerCfr.CounterfactualRegretMinimizer.StrategyUpdate | pokercfr.py:165-188 | Dispatches on the counter. The accumulator and the acting player's policies move as `StrategyStep` says: seeded on sweep 0, where the default strategy is returned; regret-matched, accumulated and normalised later, where the current policy is returned. It fails exactly where the source raises, with `Strategy.probs` taken as `PolicyProbs`. Other players' policies and the regret table stay. |
| PokerCfr.CounterfactualRegretMinimizer.FirstSweepUpdate | pokercfr.py:166-172 | The accumulator becomes `Seeded` of its old value and the default strategy is returned. The profiles are unchanged. |
| PokerCfr.CounterfactualRegretMinimizer.LaterSweepUpdate | pokercfr.py:173-188 | The accumulator, current and average policies of the acting player follow `AccumulatorAt`, `CurrentAt` and `ProfileAt`. The current policy is returned, and other players' policies are unchanged. |

## Left out

- Floating point and `np.longdouble`: all arithmetic is on reals. A zero deal count or a zero accumulator sum makes numpy produce inf or NaN; both are failures here.
- `np.clip(..., sys.maxsize)` is modelled as clipping at 0 only. `np.nditer` is a loop over the mask indices.
- The tree builder, the node classes, `GameRules`/`RoundInfo` and `Strategy`/`StrategyProfile` are not part of this model. The tree is a datatype input.
- `Strategy.build_default` is not modelled: the default policies are a constructor input.
- `Strategy.probs` is not part of this model. `CfrNodes.PolicyProbs` gives its documented behaviour, and both the action table (`CfrNodes.ProbsRow`) and the first-sweep seeding (`CfrUpdates.SeedFits`) read the strategy through it: the stored vector, or for an information set the policy has never stored the equal split over the node's actions, taken as the node's `equal_probs`. Where a node has legal actions but an empty children list, that split divides by zero and the row fails.
- `choose` comes from the tree builder module, which is not part of this model. `PublicTree.Choose` assumes it is the binomial coefficient, 0 when k > n. The two lemmas about it, and every reach division at a chance node, rest on that assumption.
- `rules.infoset_format`, `Card.RANK_TO_STRING` and `Card.SUIT_TO_STRING` are function-valued inputs.
- The sampling CFR variants (`pokercfr.py:211-592`) are dead code that uses `random`.
- `lru_cache` memoisation is treated as transparent: the cached functions are pure.
- Console output and the commented-out `build_player_ranges` are not modelled.
- `test_gametree.py` and the `*_rules`/`*_gametree`/`*_publictree` helpers beyond the hold'em deck call only into the tree builder, which is not part of this model.
- After a Python exception the minimizer's state is only known to satisfy `Valid`. The partial writes of a failed loop are not tracked.
- Dict iteration order is not modelled. It only affects sums of reals, which commute, and the first-sweep overwrite, where the model takes the last of the acting player's hands in list order.
- PokerCfr.CounterfactualRegretMinimizer.ActionNode: the source overwrites one `next_reachprobs` copy for each action. The model scales a fresh copy of the incoming reach for each action. Each action overwrites every allowed entry, so both give the same table.
- CfrUpdates.AddRegrets: it checks all node values before the loop. The source raises inside the loop. Both fail on the same inputs, and the state after a failure is not tracked.
- PokerCfr.CounterfactualRegretMinimizer.constructor: it requires a hole-card count of 1 or 2, where `range_size` raises for any other count.
- CfrUpdates.RegretBalance: it needs the children's payoffs to cover the same hands and the probability rows to be distributions. The source does not check these.
- PokerCfr.CounterfactualRegretMinimizer.Run: it does not say when a sweep fails. Only the completed sweeps are characterised, so a run that stopped at once would also meet the contract.
- PokerCfr.CounterfactualRegretMinimizer.Cfr: it does not say when the sweep fails, nor what the whole sweep leaves in the tables. The table writes are stated per action node, against the state at that node's call.
- PokerCfr.CounterfactualRegretMinimizer.CfrHelper: apart from terminal nodes, it does not say when a call fails. The payoffs of a completed call are stated in full through `Sound`, and the table writes per action node.
- PokerCfr.CounterfactualRegretMinimizer.HolecardNode: it does not say when the child's sweep fails.
- PokerCfr.CounterfactualRegretMinimizer.BoardcardNode: it does not say when a child's sweep fails. A completed call does state that every child's hands are among the node's, which is the merge's only failure (`pokercfr.py:106`).
- PokerCfr.CounterfactualRegretMinimizer.ActionNode: it does not say when the sweep of a child fails. The accumulator and policies at return are not related to the snapshot taken after the strategy update, because the children's sweeps write them in between. Of the final state, only the regret table's last step, this node's regret update, is stated.
- PokerCfr.CounterfactualRegretMinimizer.SweepActions: it does not say when a child's sweep fails.

## Findings

| source | as written | input that shows it | evidently intended | confidence | as-written member | corrected member |
|---|---|---|---|---|---|---|
| hand_ranges.py:19-20 | `(52*51)/2` is true division and returns the float 1326.0. `np.zeros` and `range(0, ...)` in the constructor reject a float size with TypeError. | any game with two hole cards, e.g. hold'em | the integer 1326 | not executed | HandRanges.RangeSizeAsWrittenIsFloat | HandRanges.RangeSize |

=== FILE: cards.dfy ===
/** The usual Some/None wrapper; None stands for the source's failed assertions and lookups. */
module Wrappers {
  datatype Option<+T> = None | Some(value: T)
}

/**
 * Playing cards (the `card` module's Card: a rank in 2..14 and a suit in 1..4)
 * and the slice of a game's rules that the indexer and the CFR engine read.
 */
module Cards {

  datatype Card = Card(rank: int, suit: int)

  /** The card space every game draws from: 13 ranks (2..14, the ace is 14) times 4 suits. */
  predicate IsValid(c: Card)
  {
    2 <= c.rank <= 14 && 1 <= c.suit <= 4
  }

  /** The comparison key `rank * 4 + suit` that sort_cards orders two cards by. */
  function SortKey(c: Card): int
  {
    c.rank * 4 + c.suit
  }

  /**
   * The canonical position `(rank - 2) * 4 + (suit - 1)` of a card in the
   * 52-card order. It is the sort key shifted by a constant, so ordering
   * two cards by key and by ordinal agree.
   */
  function Ordinal(c: Card): (i: int)
    ensures IsValid(c) ==> 0 <= i < 52
    ensures i == SortKey(c) - 9
  {
    (c.rank - 2) * 4 + (c.suit - 1)
  }

  /**
   * The decoding `suit = i % 4 + 1`, `rank = (i >> 2) + 2`; on the
   * non-negative positions it is applied to, `i >> 2` is `i / 4`.
   */
  function OfOrdinal(i: int): (c: Card)
    ensures 0 <= i < 52 ==> IsValid(c) && Ordinal(c) == i
  {
    Card(i / 4 + 2, i % 4 + 1)
  }

  /** Decoding the ordinal of a card gives the card back. */
  lemma OrdinalRoundTrip(c: Card)
    requires IsValid(c)
    ensures OfOrdinal(Ordinal(c)) == c
  {
    var i := Ordinal(c);
    assert i == (c.rank - 2) * 4 + (c.suit - 1);
    assert i / 4 == c.rank - 2 && i % 4 == c.suit - 1;
  }

  /** So the ordinal is a bijection from the valid cards onto 0..51. */
  lemma OrdinalInjective(a: Card, b: Card)
    requires IsValid(a) && IsValid(b)
    ensures Ordinal(a) == Ordinal(b) <==> a == b
  {
    if Ordinal(a) == Ordinal(b) {
      OrdinalRoundTrip(a);
      OrdinalRoundTrip(b);
    }
  }

  /**
   * The fields of pokertrees.GameRules that the core reads: the player
   * count, the deck, the hole-card count of the first round
   * (`roundinfo[0].holecard_count`) and the information-set key format.
   */
  datatype GameRules = GameRules(
    players: nat,
    deck: seq<Card>,
    holecardCount: int,
    infosetFormat: (nat, seq<Card>, seq<Card>, string) -> string)
}

=== FILE: cfr_nodes.dfy ===
/**
 * The node computations of the vanilla CFR sweep that read the game rules
 * and the reach probabilities but not the minimizer's accumulators: the
 * terminal payoffs, the chance-node reach division and payoff merging, and
 * the action node's reach scaling and payoff combination.
 *
 * Reach probabilities are a players-by-hands table of reals (a numpy array
 * in the source); a player's payoffs are a map from hole-card tuples to
 * reals (a dict). Every Python exception on the way (a KeyError, an
 * IndexError, a failed assertion, a division by zero) is a None result.
 */
module CfrNodes {
  import opened Wrappers
  import opened Cards
  import opened HandRanges
  import opened PublicTree
  import Strategies

  type Reach = seq<seq<real>>
  type PlayerPayoffs = map<Hand, real>

  /** `{hc: 0 for hc in hands}` */
  function ZeroPayoffs(hands: seq<Hand>): (m: PlayerPayoffs)
    ensures m.Keys == set hc | hc in hands
    ensures forall hc :: hc in m ==> m[hc] == 0.0
  {
    map hc | hc in hands :: 0.0
  }

  // ---------------------------------------------------------------------
  // Sums over the keys of a payoff map (the order of dict iteration is
  // irrelevant for sums of reals)
  // ---------------------------------------------------------------------

  /** The sum of `m[h]` over the keys `h` in `keys`. */
  ghost function SumOver(m: PlayerPayoffs, keys: set<Hand>): real
    requires keys <= m.Keys
    decreases keys
  {
    if keys == {} then 0.0
    else
      var h :| h in keys;
      m[h] + SumOver(m, keys - {h})
  }

  /** Any key can be taken out of the sum first. */
  lemma {:induction false} SumOverRemove(m: PlayerPayoffs, keys: set<Hand>, h: Hand)
    requires keys <= m.Keys && h in keys
    ensures SumOver(m, keys) == m[h] + SumOver(m, keys - {h})
    decreases keys
  {
    var g :| g in keys && SumOver(m, keys) == m[g] + SumOver(m, keys - {g});
    if g != h {
      SumOverRemove(m, keys - {g}, h);
      SumOverRemove(m, keys - {h}, g);
      assert keys - {g} - {h} == keys - {h} - {g};
    }
  }

  /** The sum of all the values of a payoff map. */
  ghost function Total(m: PlayerPayoffs): real
  {
    SumOver(m, m.Keys)
  }

  // ---------------------------------------------------------------------
  // Terminal nodes
  // ---------------------------------------------------------------------

  /** The position of a hole-card tuple in a reach row of length `width`, if it has one. */
  function ReachIndex(rules: GameRules, hc: Hand, width: nat): (r: Option<nat>)
    ensures r.Some? <==> CardsToRangeIndex(rules, hc).Some? && CardsToRangeIndex(rules, hc).value < width
    ensures r.Some? ==> r.value == CardsToRangeIndex(rules, hc).value
  {
    match CardsToRangeIndex(rules, hc)
    case None => None
    case Some(i) => if i < width then Some(i) else None
  }

  /** Real multiplication, named so that products in specifications are matched as terms. */
  function Mul(a: real, b: real): real
  {
    a * b
  }

  /**
   * The product, over the opponents `opp` among the players listed in
   * `hands`, of `reach[opp]` at the index of `hands[opp]`, multiplied in
   * the order of the list; None where the source raises.
   */
  function OppReach(rules: GameRules, reach: Reach, hands: seq<Hand>, player: nat): Option<real>
    decreases |hands|
  {
    if hands == [] then Some(1.0)
    else
      var opp := |hands| - 1;
      match OppReach(rules, reach, hands[..opp], player)
      case None => None
      case Some(p) =>
        if opp == player then Some(p)
        else if opp >= |reach| then None
        else match ReachIndex(rules, hands[opp], |reach[opp]|)
          case None => None
          case Some(i) => Some(Mul(p, reach[opp][i]))
  }

  /** What one payoff entry contributes to `player`: its hole cards and the opponents' reach times its winnings. */
  function EntryValue(rules: GameRules, reach: Reach, e: PayoffEntry, player: nat): Option<(Hand, real)>
  {
    if player >= |e.hands| then None
    else match OppReach(rules, reach, e.hands, player)
      case None => None
      case Some(p) => if player >= |e.winnings| then None else Some((e.hands[player], Mul(p, e.winnings[player])))
  }

  /** No entry makes the source raise: each has a value whose hole cards are a key of the player's payoffs. */
  predicate EntriesFit(rules: GameRules, reach: Reach, entries: seq<PayoffEntry>, player: nat, keys: set<Hand>)
  {
    forall j :: 0 <= j < |entries| ==>
      EntryValue(rules, reach, entries[j], player).Some? && EntryValue(rules, reach, entries[j], player).value.0 in keys
  }

  /** The sum of the values of the entries holding `hc` for `player`. */
  function EntrySum(rules: GameRules, reach: Reach, entries: seq<PayoffEntry>, player: nat, hc: Hand): real
  {
    if entries == [] then 0.0
    else
      var last := EntryValue(rules, reach, entries[|entries| - 1], player);
      EntrySum(rules, reach, entries[..|entries| - 1], player, hc)
        + (if last.Some? && last.value.0 == hc then last.value.1 else 0.0)
  }

  /** The number of entries holding `hc` for `player`. */
  function EntryCount(rules: GameRules, reach: Reach, entries: seq<PayoffEntry>, player: nat, hc: Hand): nat
  {
    if entries == [] then 0
    else
      var last := EntryValue(rules, reach, entries[|entries| - 1], player);
      EntryCount(rules, reach, entries[..|entries| - 1], player, hc)
        + (if last.Some? && last.value.0 == hc then 1 else 0)
  }

  /**
   * A terminal node's payoffs for `player`: for every hole-card tuple of
   * the player, the summed entry values divided by their count, and 0
   * where no entry holds the tuple.
   */
  function PlayerTerminal(rules: GameRules, reach: Reach, root: Node, player: nat): (r: Option<PlayerPayoffs>)
    requires root.Terminal?
    ensures r.Some? <==>
      player < |root.holecards| && EntriesFit(rules, reach, root.payoffs, player, set hc | hc in root.holecards[player])
    ensures r.Some? ==> r.value.Keys == set hc | hc in root.holecards[player]
    ensures r.Some? ==> forall hc :: hc in r.value && EntryCount(rules, reach, root.payoffs, player, hc) == 0 ==>
      r.value[hc] == 0.0
    ensures r.Some? ==> forall hc :: hc in r.value ==>
      AveragedOver(r.value[hc], EntrySum(rules, reach, root.payoffs, player, hc), EntryCount(rules, reach, root.payoffs, player, hc))
  {
    if player >= |root.holecards| then None
    else if !EntriesFit(rules, reach, root.payoffs, player, set hc | hc in root.holecards[player]) then None
    else Some(map hc | hc in root.holecards[player] ::
      Mean(EntrySum(rules, reach, root.payoffs, player, hc), EntryCount(rules, reach, root.payoffs, player, hc)))
  }

  /** `m` is the mean of `count` values summing to `sum`. */
  predicate AveragedOver(m: real, sum: real, count: nat)
  {
    count > 0 ==> m * count as real == sum
  }

  /** `sum / count` where there is something to average, 0 otherwise. */
  function Mean(sum: real, count: nat): (m: real)
    ensures AveragedOver(m, sum, count)
    ensures count == 0 ==> m == 0.0
  {
    if count > 0 then sum / count as real else 0.0
  }

  lemma {:induction false} NoEntriesNoSum(rules: GameRules, reach: Reach, entries: seq<PayoffEntry>, player: nat, hc: Hand)
    requires EntryCount(rules, reach, entries, player, hc) == 0
    ensures EntrySum(rules, reach, entries, player, hc) == 0.0
    decreases |entries|
  {
    if entries != [] {
      NoEntriesNoSum(rules, reach, entries[..|entries| - 1], player, hc);
    }
  }

  /** The inner loop of cfr_terminal_node over one entry's hands: the product of the opponents' reach. */
  method OpponentReach(rules: GameRules, reach: Reach, hands: seq<Hand>, player: nat) returns (r: Option<real>)
    ensures r == OppReach(rules, reach, hands, player)
  {
    var prob := 1.0;
    for opp := 0 to |hands|
      invariant OppReach(rules, reach, hands[..opp], player) == Some(prob)
    {
      OppReachStep(rules, reach, hands, opp, player);
      if opp != player {
        if opp >= |reach| {
          OppReachPrefix(rules, reach, hands, opp + 1, player);
          return None;
        }
        var index := CardsToRangeIndex(rules, hands[opp]);
        if index.None? || index.value >= |reach[opp]| {
          OppReachPrefix(rules, reach, hands, opp + 1, player);
          return None;
        }
        prob := Mul(prob, reach[opp][index.value]);
      }
    }
    assert hands[..|hands|] == hands;
    return Some(prob);
  }

  /**
   * The loop of cfr_terminal_node over the payoff entries for one player:
   * per hole-card tuple of the player, the summed entry values and the
   * entry count; None on the first entry the source raises on.
   */
  method SumEntries(rules: GameRules, reach: Reach, entries: seq<PayoffEntry>, player: nat, hands: seq<Hand>)
    returns (r: Option<(PlayerPayoffs, map<Hand, nat>)>)
    ensures r.Some? <==> EntriesFit(rules, reach, entries, player, set hc | hc in hands)
    ensures r.Some? ==> r.value.0.Keys == (set hc | hc in hands) && r.value.1.Keys == (set hc | hc in hands)
    ensures r.Some? ==> forall hc :: hc in hands ==>
      r.value.0[hc] == EntrySum(rules, reach, entries, player, hc)
      && r.value.1[hc] == EntryCount(rules, reach, entries, player, hc)
  {
    ghost var keys := set hc | hc in hands;
    var sums := ZeroPayoffs(hands);
    var counts: map<Hand, nat> := map hc | hc in hands :: 0;
    for j := 0 to |entries|
      invariant sums.Keys == keys && counts.Keys == keys
      invariant EntriesFit(rules, reach, entries[..j], player, keys)
      invariant forall hc :: hc in keys ==>
        (sums[hc] == EntrySum(rules, reach, entries[..j], player, hc)
         && counts[hc] == EntryCount(rules, reach, entries[..j], player, hc))
    {
      var e := entries[j];
      var prob := OpponentReach(rules, reach, e.hands, player);
      if player >= |e.hands| || prob.None? || player >= |e.winnings| || e.hands[player] !in sums {
        NotFitAt(rules, reach, entries, player, keys, j);
        return None;
      }
      var hc := e.hands[player];
      var w := Mul(prob.value, e.winnings[player]);
      assert EntryValue(rules, reach, e, player) == Some((hc, w));
      SumEntriesStep(rules, reach, entries, player, keys, j, sums, counts, hc, w);
      sums := sums[hc := sums[hc] + w];
      counts := counts[hc := counts[hc] + 1];
    }
    assert entries[..|entries|] == entries;
    return Some((sums, counts));
  }

  /** The division loop of cfr_terminal_node: each sum with a positive count is divided by that count. */
  method DivideByCounts(sums: PlayerPayoffs, counts: map<Hand, nat>) returns (result: PlayerPayoffs)
    requires sums.Keys == counts.Keys
    ensures result.Keys == sums.Keys
    ensures forall hc :: hc in sums ==> result[hc] == (if counts[hc] > 0 then sums[hc] / counts[hc] as real else sums[hc])
  {
    result := sums;
    var todo := counts.Keys;
    while todo != {}
      invariant todo <= sums.Keys && result.Keys == sums.Keys
      invariant forall hc :: hc in sums ==>
        result[hc] == (if hc !in todo && counts[hc] > 0 then sums[hc] / counts[hc] as real else sums[hc])
      decreases todo
    {
      var hc :| hc in todo;
      if counts[hc] > 0 {
        result := result[hc := result[hc] / counts[hc] as real];
      }
      todo := todo - {hc};
    }
  }

  /**
   * cfr_terminal_node: each player's payoff for a hole-card tuple is the
   * sum, over the payoff entries holding it, of the opponents' reach times
   * the player's winnings, divided by the number of such entries; a tuple
   * with no entry keeps 0.
   */
  method TerminalPayoffs(rules: GameRules, reach: Reach, root: Node) returns (r: Option<seq<PlayerPayoffs>>)
    requires root.Terminal?
    ensures r.Some? <==> forall q :: 0 <= q < rules.players ==> PlayerTerminal(rules, reach, root, q).Some?
    ensures r.Some? ==> |r.value| == rules.players
    ensures r.Some? ==> forall q :: 0 <= q < rules.players ==> PlayerTerminal(rules, reach, root, q) == Some(r.value[q])
  {
    var payoffs: seq<PlayerPayoffs> := [];
    for player := 0 to rules.players
      invariant |payoffs| == player
      invariant forall q :: 0 <= q < player ==> PlayerTerminal(rules, reach, root, q) == Some(payoffs[q])
    {
      if player >= |root.holecards| {
        assert PlayerTerminal(rules, reach, root, player).None?;
        return None;
      }
      var hands := root.holecards[player];
      var summed := SumEntries(rules, reach, root.payoffs, player, hands);
      if summed.None? {
        assert PlayerTerminal(rules, reach, root, player).None?;
        return None;
      }
      var (sums, counts) := summed.value;
      var result := DivideByCounts(sums, counts);
      DividedIsTerminal(rules, reach, root, player, sums, counts, result);
      payoffs := payoffs + [result];
    }
    return Some(payoffs);
  }

  /** The divided sums of a player whose entries fit are that player's terminal payoffs. */
  lemma DividedIsTerminal(rules: GameRules, reach: Reach, root: Node, player: nat, sums: PlayerPayoffs,
                          counts: map<Hand, nat>, result: PlayerPayoffs)
    requires root.Terminal? && player < |root.holecards|
    requires EntriesFit(rules, reach, root.payoffs, player, set hc | hc in root.holecards[player])
    requires sums.Keys == (set hc | hc in root.holecards[player]) && counts.Keys == sums.Keys
    requires forall hc :: hc in root.holecards[player] ==>
      sums[hc] == EntrySum(rules, reach, root.payoffs, player, hc)
      && counts[hc] == EntryCount(rules, reach, root.payoffs, player, hc)
    requires result.Keys == sums.Keys
    requires forall hc :: hc in sums ==> result[hc] == (if counts[hc] > 0 then sums[hc] / counts[hc] as real else sums[hc])
    ensures PlayerTerminal(rules, reach, root, player) == Some(result)
  {
    var m := PlayerTerminal(rules, reach, root, player).value;
    forall hc | hc in root.holecards[player]
      ensures result[hc] == m[hc]
    {
      if counts[hc] == 0 {
        NoEntriesNoSum(rules, reach, root.payoffs, player, hc);
      }
    }
    assert result == m;
  }

  /** An entry whose value is missing, or whose hole cards are no key, makes the entries not fit. */
  lemma NotFitAt(rules: GameRules, reach: Reach, entries: seq<PayoffEntry>, player: nat, keys: set<Hand>, j: nat)
    requires j < |entries|
    requires var e := entries[j];
      player >= |e.hands| || OppReach(rules, reach, e.hands, player).None? || player >= |e.winnings|
      || e.hands[player] !in keys
    ensures !EntriesFit(rules, reach, entries, player, keys)
  {
  }

  /** The entry loop's invariant survives adding entry j, whose value `w` goes to the tuple `hc`. */
  lemma SumEntriesStep(rules: GameRules, reach: Reach, entries: seq<PayoffEntry>, player: nat, keys: set<Hand>,
                       j: nat, sums: PlayerPayoffs, counts: map<Hand, nat>, hc: Hand, w: real)
    requires j < |entries| && sums.Keys == keys && counts.Keys == keys
    requires EntriesFit(rules, reach, entries[..j], player, keys)
    requires forall h :: h in keys ==>
      (sums[h] == EntrySum(rules, reach, entries[..j], player, h)
       && counts[h] == EntryCount(rules, reach, entries[..j], player, h))
    requires EntryValue(rules, reach, entries[j], player) == Some((hc, w)) && hc in keys
    ensures EntriesFit(rules, reach, entries[..j + 1], player, keys)
    ensures forall h :: h in keys ==>
      (sums[hc := sums[hc] + w][h] == EntrySum(rules, reach, entries[..j + 1], player, h)
       && counts[hc := counts[hc] + 1][h] == EntryCount(rules, reach, entries[..j + 1], player, h))
  {
    forall h | h in keys
      ensures sums[hc := sums[hc] + w][h] == EntrySum(rules, reach, entries[..j + 1], player, h)
      ensures counts[hc := counts[hc] + 1][h] == EntryCount(rules, reach, entries[..j + 1], player, h)
    {
      EntryStep(rules, reach, entries, player, j, h);
    }
    FitStep(rules, reach, entries, player, keys, j);
  }

  lemma FitStep(rules: GameRules, reach: Reach, entries: seq<PayoffEntry>, player: nat, keys: set<Hand>, j: nat)
    requires j < |entries| && EntriesFit(rules, reach, entries[..j], player, keys)
    requires var v := EntryValue(rules, reach, entries[j], player); v.Some? && v.value.0 in keys
    ensures EntriesFit(rules, reach, entries[..j + 1], player, keys)
  {
    var longer := entries[..j + 1];
    forall i | 0 <= i < |longer|
      ensures EntryValue(rules, reach, longer[i], player).Some?
      ensures EntryValue(rules, reach, longer[i], player).value.0 in keys
    {
      if i < j {
        assert longer[i] == entries[..j][i];
      }
    }
  }

  /** Extending the entries by entry j adds its value and one to the tuple it holds. */
  lemma EntryStep(rules: GameRules, reach: Reach, entries: seq<PayoffEntry>, player: nat, j: nat, hc: Hand)
    requires j < |entries|
    ensures var v := EntryValue(rules, reach, entries[j], player);
      EntrySum(rules, reach, entries[..j + 1], player, hc)
        == EntrySum(rules, reach, entries[..j], player, hc) + (if v.Some? && v.value.0 == hc then v.value.1 else 0.0)
      && EntryCount(rules, reach, entries[..j + 1], player, hc)
        == EntryCount(rules, reach, entries[..j], player, hc) + (if v.Some? && v.value.0 == hc then 1 else 0)
  {
    assert entries[..j + 1][..j] == entries[..j];
  }

  /** One more hand multiplies in that opponent's reach, or nothing when it is the player's own. */
  lemma OppReachStep(rules: GameRules, reach: Reach, hands: seq<Hand>, opp: nat, player: nat)
    requires opp < |hands|
    ensures OppReach(rules, reach, hands[..opp + 1], player) ==
      match OppReach(rules, reach, hands[..opp], player)
      case None => None
      case Some(p) =>
        if opp == player then Some(p)
        else if opp >= |reach| then None
        else match ReachIndex(rules, hands[opp], |reach[opp]|)
          case None => None
          case Some(i) => Some(Mul(p, reach[opp][i]))
  {
    assert hands[..opp + 1][..opp] == hands[..opp];
    assert hands[..opp + 1][opp] == hands[opp];
  }

  /** Once a prefix of the hands has no reach product, neither has the whole list. */
  lemma {:induction false} OppReachPrefix(rules: GameRules, reach: Reach, hands: seq<Hand>, k: nat, player: nat)
    requires k <= |hands| && OppReach(rules, reach, hands[..k], player).None?
    ensures OppReach(rules, reach, hands, player).None?
    decreases |hands| - k
  {
    if k < |hands| {
      assert hands[..k + 1][..k] == hands[..k];
      OppReachPrefix(rules, reach, hands, k + 1, player);
    } else {
      assert hands[..k] == hands;
    }
  }

  /** Every reach probability lies in [0, 1]. */
  predicate ReachInUnit(reach: Reach)
  {
    forall q, i :: 0 <= q < |reach| && 0 <= i < |reach[q]| ==> 0.0 <= reach[q][i] <= 1.0
  }

  /** A product of probabilities is a probability. */
  lemma {:induction false} OppReachInUnit(rules: GameRules, reach: Reach, hands: seq<Hand>, player: nat)
    requires ReachInUnit(reach) && OppReach(rules, reach, hands, player).Some?
    ensures 0.0 <= OppReach(rules, reach, hands, player).value <= 1.0
    decreases |hands|
  {
    if hands != [] {
      var opp := |hands| - 1;
      OppReachInUnit(rules, reach, hands[..opp], player);
      var p := OppReach(rules, reach, hands[..opp], player).value;
      if opp != player {
        var i := ReachIndex(rules, hands[opp], |reach[opp]|).value;
        ProductInUnit(p, reach[opp][i]);
      }
    }
  }

  lemma ProductInUnit(a: real, b: real)
    requires 0.0 <= a <= 1.0 && 0.0 <= b <= 1.0
    ensures 0.0 <= Mul(a, b) <= 1.0
  {
    ProductNonNegative(a, b);
    ProductNonNegative(a, 1.0 - b);
    assert a * b == a - a * (1.0 - b);
  }

  lemma ProductNonNegative(a: real, b: real)
    requires 0.0 <= a && 0.0 <= b
    ensures 0.0 <= a * b
  {
  }

  /** A probability times a winning bounded by `bound` is bounded by `bound`. */
  lemma ScaledBounded(p: real, w: real, bound: real)
    requires 0.0 <= p <= 1.0 && -bound <= w <= bound
    ensures -bound <= Mul(p, w) <= bound
  {
    assert p * w - w == (p - 1.0) * w;
    if w >= 0.0 {
      ProductNonNegative(p, w);
      ProductNonNegative(1.0 - p, w);
    } else {
      ProductNonNegative(p, -w);
      ProductNonNegative(1.0 - p, -w);
    }
  }

  /** The player's winnings in every entry lie within `bound`. */
  predicate WinningsWithin(entries: seq<PayoffEntry>, player: nat, bound: real)
  {
    forall j :: 0 <= j < |entries| && player < |entries[j].winnings| ==>
      -bound <= entries[j].winnings[player] <= bound
  }

  /** The value an entry gives the player lies within `bound`. */
  lemma EntryValueBounded(rules: GameRules, reach: Reach, e: PayoffEntry, player: nat, bound: real)
    requires ReachInUnit(reach) && EntryValue(rules, reach, e, player).Some?
    requires -bound <= e.winnings[player] <= bound
    ensures -bound <= EntryValue(rules, reach, e, player).value.1 <= bound
  {
    var p := OppReach(rules, reach, e.hands, player).value;
    OppReachInUnit(rules, reach, e.hands, player);
    ScaledBounded(p, e.winnings[player], bound);
  }

  /** `bound` added up `c` times. */
  function Repeat(c: nat, bound: real): real
  {
    if c == 0 then 0.0 else Repeat(c - 1, bound) + bound
  }

  lemma {:induction false} RepeatIsProduct(c: nat, bound: real)
    ensures Repeat(c, bound) == Mul(c as real, bound)
  {
    if c > 0 {
      RepeatIsProduct(c - 1, bound);
      assert (c - 1) as real * bound + bound == c as real * bound;
    }
  }

  /** A sum of `count` values within `bound` lies within `count * bound`. */
  lemma {:induction false} EntrySumBounded(rules: GameRules, reach: Reach, entries: seq<PayoffEntry>, player: nat, hc: Hand, bound: real)
    requires ReachInUnit(reach) && WinningsWithin(entries, player, bound)
    ensures -Repeat(EntryCount(rules, reach, entries, player, hc), bound) <= EntrySum(rules, reach, entries, player, hc)
    ensures EntrySum(rules, reach, entries, player, hc) <= Repeat(EntryCount(rules, reach, entries, player, hc), bound)
    decreases |entries|
  {
    if entries != [] {
      var n := |entries| - 1;
      WinningsWithinPrefix(entries, player, bound, n);
      EntrySumBounded(rules, reach, entries[..n], player, hc, bound);
      LastEntryStep(rules, reach, entries, player, hc);
      var v := EntryValue(rules, reach, entries[n], player);
      var x := if v.Some? then v.value.1 else 0.0;
      LastEntryBounded(rules, reach, entries, player, bound);
      AddBounded(EntrySum(rules, reach, entries[..n], player, hc), EntrySum(rules, reach, entries, player, hc),
                 EntryCount(rules, reach, entries[..n], player, hc), EntryCount(rules, reach, entries, player, hc), x, bound);
    }
  }

  /** The value the last entry gives the player lies within `bound`. */
  lemma LastEntryBounded(rules: GameRules, reach: Reach, entries: seq<PayoffEntry>, player: nat, bound: real)
    requires ReachInUnit(reach) && WinningsWithin(entries, player, bound) && entries != []
    ensures var v := EntryValue(rules, reach, entries[|entries| - 1], player);
      v.Some? ==> -bound <= v.value.1 <= bound
  {
    var e := entries[|entries| - 1];
    if EntryValue(rules, reach, e, player).Some? {
      EntryValueBounded(rules, reach, e, player, bound);
    }
  }

  /** Adding one value within `bound`, or nothing, keeps a sum within the repeated bound. */
  lemma AddBounded(sum: real, sum': real, c: nat, c': nat, x: real, bound: real)
    requires -Repeat(c, bound) <= sum <= Repeat(c, bound)
    requires (sum' == sum + x && c' == c + 1 && -bound <= x <= bound) || (sum' == sum && c' == c)
    ensures -Repeat(c', bound) <= sum' <= Repeat(c', bound)
  {
  }

  /** The last entry adds its value to the sum and one to the count when it is for `hc`, and nothing otherwise. */
  lemma LastEntryStep(rules: GameRules, reach: Reach, entries: seq<PayoffEntry>, player: nat, hc: Hand)
    requires entries != []
    ensures var n := |entries| - 1;
      var v := EntryValue(rules, reach, entries[n], player);
      if v.Some? && v.value.0 == hc then
        EntrySum(rules, reach, entries, player, hc) == EntrySum(rules, reach, entries[..n], player, hc) + v.value.1
        && EntryCount(rules, reach, entries, player, hc) == EntryCount(rules, reach, entries[..n], player, hc) + 1
      else
        EntrySum(rules, reach, entries, player, hc) == EntrySum(rules, reach, entries[..n], player, hc)
        && EntryCount(rules, reach, entries, player, hc) == EntryCount(rules, reach, entries[..n], player, hc)
  {
  }

  lemma WinningsWithinPrefix(entries: seq<PayoffEntry>, player: nat, bound: real, n: nat)
    requires WinningsWithin(entries, player, bound) && n <= |entries|
    ensures WinningsWithin(entries[..n], player, bound)
    ensures n < |entries| && player < |entries[n].winnings| ==> -bound <= entries[n].winnings[player] <= bound
  {
    var prefix := entries[..n];
    forall j | 0 <= j < n && player < |prefix[j].winnings|
      ensures -bound <= prefix[j].winnings[player] <= bound
    {
      assert prefix[j] == entries[j];
    }
  }

  /**
   * Terminal payoffs are averages: when every reach probability is in
   * [0, 1] and the player's winnings lie within `bound`, so does every
   * payoff of the player.
   */
  lemma TerminalPayoffBounded(rules: GameRules, reach: Reach, root: Node, player: nat, bound: real)
    requires root.Terminal? && ReachInUnit(reach) && WinningsWithin(root.payoffs, player, bound) && bound >= 0.0
    requires PlayerTerminal(rules, reach, root, player).Some?
    ensures forall hc :: hc in PlayerTerminal(rules, reach, root, player).value ==>
      -bound <= PlayerTerminal(rules, reach, root, player).value[hc] <= bound
  {
    var m := PlayerTerminal(rules, reach, root, player).value;
    forall hc | hc in m
      ensures -bound <= m[hc] <= bound
    {
      var count := EntryCount(rules, reach, root.payoffs, player, hc);
      var sum := EntrySum(rules, reach, root.payoffs, player, hc);
      assert m[hc] == if count > 0 then sum / count as real else 0.0;
      if count > 0 {
        EntrySumBounded(rules, reach, root.payoffs, player, hc, bound);
        RepeatIsProduct(count, bound);
        AverageBounded(sum, count as real, bound);
      }
    }
  }

  lemma AverageBounded(sum: real, count: real, bound: real)
    requires count > 0.0 && -Mul(count, bound) <= sum <= Mul(count, bound)
    ensures -bound <= sum / count <= bound
  {
    assert (count * bound) / count == bound;
    assert sum / count - bound == (sum - count * bound) / count;
    assert sum / count + bound == (sum + count * bound) / count;
  }

  // ---------------------------------------------------------------------
  // Chance nodes
  // ---------------------------------------------------------------------

  /** The shape of a players-by-hands reach table. */
  predicate IsReach(reach: Reach, players: nat, hands: nat)
  {
    |reach| == players && forall q :: 0 <= q < players ==> |reach[q]| == hands
  }

  predicate NonNegativeReach(reach: Reach)
  {
    forall q, i :: 0 <= q < |reach| && 0 <= i < |reach[q]| ==> reach[q][i] >= 0.0
  }

  /** `reachprobs / possible_deals`: every entry divided, the shape kept. */
  function DivideReach(reach: Reach, deals: real): (r: Reach)
    requires deals > 0.0
    ensures |r| == |reach| && forall q :: 0 <= q < |r| ==> |r[q]| == |reach[q]|
    ensures forall q, i :: 0 <= q < |r| && 0 <= i < |r[q]| ==> r[q][i] == reach[q][i] / deals
  {
    seq(|reach|, q requires 0 <= q < |reach| => seq(|reach[q]|, i requires 0 <= i < |reach[q]| => reach[q][i] / deals))
  }

  /**
   * Dividing by a positive number of deals keeps reach non-negative, and
   * dividing by at least one deal keeps probabilities probabilities.
   */
  lemma DivideReachKeepsProbabilities(reach: Reach, deals: real)
    requires deals > 0.0
    ensures NonNegativeReach(reach) ==> NonNegativeReach(DivideReach(reach, deals))
    ensures deals >= 1.0 && ReachInUnit(reach) ==> ReachInUnit(DivideReach(reach, deals))
  {
    var r := DivideReach(reach, deals);
    forall q, i | 0 <= q < |r| && 0 <= i < |r[q]|
      ensures reach[q][i] >= 0.0 ==> r[q][i] >= 0.0
      ensures deals >= 1.0 && 0.0 <= reach[q][i] <= 1.0 ==> 0.0 <= r[q][i] <= 1.0
    {
      QuotientBounds(reach[q][i], deals);
    }
  }

  lemma QuotientBounds(x: real, d: real)
    requires d > 0.0
    ensures x >= 0.0 ==> x / d >= 0.0
    ensures d >= 1.0 && 0.0 <= x <= 1.0 ==> x / d <= 1.0
  {
    assert x / d - x == x * (1.0 - d) / d;
  }

  /**
   * The payoff merge of cfr_holecard_node: per player, every child payoff
   * is added into the key `hand[0:0]`, the empty tuple, of a map that
   * starts at 0 on the node's hole-card tuples. It raises when a player
   * with child payoffs has no empty tuple among the node's hole cards.
   */
  method CollapseToEmptyHand(holecards: seq<seq<Hand>>, sub: seq<PlayerPayoffs>, players: nat)
    returns (r: Option<seq<PlayerPayoffs>>)
    requires |sub| == players
    ensures r.Some? <==> |holecards| >= players && forall q :: 0 <= q < players && sub[q] != map[] ==> [] in holecards[q]
    ensures r.Some? ==> |r.value| == players
    ensures r.Some? ==> forall q :: 0 <= q < players ==>
      r.value[q] == if sub[q] == map[] then ZeroPayoffs(holecards[q]) else ZeroPayoffs(holecards[q])[[] := Total(sub[q])]
  {
    if |holecards| < players {
      return None;
    }
    var payoffs := seq(players, q requires 0 <= q < players => ZeroPayoffs(holecards[q]));
    for player := 0 to players
      invariant |payoffs| == players
      invariant forall q :: player <= q < players ==> payoffs[q] == ZeroPayoffs(holecards[q])
      invariant forall q :: 0 <= q < player ==> (sub[q] != map[] ==> [] in holecards[q])
      invariant forall q :: 0 <= q < player ==>
        payoffs[q] == if sub[q] == map[] then ZeroPayoffs(holecards[q]) else ZeroPayoffs(holecards[q])[[] := Total(sub[q])]
    {
      var merged := SumIntoEmptyHand(sub[player], ZeroPayoffs(holecards[player]));
      if merged.None? {
        return None;
      }
      payoffs := payoffs[player := merged.value];
    }
    return Some(payoffs);
  }

  /** The inner loop of cfr_holecard_node for one player: every child payoff is added into the empty tuple. */
  method SumIntoEmptyHand(m: PlayerPayoffs, zero: PlayerPayoffs) returns (r: Option<PlayerPayoffs>)
    requires [] in zero ==> zero[[]] == 0.0
    ensures r.Some? <==> m == map[] || [] in zero
    ensures r.Some? ==> r.value == if m == map[] then zero else zero[[] := Total(m)]
  {
    var acc := zero;
    var todo := m.Keys;
    ghost var sum := 0.0;
    assert m.Keys - todo == {};
    while todo != {}
      invariant todo <= m.Keys
      invariant sum == SumOver(m, m.Keys - todo)
      invariant todo == m.Keys ==> acc == zero
      invariant todo != m.Keys ==> [] in zero && acc == zero[[] := sum]
      decreases todo
    {
      var hand :| hand in todo;
      var hc := hand[..0];
      if hc !in acc {
        assert hc == [] && hand in m;
        return None;
      }
      ghost var done := m.Keys - todo;
      SumOverRemove(m, done + {hand}, hand);
      assert done + {hand} - {hand} == done;
      acc := acc[hc := acc[hc] + m[hand]];
      sum := sum + m[hand];
      todo := todo - {hand};
      assert m.Keys - todo == done + {hand};
    }
    assert m.Keys - {} == m.Keys;
    if m.Keys == {} {
      assert m == map[];
    }
    return Some(acc);
  }

  /** `after` is `before` with the child payoffs `sub` added key by key. */
  predicate AddedTo(before: PlayerPayoffs, sub: PlayerPayoffs, after: PlayerPayoffs)
  {
    after.Keys == before.Keys
    && forall h :: h in before ==> after[h] == before[h] + (if h in sub then sub[h] else 0.0)
  }

  /**
   * The payoff merge of cfr_boardcard_node for one child: every child
   * payoff is added to the same hand's payoff; a hand the node does not
   * list raises.
   */
  method AddChildPayoffs(acc: seq<PlayerPayoffs>, sub: seq<PlayerPayoffs>) returns (r: Option<seq<PlayerPayoffs>>)
    requires |sub| == |acc|
    ensures r.Some? <==> forall q :: 0 <= q < |acc| ==> sub[q].Keys <= acc[q].Keys
    ensures r.Some? ==> |r.value| == |acc| && forall q :: 0 <= q < |acc| ==> AddedTo(acc[q], sub[q], r.value[q])
  {
    var payoffs := acc;
    for player := 0 to |sub|
      invariant |payoffs| == |acc|
      invariant forall q :: player <= q < |acc| ==> payoffs[q] == acc[q]
      invariant forall q :: 0 <= q < player ==> sub[q].Keys <= acc[q].Keys && AddedTo(acc[q], sub[q], payoffs[q])
    {
      var m := sub[player];
      var cur := payoffs[player];
      var todo := m.Keys;
      while todo != {}
        invariant todo <= m.Keys && cur.Keys == acc[player].Keys
        invariant m.Keys - todo <= acc[player].Keys
        invariant forall h :: h in cur ==>
          cur[h] == acc[player][h] + (if h in m && h !in todo then m[h] else 0.0)
        decreases todo
      {
        var hand :| hand in todo;
        if hand !in cur {
          return None;
        }
        cur := cur[hand := cur[hand] + m[hand]];
        todo := todo - {hand};
      }
      payoffs := payoffs[player := cur];
    }
    return Some(payoffs);
  }

  // ---------------------------------------------------------------------
  // Action nodes
  // ---------------------------------------------------------------------

  /** The information set the acting player sees at an action node holding `hc`. */
  function InfosetOf(rules: GameRules, root: Node, hc: Hand): string
    requires root.Action?
  {
    rules.infosetFormat(root.player, hc, root.board, root.history)
  }

  /** Every vector of a policy has the three action slots. */
  predicate ThreeSlots(policy: map<string, seq<real>>)
  {
    forall k :: k in policy ==> |policy[k]| == 3
  }

  /**
   * Strategy.probs: the policy's vector at information set `k`, or, for an
   * information set the policy has never seen, the equal split over the
   * node's actions. None only where that split divides by an empty
   * children list.
   */
  function PolicyProbs(policy: map<string, seq<real>>, root: Node, k: string): (r: Option<seq<real>>)
    requires root.Action?
    ensures k in policy ==> r == Some(policy[k])
    ensures k !in policy ==> (r.Some? <==> Strategies.CanShareEqually(root))
    ensures k !in policy && r.Some? ==> r.value == Strategies.EqualProbs(root)
  {
    if k in policy then Some(policy[k])
    else if Strategies.CanShareEqually(root) then Some(Strategies.EqualProbs(root))
    else None
  }

  /** A three-slot policy yields three-slot vectors, and a non-negative one non-negative vectors. */
  lemma PolicyProbsShape(policy: map<string, seq<real>>, root: Node, k: string)
    requires root.Action? && ThreeSlots(policy) && PolicyProbs(policy, root, k).Some?
    ensures |PolicyProbs(policy, root, k).value| == 3
    ensures (forall k' :: k' in policy ==> Strategies.NonNegative(policy[k'])) ==>
      Strategies.NonNegative(PolicyProbs(policy, root, k).value)
  {
  }

  /** Every row of a hands-by-actions table has the three action slots. */
  predicate ThreeColumns(probs: seq<seq<real>>)
  {
    forall i :: 0 <= i < |probs| ==> |probs[i]| == 3
  }

  /**
   * Row `i` of action_probs: for an allowed hand, the strategy's vector at
   * the information set of the hand range index `i` decodes to, or the
   * equal split over the node's actions for an information set the
   * strategy has never seen; zeros for a hand the mask excludes. None where
   * decoding fails, or where the equal split divides by an empty children
   * list.
   */
  function ProbsRow(rules: GameRules, allowed: seq<bool>, policy: map<string, seq<real>>, root: Node, i: nat): Option<seq<real>>
    requires root.Action? && i < |allowed|
  {
    if !allowed[i] then Some([0.0, 0.0, 0.0])
    else match RangeIndexToCards(rules, i)
      case None => None
      case Some(cards) =>
        PolicyProbs(policy, root, InfosetOf(rules, root, cards))
  }

  /**
   * The first loop of cfr_action_node: the table of action probabilities,
   * one row per range index. Its rows are the strategy's vectors, so a
   * non-negative strategy gives a non-negative table.
   */
  method ActionProbs(rules: GameRules, allowed: seq<bool>, policy: map<string, seq<real>>, root: Node)
    returns (r: Option<seq<seq<real>>>)
    requires root.Action? && ThreeSlots(policy)
    ensures r.Some? <==> forall i :: 0 <= i < |allowed| ==> ProbsRow(rules, allowed, policy, root, i).Some?
    ensures r.Some? ==> |r.value| == |allowed| && ThreeColumns(r.value)
    ensures r.Some? ==> forall i :: 0 <= i < |allowed| ==> ProbsRow(rules, allowed, policy, root, i) == Some(r.value[i])
    ensures r.Some? && (forall k :: k in policy ==> Strategies.NonNegative(policy[k])) ==>
      forall i :: 0 <= i < |allowed| ==> Strategies.NonNegative(r.value[i])
  {
    var probs := seq(|allowed|, _ => [0.0, 0.0, 0.0]);
    for i := 0 to |allowed|
      invariant |probs| == |allowed| && ThreeColumns(probs)
      invariant forall j :: i <= j < |allowed| ==> probs[j] == [0.0, 0.0, 0.0]
      invariant forall j :: 0 <= j < i ==> ProbsRow(rules, allowed, policy, root, j) == Some(probs[j])
      invariant (forall k :: k in policy ==> Strategies.NonNegative(policy[k])) ==>
        forall j :: 0 <= j < |allowed| ==> Strategies.NonNegative(probs[j])
    {
      if allowed[i] {
        var cards := RangeIndexToCards(rules, i);
        if cards.None? {
          assert ProbsRow(rules, allowed, policy, root, i).None?;
          return None;
        }
        var v := PolicyProbs(policy, root, InfosetOf(rules, root, cards.value));
        if v.None? {
          assert ProbsRow(rules, allowed, policy, root, i).None?;
          return None;
        }
        PolicyProbsShape(policy, root, InfosetOf(rules, root, cards.value));
        probs := probs[i := v.value];
      }
    }
    return Some(probs);
  }

  /** `next` is `reach` with the acting player's row scaled by the probabilities of action `a` at the allowed hands. */
  predicate ActingRowScaled(reach: Reach, player: nat, allowed: seq<bool>, probs: seq<seq<real>>, a: nat, next: Reach)
    requires player < |reach| && |reach[player]| == |allowed| == |probs| && ThreeColumns(probs) && a < 3
  {
    && |next| == |reach|
    && (forall q :: 0 <= q < |reach| && q != player ==> next[q] == reach[q])
    && |next[player]| == |reach[player]|
    && forall i :: 0 <= i < |allowed| ==>
         next[player][i] == if allowed[i] then Mul(probs[i][a], reach[player][i]) else reach[player][i]
  }

  /**
   * The reach table passed down one action's branch: the acting player's
   * reach of every allowed hand times that hand's probability of the
   * action, everything else as in `reach`. (The source overwrites the same
   * copy for each action; since every allowed entry is overwritten, each
   * branch sees this table.)
   */
  method ScaleActingRow(reach: Reach, player: nat, allowed: seq<bool>, probs: seq<seq<real>>, a: nat) returns (next: Reach)
    requires player < |reach| && |reach[player]| == |allowed| == |probs| && ThreeColumns(probs) && a < 3
    ensures ActingRowScaled(reach, player, allowed, probs, a, next)
    ensures NonNegativeReach(reach) && (forall i :: 0 <= i < |probs| ==> Strategies.NonNegative(probs[i])) ==>
      NonNegativeReach(next)
  {
    var row := reach[player];
    for i := 0 to |allowed|
      invariant |row| == |allowed|
      invariant forall j :: 0 <= j < |allowed| ==>
        row[j] == if j < i && allowed[j] then Mul(probs[j][a], reach[player][j]) else reach[player][j]
    {
      if allowed[i] {
        row := row[i := Mul(probs[i][a], reach[player][i])];
      }
    }
    next := reach[player := row];
    if NonNegativeReach(reach) && (forall i :: 0 <= i < |probs| ==> Strategies.NonNegative(probs[i])) {
      forall i | 0 <= i < |allowed| && allowed[i]
        ensures next[player][i] >= 0.0
      {
        assert probs[i][a] >= 0.0 && reach[player][i] >= 0.0;
        ProductNonNegative(probs[i][a], reach[player][i]);
      }
    }
  }

  /** The range index of every allowed hand decodes to hole cards. */
  predicate MaskDecodes(rules: GameRules, allowed: seq<bool>)
  {
    forall i :: 0 <= i < |allowed| && allowed[i] ==> RangeIndexToCards(rules, i).Some?
  }

  /** The hole cards of the allowed range indices below `n`. */
  function AllowedKeysUpTo(rules: GameRules, allowed: seq<bool>, n: nat): set<Hand>
    requires MaskDecodes(rules, allowed) && n <= |allowed|
  {
    set i | 0 <= i < n && allowed[i] :: RangeIndexToCards(rules, i).value
  }

  /** The keys of every player's payoffs at an action node: the hole cards of all allowed range indices. */
  function AllowedKeys(rules: GameRules, allowed: seq<bool>): set<Hand>
    requires MaskDecodes(rules, allowed)
  {
    AllowedKeysUpTo(rules, allowed, |allowed|)
  }

  lemma AllowedKeysStep(rules: GameRules, allowed: seq<bool>, n: nat)
    requires MaskDecodes(rules, allowed) && n < |allowed|
    ensures AllowedKeysUpTo(rules, allowed, n + 1) ==
      AllowedKeysUpTo(rules, allowed, n) + (if allowed[n] then {RangeIndexToCards(rules, n).value} else {})
  {
  }

  /** `{range_index_to_cards(i): 0 for every allowed i}` */
  method AllowedZeros(rules: GameRules, allowed: seq<bool>) returns (m: PlayerPayoffs)
    requires MaskDecodes(rules, allowed)
    ensures m.Keys == AllowedKeys(rules, allowed)
    ensures forall h :: h in m ==> m[h] == 0.0
  {
    m := map[];
    for i := 0 to |allowed|
      invariant m.Keys == AllowedKeysUpTo(rules, allowed, i)
      invariant forall h :: h in m ==> m[h] == 0.0
    {
      AllowedKeysStep(rules, allowed, i);
      if allowed[i] {
        m := m[RangeIndexToCards(rules, i).value := 0.0];
      }
    }
  }

  /**
   * What one action's child payoff of hand `h` adds to a player's payoff at
   * an action node: the acting player weights it by the hand's probability
   * of the action, since the acting player's own reach below carries no
   * such factor; every other player takes it as it is.
   */
  function Contribution(rules: GameRules, probs: seq<seq<real>>, sub: PlayerPayoffs, acting: bool, a: nat, h: Hand): real
    requires ThreeColumns(probs) && a < 3
  {
    if h !in sub then 0.0
    else if !acting then sub[h]
    else match ReachIndex(rules, h, |probs|)
      case None => 0.0
      case Some(i) => Mul(sub[h], probs[i][a])
  }

  /** One action's child payoff raises nowhere: its hands are keys, and the acting player's hands have a row. */
  predicate ContributionFits(rules: GameRules, probs: seq<seq<real>>, sub: PlayerPayoffs, acting: bool, keys: set<Hand>)
  {
    sub.Keys <= keys && (acting ==> forall h :: h in sub ==> ReachIndex(rules, h, |probs|).Some?)
  }

  /** The child payoffs of every legal action have an entry for each player. */
  predicate ActionPayoffsShape(actionPayoffs: seq<Option<seq<PlayerPayoffs>>>, players: nat)
  {
    |actionPayoffs| == 3
    && forall a :: 0 <= a < 3 && actionPayoffs[a].Some? ==> |actionPayoffs[a].value| == players
  }

  /** The contribution of action `a`, 0 when the action is not legal. */
  function ActionTerm(rules: GameRules, probs: seq<seq<real>>, actionPayoffs: seq<Option<seq<PlayerPayoffs>>>,
                      pl: nat, actor: nat, a: nat, h: Hand): real
    requires ThreeColumns(probs) && a < 3 && |actionPayoffs| == 3
    requires actionPayoffs[a].Some? ==> pl < |actionPayoffs[a].value|
  {
    if actionPayoffs[a].None? then 0.0
    else Contribution(rules, probs, actionPayoffs[a].value[pl], pl == actor, a, h)
  }

  /** The contributions of the first `n` actions. */
  function TermsUpTo(rules: GameRules, probs: seq<seq<real>>, actionPayoffs: seq<Option<seq<PlayerPayoffs>>>,
                     pl: nat, actor: nat, n: nat, h: Hand): real
    requires ThreeColumns(probs) && n <= 3 && |actionPayoffs| == 3
    requires forall a :: 0 <= a < 3 && actionPayoffs[a].Some? ==> pl < |actionPayoffs[a].value|
  {
    if n == 0 then 0.0
    else TermsUpTo(rules, probs, actionPayoffs, pl, actor, n - 1, h) + ActionTerm(rules, probs, actionPayoffs, pl, actor, n - 1, h)
  }

  /** Player `pl`'s payoff of hand `h` at an action node: the sum of the legal actions' contributions. */
  function Combined(rules: GameRules, probs: seq<seq<real>>, actionPayoffs: seq<Option<seq<PlayerPayoffs>>>,
                    pl: nat, actor: nat, h: Hand): real
    requires ThreeColumns(probs) && |actionPayoffs| == 3
    requires forall a :: 0 <= a < 3 && actionPayoffs[a].Some? ==> pl < |actionPayoffs[a].value|
  {
    TermsUpTo(rules, probs, actionPayoffs, pl, actor, 3, h)
  }

  /** The loop of cfr_action_node over one action's child payoffs for one player. */
  method AddContribution(rules: GameRules, probs: seq<seq<real>>, cur: PlayerPayoffs, sub: PlayerPayoffs, acting: bool, a: nat)
    returns (r: Option<PlayerPayoffs>)
    requires ThreeColumns(probs) && a < 3
    ensures r.Some? <==> ContributionFits(rules, probs, sub, acting, cur.Keys)
    ensures r.Some? ==> r.value.Keys == cur.Keys
    ensures r.Some? ==> forall h :: h in cur ==> r.value[h] == cur[h] + Contribution(rules, probs, sub, acting, a, h)
  {
    var acc := cur;
    var todo := sub.Keys;
    while todo != {}
      invariant todo <= sub.Keys && acc.Keys == cur.Keys
      invariant sub.Keys - todo <= cur.Keys
      invariant acting ==> forall h :: h in sub.Keys - todo ==> ReachIndex(rules, h, |probs|).Some?
      invariant forall h :: h in acc ==>
        acc[h] == cur[h] + (if h in todo then 0.0 else Contribution(rules, probs, sub, acting, a, h))
      decreases todo
    {
      var hc :| hc in todo;
      if hc !in acc {
        return None;
      }
      if acting {
        var index := CardsToRangeIndex(rules, hc);
        if index.None? || index.value >= |probs| {
          assert ReachIndex(rules, hc, |probs|).None?;
          return None;
        }
        acc := acc[hc := acc[hc] + Mul(sub[hc], probs[index.value][a])];
      } else {
        acc := acc[hc := acc[hc] + sub[hc]];
      }
      todo := todo - {hc};
    }
    return Some(acc);
  }

  /** Every legal action's child payoff of player `pl` raises nowhere. */
  predicate PlayerFits(rules: GameRules, probs: seq<seq<real>>, actionPayoffs: seq<Option<seq<PlayerPayoffs>>>,
                       pl: nat, actor: nat, keys: set<Hand>)
    requires |actionPayoffs| == 3
  {
    forall a :: 0 <= a < 3 && actionPayoffs[a].Some? ==>
      pl < |actionPayoffs[a].value| && ContributionFits(rules, probs, actionPayoffs[a].value[pl], pl == actor, keys)
  }

  /** Player `pl`'s combined payoffs: keyed by `keys`, each the sum of the legal actions' contributions. */
  predicate PlayerCombined(rules: GameRules, probs: seq<seq<real>>, actionPayoffs: seq<Option<seq<PlayerPayoffs>>>,
                           pl: nat, actor: nat, keys: set<Hand>, m: PlayerPayoffs)
    requires ThreeColumns(probs) && |actionPayoffs| == 3
  {
    && PlayerFits(rules, probs, actionPayoffs, pl, actor, keys)
    && m.Keys == keys
    && forall h :: h in m ==> m[h] == Combined(rules, probs, actionPayoffs, pl, actor, h)
  }

  /**
   * The payoff loop of cfr_action_node: every player's payoffs are keyed
   * by the allowed hands, and each is the sum over the legal actions of
   * that action's contribution.
   */
  method CombineActionPayoffs(rules: GameRules, players: nat, actor: nat, allowed: seq<bool>,
                              actionPayoffs: seq<Option<seq<PlayerPayoffs>>>, probs: seq<seq<real>>)
    returns (r: Option<seq<PlayerPayoffs>>)
    requires MaskDecodes(rules, allowed) && ActionPayoffsShape(actionPayoffs, players) && ThreeColumns(probs)
    ensures r.Some? <==> forall pl :: 0 <= pl < players ==> PlayerFits(rules, probs, actionPayoffs, pl, actor, AllowedKeys(rules, allowed))
    ensures r.Some? ==> |r.value| == players
    ensures r.Some? ==> forall pl :: 0 <= pl < players ==>
      PlayerCombined(rules, probs, actionPayoffs, pl, actor, AllowedKeys(rules, allowed), r.value[pl])
  {
    ghost var keys := AllowedKeys(rules, allowed);
    var payoffs: seq<PlayerPayoffs> := [];
    for pl := 0 to players
      invariant |payoffs| == pl
      invariant forall q :: 0 <= q < pl ==> PlayerCombined(rules, probs, actionPayoffs, q, actor, keys, payoffs[q])
    {
      var cur := CombinePlayer(rules, pl, actor, allowed, actionPayoffs, probs);
      if cur.None? {
        return None;
      }
      payoffs := payoffs + [cur.value];
    }
    forall q | 0 <= q < players
      ensures PlayerFits(rules, probs, actionPayoffs, q, actor, keys)
    {
      assert PlayerCombined(rules, probs, actionPayoffs, q, actor, keys, payoffs[q]);
    }
    return Some(payoffs);
  }

  /** One player's part of the payoff loop. */
  method CombinePlayer(rules: GameRules, pl: nat, actor: nat, allowed: seq<bool>,
                       actionPayoffs: seq<Option<seq<PlayerPayoffs>>>, probs: seq<seq<real>>)
    returns (r: Option<PlayerPayoffs>)
    requires MaskDecodes(rules, allowed) && ThreeColumns(probs) && |actionPayoffs| == 3
    requires forall a :: 0 <= a < 3 && actionPayoffs[a].Some? ==> pl < |actionPayoffs[a].value|
    ensures r.Some? <==> PlayerFits(rules, probs, actionPayoffs, pl, actor, AllowedKeys(rules, allowed))
    ensures r.Some? ==> PlayerCombined(rules, probs, actionPayoffs, pl, actor, AllowedKeys(rules, allowed), r.value)
  {
    ghost var keys := AllowedKeys(rules, allowed);
    var cur := AllowedZeros(rules, allowed);
    for a := 0 to 3
      invariant cur.Keys == keys
      invariant forall b :: 0 <= b < a && actionPayoffs[b].Some? ==>
        ContributionFits(rules, probs, actionPayoffs[b].value[pl], pl == actor, keys)
      invariant forall h :: h in cur ==> cur[h] == TermsUpTo(rules, probs, actionPayoffs, pl, actor, a, h)
    {
      if actionPayoffs[a].Some? {
        var added := AddContribution(rules, probs, cur, actionPayoffs[a].value[pl], pl == actor, a);
        if added.None? {
          return None;
        }
        cur := added.value;
      }
    }
    return Some(cur);
  }

  /**
   * The acting player's payoff of a hand is an expectation over its
   * actions: when the hand's probability row is a distribution and every
   * legal action's payoff lies within [-bound, bound], so does the
   * combined payoff.
   */
  lemma ActingPayoffBounded(rules: GameRules, probs: seq<seq<real>>, actionPayoffs: seq<Option<seq<PlayerPayoffs>>>,
                            actor: nat, h: Hand, bound: real)
    requires ThreeColumns(probs) && |actionPayoffs| == 3 && bound >= 0.0
    requires forall a :: 0 <= a < 3 && actionPayoffs[a].Some? ==> actor < |actionPayoffs[a].value|
    requires ReachIndex(rules, h, |probs|).Some? && Strategies.IsDistribution(probs[ReachIndex(rules, h, |probs|).value])
    requires forall a :: 0 <= a < 3 && actionPayoffs[a].Some? && h in actionPayoffs[a].value[actor] ==>
      -bound <= actionPayoffs[a].value[actor][h] <= bound
    ensures -bound <= Combined(rules, probs, actionPayoffs, actor, actor, h) <= bound
  {
    var p := probs[ReachIndex(rules, h, |probs|).value];
    var t0 := ActionTerm(rules, probs, actionPayoffs, actor, actor, 0, h);
    var t1 := ActionTerm(rules, probs, actionPayoffs, actor, actor, 1, h);
    var t2 := ActionTerm(rules, probs, actionPayoffs, actor, actor, 2, h);
    assert TermsUpTo(rules, probs, actionPayoffs, actor, actor, 1, h) == t0;
    assert TermsUpTo(rules, probs, actionPayoffs, actor, actor, 2, h) == t0 + t1;
    assert Combined(rules, probs, actionPayoffs, actor, actor, h) == t0 + t1 + t2;
    TermBounded(rules, probs, actionPayoffs, actor, 0, h, bound);
    TermBounded(rules, probs, actionPayoffs, actor, 1, h, bound);
    TermBounded(rules, probs, actionPayoffs, actor, 2, h, bound);
    ScaledSum(p, bound);
  }

  lemma ScaledSum(p: seq<real>, b: real)
    requires |p| == 3
    ensures Mul(p[0], b) + Mul(p[1], b) + Mul(p[2], b) == Strategies.Total(p) * b
  {
  }

  /** One action's term for the acting player lies within its probability times the bound. */
  lemma TermBounded(rules: GameRules, probs: seq<seq<real>>, actionPayoffs: seq<Option<seq<PlayerPayoffs>>>,
                    actor: nat, a: nat, h: Hand, bound: real)
    requires ThreeColumns(probs) && |actionPayoffs| == 3 && a < 3 && bound >= 0.0
    requires actionPayoffs[a].Some? ==> actor < |actionPayoffs[a].value|
    requires ReachIndex(rules, h, |probs|).Some? && Strategies.NonNegative(probs[ReachIndex(rules, h, |probs|).value])
    requires actionPayoffs[a].Some? && h in actionPayoffs[a].value[actor] ==> -bound <= actionPayoffs[a].value[actor][h] <= bound
    ensures var p := probs[ReachIndex(rules, h, |probs|).value][a];
      -Mul(p, bound) <= ActionTerm(rules, probs, actionPayoffs, actor, actor, a, h) <= Mul(p, bound)
  {
    var p := probs[ReachIndex(rules, h, |probs|).value][a];
    ProductNonNegative(p, bound);
    if actionPayoffs[a].Some? && h in actionPayoffs[a].value[actor] {
      var w := actionPayoffs[a].value[actor][h];
      assert ActionTerm(rules, probs, actionPayoffs, actor, actor, a, h) == Mul(w, p);
      ProductNonNegative(p, bound - w);
      ProductNonNegative(p, bound + w);
      assert p * (bound - w) == p * bound - w * p;
      assert p * (bound + w) == p * bound + w * p;
    }
  }
}

=== FILE: cfr_updates.dfy ===
/**
 * The two accumulator updates of an action node, on the values of the
 * minimizer's tables: the strategy update (seeding the average-strategy
 * accumulator on the first sweep, regret matching and accumulation on the
 * later ones) and the counterfactual regret update.
 *
 * A table maps an information set to one three-slot row per player (a
 * `np.zeros((players, 3))` array in the source); a policy maps an
 * information set to a three-slot vector.
 */
module CfrUpdates {
  import opened Wrappers
  import opened Cards
  import opened HandRanges
  import opened PublicTree
  import opened CfrNodes
  import S = Strategies

  type Table = map<string, seq<seq<real>>>
  type Policy = map<string, seq<real>>

  /** Every entry of the table has one three-slot row per player. */
  predicate TableShape(t: Table, players: nat)
  {
    forall k :: k in t ==> |t[k]| == players && forall q :: 0 <= q < players ==> |t[k][q]| == 3
  }

  /** Every slot of every row is non-negative. */
  predicate TableNonNegative(t: Table)
  {
    forall k, q :: k in t && 0 <= q < |t[k]| ==> S.NonNegative(t[k][q])
  }

  predicate PolicyNonNegative(p: Policy)
  {
    forall k :: k in p ==> S.NonNegative(p[k])
  }

  predicate RowNonNegative(row: seq<real>)
  {
    forall i :: 0 <= i < |row| ==> row[i] >= 0.0
  }

  /** `t[k][q] = v`: one player's row of one entry replaced. */
  function SetRow(t: Table, k: string, q: nat, v: seq<real>): (r: Table)
    requires k in t && q < |t[k]|
    ensures r.Keys == t.Keys && r[k] == t[k][q := v]
    ensures forall k' :: k' in t && k' != k ==> r[k'] == t[k']
  {
    t[k := t[k][q := v]]
  }

  /** Replacing a row by a three-slot row keeps the shape, and by a non-negative row keeps the table non-negative. */
  lemma SetRowKeeps(t: Table, players: nat, k: string, q: nat, v: seq<real>)
    requires TableShape(t, players) && k in t && q < players && |v| == 3
    ensures TableShape(SetRow(t, k, q, v), players)
    ensures TableNonNegative(t) && S.NonNegative(v) ==> TableNonNegative(SetRow(t, k, q, v))
  {
    var r := SetRow(t, k, q, v);
    if TableNonNegative(t) && S.NonNegative(v) {
      forall k', q' | k' in r && 0 <= q' < |r[k']|
        ensures S.NonNegative(r[k'][q'])
      {
        if k' != k || q' != q {
          assert r[k'][q'] == t[k'][q'];
        }
      }
    }
  }

  /** The position of the last of the first `n` tuples in `hcs` whose information set is `k`. */
  function LastWithin(rules: GameRules, root: Node, hcs: seq<Hand>, n: nat, k: string): (r: Option<nat>)
    requires root.Action? && n <= |hcs|
    ensures r.Some? ==> r.value < n && InfosetOf(rules, root, hcs[r.value]) == k
  {
    if n == 0 then None
    else if InfosetOf(rules, root, hcs[n - 1]) == k then Some(n - 1)
    else LastWithin(rules, root, hcs, n - 1, k)
  }

  // ---------------------------------------------------------------------
  // First sweep: seeding the average-strategy accumulator
  // ---------------------------------------------------------------------

  /**
   * The first `n` steps of the first-sweep loop raise nowhere: the default
   * strategy yields a vector for every information set (its own, or the
   * equal split for one it has never seen), every information set has an
   * accumulator entry, every hand a reach index.
   */
  predicate SeedFits(rules: GameRules, root: Node, row: seq<real>, hcs: seq<Hand>, n: nat, defaults: Policy, acc: Table)
    requires root.Action? && n <= |hcs|
  {
    forall j :: 0 <= j < n ==>
      PolicyProbs(defaults, root, InfosetOf(rules, root, hcs[j])).Some? && InfosetOf(rules, root, hcs[j]) in acc
      && ReachIndex(rules, hcs[j], |row|).Some?
  }

  /**
   * The accumulator entry of information set `k` after the first `n`
   * steps of the first sweep: the acting player's row is the default
   * vector times the reach of the LAST of those hands with that
   * information set (each hand overwrites the row); an information set no
   * hand has is unchanged.
   */
  function SeededEntry(rules: GameRules, root: Node, row: seq<real>, hcs: seq<Hand>, n: nat, defaults: Policy, acc: Table,
                       players: nat, k: string): seq<seq<real>>
    requires root.Action? && root.player < players && TableShape(acc, players) && ThreeSlots(defaults)
    requires n <= |hcs| && SeedFits(rules, root, row, hcs, n, defaults, acc) && k in acc
  {
    var last := LastWithin(rules, root, hcs, n, k);
    if last.None? then acc[k]
    else acc[k][root.player := S.Times(PolicyProbs(defaults, root, k).value, row[ReachIndex(rules, hcs[last.value], |row|).value])]
  }

  /** The state of the first-sweep loop after `n` steps. */
  predicate Seeded(rules: GameRules, root: Node, row: seq<real>, hcs: seq<Hand>, n: nat, defaults: Policy, acc: Table,
                   players: nat, t: Table)
    requires root.Action? && root.player < players && TableShape(acc, players) && ThreeSlots(defaults)
    requires n <= |hcs| && SeedFits(rules, root, row, hcs, n, defaults, acc)
  {
    t.Keys == acc.Keys && forall k :: k in acc ==> t[k] == SeededEntry(rules, root, row, hcs, n, defaults, acc, players, k)
  }

  /**
   * The first-sweep branch of cfr_strategy_update: for each hand of the
   * acting player, the accumulator row of its information set is set to
   * the default strategy's vector times the hand's reach (Strategy.probs
   * gives the equal split for an information set the strategy lacks).
   */
  method SeedAccumulators(rules: GameRules, root: Node, row: seq<real>, hcs: seq<Hand>, defaults: Policy, acc: Table, players: nat)
    returns (r: Option<Table>)
    requires root.Action? && root.player < players && TableShape(acc, players) && ThreeSlots(defaults)
    ensures r.Some? <==> SeedFits(rules, root, row, hcs, |hcs|, defaults, acc)
    ensures r.Some? ==> Seeded(rules, root, row, hcs, |hcs|, defaults, acc, players, r.value)
    ensures r.Some? ==> TableShape(r.value, players)
    ensures r.Some? && TableNonNegative(acc) && PolicyNonNegative(defaults) && RowNonNegative(row) ==>
      TableNonNegative(r.value)
  {
    var t := acc;
    for j := 0 to |hcs|
      invariant TableShape(t, players)
      invariant SeedFits(rules, root, row, hcs, j, defaults, acc)
      invariant Seeded(rules, root, row, hcs, j, defaults, acc, players, t)
      invariant TableNonNegative(acc) && PolicyNonNegative(defaults) && RowNonNegative(row) ==> TableNonNegative(t)
    {
      var hc := hcs[j];
      var infoset := InfosetOf(rules, root, hc);
      var index := CardsToRangeIndex(rules, hc);
      var probs := PolicyProbs(defaults, root, infoset);
      if probs.None? || infoset !in t || index.None? || index.value >= |row| {
        assert !(probs.Some? && infoset in acc && ReachIndex(rules, hcs[j], |row|).Some?);
        return None;
      }
      PolicyProbsShape(defaults, root, infoset);
      var seeded := S.Times(probs.value, row[index.value]);
      SeedStep(rules, root, row, hcs, j, defaults, acc, players, t);
      if TableNonNegative(acc) && PolicyNonNegative(defaults) && RowNonNegative(row) {
        TimesNonNegative(probs.value, row[index.value]);
      }
      SetRowKeeps(t, players, infoset, root.player, seeded);
      t := SetRow(t, infoset, root.player, seeded);
    }
    return Some(t);
  }

  lemma SeedStep(rules: GameRules, root: Node, row: seq<real>, hcs: seq<Hand>, j: nat, defaults: Policy, acc: Table,
                 players: nat, t: Table)
    requires root.Action? && root.player < players && TableShape(acc, players) && ThreeSlots(defaults) && j < |hcs|
    requires SeedFits(rules, root, row, hcs, j, defaults, acc)
    requires Seeded(rules, root, row, hcs, j, defaults, acc, players, t)
    requires PolicyProbs(defaults, root, InfosetOf(rules, root, hcs[j])).Some? && InfosetOf(rules, root, hcs[j]) in acc
    requires ReachIndex(rules, hcs[j], |row|).Some?
    ensures SeedFits(rules, root, row, hcs, j + 1, defaults, acc)
    ensures var k := InfosetOf(rules, root, hcs[j]);
      Seeded(rules, root, row, hcs, j + 1, defaults, acc, players,
             SetRow(t, k, root.player, S.Times(PolicyProbs(defaults, root, k).value, row[ReachIndex(rules, hcs[j], |row|).value])))
  {
    var infoset := InfosetOf(rules, root, hcs[j]);
    var v := S.Times(PolicyProbs(defaults, root, infoset).value, row[ReachIndex(rules, hcs[j], |row|).value]);
    var next := SetRow(t, infoset, root.player, v);
    assert SeedFits(rules, root, row, hcs, j + 1, defaults, acc);
    forall k | k in acc
      ensures next[k] == SeededEntry(rules, root, row, hcs, j + 1, defaults, acc, players, k)
    {
      LastWithinStep(rules, root, hcs, j, k);
      if k == infoset {
        assert next[k] == t[k][root.player := v];
        assert t[k] == SeededEntry(rules, root, row, hcs, j, defaults, acc, players, k);
      } else {
        assert next[k] == t[k];
        assert t[k] == SeededEntry(rules, root, row, hcs, j, defaults, acc, players, k);
      }
    }
  }

  lemma TimesNonNegative(v: seq<real>, w: real)
    requires |v| == 3 && S.NonNegative(v) && w >= 0.0
    ensures S.NonNegative(S.Times(v, w))
  {
    ProductNonNegative(v[0], w);
    ProductNonNegative(v[1], w);
    ProductNonNegative(v[2], w);
  }

  // ---------------------------------------------------------------------
  // Later sweeps: regret matching and accumulation
  // ---------------------------------------------------------------------

  /**
   * The first sweep overwrites the 1e-10 starting values: when the last
   * hand of an information set has zero reach, its accumulator row sums to
   * 0, and a later sweep that adds zero reach divides by that zero sum.
   */
  lemma SeedZeroReachClears(rules: GameRules, root: Node, row: seq<real>, hcs: seq<Hand>, defaults: Policy, acc: Table,
                            players: nat, t: Table, k: string)
    requires root.Action? && root.player < players && TableShape(acc, players) && ThreeSlots(defaults)
    requires SeedFits(rules, root, row, hcs, |hcs|, defaults, acc)
    requires Seeded(rules, root, row, hcs, |hcs|, defaults, acc, players, t) && k in acc
    requires LastWithin(rules, root, hcs, |hcs|, k).Some?
    requires row[ReachIndex(rules, hcs[LastWithin(rules, root, hcs, |hcs|, k).value], |row|).value] == 0.0
    ensures S.Total(t[k][root.player]) == 0.0
  {
    var j := LastWithin(rules, root, hcs, |hcs|, k).value;
    var v := S.Times(PolicyProbs(defaults, root, k).value, 0.0);
    assert t[k][root.player] == v;
    assert v[0] == 0.0 && v[1] == 0.0 && v[2] == 0.0;
  }

  /** The summed reach of those of the first `n` hands in `hcs` whose information set is `k`. */
  function ReachSum(rules: GameRules, root: Node, row: seq<real>, hcs: seq<Hand>, n: nat, k: string): real
    requires root.Action? && n <= |hcs|
  {
    if n == 0 then 0.0
    else
      var index := ReachIndex(rules, hcs[n - 1], |row|);
      ReachSum(rules, root, row, hcs, n - 1, k)
        + (if InfosetOf(rules, root, hcs[n - 1]) == k && index.Some? then row[index.value] else 0.0)
  }

  /** The regret-matched vector of information set `k` for the acting player. */
  function Matched(regret: Table, root: Node, players: nat, k: string): (p: seq<real>)
    requires root.Action? && root.player < players && TableShape(regret, players) && k in regret
    requires S.CanRegretMatch(regret[k][root.player], root)
    ensures |p| == 3 && S.NonNegative(p)
  {
    S.RegretMatch(regret[k][root.player], root)
  }

  /**
   * The first `n` steps of the later-sweep loop raise nowhere: every
   * information set has a regret and an accumulator entry, regret
   * matching does not divide by zero, every hand has a reach index, and no
   * accumulator row to be normalised sums to zero.
   */
  predicate AccumulateFits(rules: GameRules, root: Node, row: seq<real>, hcs: seq<Hand>, n: nat, regret: Table, acc: Table, players: nat)
    requires root.Action? && root.player < players && TableShape(regret, players) && TableShape(acc, players) && n <= |hcs|
  {
    forall j :: 0 <= j < n ==>
      var k := InfosetOf(rules, root, hcs[j]);
      k in regret && k in acc && S.CanRegretMatch(regret[k][root.player], root)
      && ReachIndex(rules, hcs[j], |row|).Some?
      && S.Total(S.Accumulate(acc[k][root.player], Matched(regret, root, players, k), ReachSum(rules, root, row, hcs, j + 1, k))) != 0.0
  }

  /**
   * The accumulator entry of information set `k` after the first `n`
   * steps: the acting player's row has gained the regret-matched vector
   * times the summed reach of the hands with that information set.
   */
  function AccumulatedEntry(rules: GameRules, root: Node, row: seq<real>, hcs: seq<Hand>, n: nat, regret: Table, acc: Table,
                            players: nat, k: string): (e: seq<seq<real>>)
    requires root.Action? && root.player < players && TableShape(regret, players) && TableShape(acc, players) && n <= |hcs|
    requires AccumulateFits(rules, root, row, hcs, n, regret, acc, players) && k in acc
    ensures |e| == players && forall q :: 0 <= q < players ==> |e[q]| == 3
  {
    if LastWithin(rules, root, hcs, n, k).None? then acc[k]
    else acc[k][root.player := S.Accumulate(acc[k][root.player], Matched(regret, root, players, k), ReachSum(rules, root, row, hcs, n, k))]
  }

  /** The accumulator after the first `n` steps of the later-sweep loop. */
  ghost predicate AccumulatorAt(rules: GameRules, root: Node, row: seq<real>, hcs: seq<Hand>, n: nat, regret: Table, acc: Table,
                                players: nat, t: Table)
    requires root.Action? && root.player < players && TableShape(regret, players) && TableShape(acc, players) && n <= |hcs|
    requires AccumulateFits(rules, root, row, hcs, n, regret, acc, players)
  {
    t.Keys == acc.Keys && forall k :: k in acc ==> t[k] == AccumulatedEntry(rules, root, row, hcs, n, regret, acc, players, k)
  }

  /**
   * The current policy after the first `n` steps: the regret-matched
   * vector for each information set met so far, every other entry as
   * before.
   */
  ghost predicate CurrentAt(rules: GameRules, root: Node, hcs: seq<Hand>, n: nat, regret: Table, players: nat,
                            current: Policy, cur: Policy)
    requires root.Action? && root.player < players && TableShape(regret, players) && n <= |hcs|
    requires forall j :: 0 <= j < n ==>
      InfosetOf(rules, root, hcs[j]) in regret && S.CanRegretMatch(regret[InfosetOf(rules, root, hcs[j])][root.player], root)
  {
    && (forall k :: k in cur <==> k in current || LastWithin(rules, root, hcs, n, k).Some?)
    && (forall k :: k in cur ==>
         cur[k] == if LastWithin(rules, root, hcs, n, k).Some? then Matched(regret, root, players, k) else current[k])
  }

  /**
   * The average policy after the first `n` steps: for each information
   * set met so far, the accumulator row normalised by its non-zero sum;
   * every other entry as before.
   */
  ghost predicate ProfileAt(rules: GameRules, root: Node, hcs: seq<Hand>, n: nat, players: nat, profile: Policy, t: Table, prof: Policy)
    requires root.Action? && root.player < players && TableShape(t, players) && n <= |hcs|
  {
    && (forall k :: k in prof <==> k in profile || LastWithin(rules, root, hcs, n, k).Some?)
    && (forall k :: k in prof && LastWithin(rules, root, hcs, n, k).None? ==> prof[k] == profile[k])
    && (forall k :: k in prof && LastWithin(rules, root, hcs, n, k).Some? ==>
         k in t && S.Total(t[k][root.player]) != 0.0 && prof[k] == S.Normalize(t[k][root.player]))
  }

  /** The state of the later-sweep loop after `n` steps. */
  ghost predicate LaterState(rules: GameRules, root: Node, row: seq<real>, hcs: seq<Hand>, n: nat, regret: Table, acc: Table,
                             current: Policy, profile: Policy, players: nat, t: Table, cur: Policy, prof: Policy)
  {
    && root.Action? && root.player < players && TableShape(regret, players) && TableShape(acc, players) && n <= |hcs|
    && TableShape(t, players)
    && AccumulateFits(rules, root, row, hcs, n, regret, acc, players)
    && AccumulatorAt(rules, root, row, hcs, n, regret, acc, players, t)
    && CurrentAt(rules, root, hcs, n, regret, players, current, cur)
    && ProfileAt(rules, root, hcs, n, players, profile, t, prof)
    && (TableNonNegative(acc) && RowNonNegative(row) ==> TableNonNegative(t))
  }

  /**
   * The later-sweep branch of cfr_strategy_update: for each hand of the
   * acting player, the current policy of its information set becomes the
   * regret-matched vector, the accumulator row gains that vector times the
   * hand's reach, and the average policy becomes the normalised row. With
   * non-negative accumulators and reach, every average policy written is a
   * probability vector.
   */
  method AccumulateStrategies(rules: GameRules, root: Node, row: seq<real>, hcs: seq<Hand>, regret: Table, acc: Table,
                              current: Policy, profile: Policy, players: nat)
    returns (ok: bool, t: Table, cur: Policy, prof: Policy)
    requires root.Action? && root.player < players && TableShape(regret, players) && TableShape(acc, players)
    ensures ok <==> AccumulateFits(rules, root, row, hcs, |hcs|, regret, acc, players)
    ensures ok ==> TableShape(t, players)
    ensures ok ==> AccumulatorAt(rules, root, row, hcs, |hcs|, regret, acc, players, t)
    ensures ok ==> CurrentAt(rules, root, hcs, |hcs|, regret, players, current, cur)
    ensures ok ==> ProfileAt(rules, root, hcs, |hcs|, players, profile, t, prof)
    ensures ok && TableNonNegative(acc) && RowNonNegative(row) ==>
      TableNonNegative(t)
      && forall k :: k in prof && LastWithin(rules, root, hcs, |hcs|, k).Some? ==> S.IsDistribution(prof[k])
  {
    t, cur, prof := acc, current, profile;
    LaterStart(rules, root, row, hcs, regret, acc, current, profile, players);
    for j := 0 to |hcs|
      invariant LaterState(rules, root, row, hcs, j, regret, acc, current, profile, players, t, cur, prof)
    {
      var hc := hcs[j];
      var infoset := InfosetOf(rules, root, hc);
      if infoset !in regret || !S.CanRegretMatch(regret[infoset][root.player], root) {
        NotFitsRegret(rules, root, row, hcs, j, regret, acc, players);
        return false, t, cur, prof;
      }
      var probs := Matched(regret, root, players, infoset);
      var index := CardsToRangeIndex(rules, hc);
      if infoset !in t || index.None? || index.value >= |row| {
        LaterFailsIndex(rules, root, row, hcs, j, regret, acc, current, profile, players, t, cur, prof);
        return false, t, cur, prof;
      }
      var summed := S.Accumulate(t[infoset][root.player], probs, row[index.value]);
      if S.Total(summed) == 0.0 {
        LaterFailsTotal(rules, root, row, hcs, j, regret, acc, current, profile, players, t, cur, prof);
        return false, t, cur, prof;
      }
      LaterStep(rules, root, row, hcs, j, regret, acc, current, profile, players, t, cur, prof);
      t := SetRow(t, infoset, root.player, summed);
      cur := cur[infoset := probs];
      prof := prof[infoset := S.Normalize(summed)];
    }
    LaterDone(rules, root, row, hcs, regret, acc, current, profile, players, t, cur, prof);
    return true, t, cur, prof;
  }

  /** After the last step, a non-negative accumulator makes every average policy written a probability vector. */
  lemma LaterDone(rules: GameRules, root: Node, row: seq<real>, hcs: seq<Hand>, regret: Table, acc: Table,
                  current: Policy, profile: Policy, players: nat, t: Table, cur: Policy, prof: Policy)
    requires LaterState(rules, root, row, hcs, |hcs|, regret, acc, current, profile, players, t, cur, prof)
    ensures TableNonNegative(acc) && RowNonNegative(row) ==>
      forall k :: k in prof && LastWithin(rules, root, hcs, |hcs|, k).Some? ==> S.IsDistribution(prof[k])
  {
    if TableNonNegative(acc) && RowNonNegative(row) {
      forall k | k in prof && LastWithin(rules, root, hcs, |hcs|, k).Some?
        ensures S.IsDistribution(prof[k])
      {
        S.NormalizeDistribution(t[k][root.player]);
      }
    }
  }

  /** Before the first step nothing has changed. */
  lemma LaterStart(rules: GameRules, root: Node, row: seq<real>, hcs: seq<Hand>, regret: Table, acc: Table,
                   current: Policy, profile: Policy, players: nat)
    requires root.Action? && root.player < players && TableShape(regret, players) && TableShape(acc, players)
    ensures LaterState(rules, root, row, hcs, 0, regret, acc, current, profile, players, acc, current, profile)
  {
  }

  /** One step of the later-sweep loop that raises nowhere. */
  lemma LaterStep(rules: GameRules, root: Node, row: seq<real>, hcs: seq<Hand>, j: nat, regret: Table, acc: Table,
                  current: Policy, profile: Policy, players: nat, t: Table, cur: Policy, prof: Policy)
    requires LaterState(rules, root, row, hcs, j, regret, acc, current, profile, players, t, cur, prof) && j < |hcs|
    requires var k := InfosetOf(rules, root, hcs[j]);
      k in regret && S.CanRegretMatch(regret[k][root.player], root) && k in t && ReachIndex(rules, hcs[j], |row|).Some?
      && S.Total(S.Accumulate(t[k][root.player], Matched(regret, root, players, k), row[ReachIndex(rules, hcs[j], |row|).value])) != 0.0
    ensures var k := InfosetOf(rules, root, hcs[j]);
      var summed := S.Accumulate(t[k][root.player], Matched(regret, root, players, k), row[ReachIndex(rules, hcs[j], |row|).value]);
      LaterState(rules, root, row, hcs, j + 1, regret, acc, current, profile, players,
                 SetRow(t, k, root.player, summed), cur[k := Matched(regret, root, players, k)], prof[k := S.Normalize(summed)])
  {
    var k := InfosetOf(rules, root, hcs[j]);
    var probs := Matched(regret, root, players, k);
    var summed := S.Accumulate(t[k][root.player], probs, row[ReachIndex(rules, hcs[j], |row|).value]);
    RowStep(rules, root, row, hcs, j, regret, acc, players, t);
    TableStep(rules, root, row, hcs, j, regret, acc, players, t);
    CurrentStep(rules, root, hcs, j, regret, players, current, cur);
    SetRowKeeps(t, players, k, root.player, summed);
    ProfileStep(rules, root, hcs, j, players, profile, t, prof, summed);
    if TableNonNegative(acc) && RowNonNegative(row) {
      S.AccumulateKeepsPositive(t[k][root.player], probs, row[ReachIndex(rules, hcs[j], |row|).value]);
    }
  }

  /** A step without an accumulator entry or a reach index raises. */
  lemma LaterFailsIndex(rules: GameRules, root: Node, row: seq<real>, hcs: seq<Hand>, j: nat, regret: Table, acc: Table,
                        current: Policy, profile: Policy, players: nat, t: Table, cur: Policy, prof: Policy)
    requires LaterState(rules, root, row, hcs, j, regret, acc, current, profile, players, t, cur, prof) && j < |hcs|
    requires InfosetOf(rules, root, hcs[j]) !in t || ReachIndex(rules, hcs[j], |row|).None?
    ensures !AccumulateFits(rules, root, row, hcs, |hcs|, regret, acc, players)
  {
    NotFitsIndex(rules, root, row, hcs, j, regret, acc, players);
  }

  /** A step whose row sums to zero raises. */
  lemma LaterFailsTotal(rules: GameRules, root: Node, row: seq<real>, hcs: seq<Hand>, j: nat, regret: Table, acc: Table,
                        current: Policy, profile: Policy, players: nat, t: Table, cur: Policy, prof: Policy)
    requires LaterState(rules, root, row, hcs, j, regret, acc, current, profile, players, t, cur, prof) && j < |hcs|
    requires var k := InfosetOf(rules, root, hcs[j]);
      k in regret && S.CanRegretMatch(regret[k][root.player], root) && k in t && ReachIndex(rules, hcs[j], |row|).Some?
      && S.Total(S.Accumulate(t[k][root.player], Matched(regret, root, players, k), row[ReachIndex(rules, hcs[j], |row|).value])) == 0.0
    ensures !AccumulateFits(rules, root, row, hcs, |hcs|, regret, acc, players)
  {
    RowStep(rules, root, row, hcs, j, regret, acc, players, t);
    NotFitsTotal(rules, root, row, hcs, j, regret, acc, players);
  }

  /**
   * One step of the later sweep adds the hand's reach to the summed reach
   * of its information set, and the step raises exactly when the new row
   * sums to zero.
   */
  lemma RowStep(rules: GameRules, root: Node, row: seq<real>, hcs: seq<Hand>, j: nat, regret: Table, acc: Table,
                players: nat, t: Table)
    requires root.Action? && root.player < players && TableShape(regret, players) && TableShape(acc, players) && j < |hcs|
    requires AccumulateFits(rules, root, row, hcs, j, regret, acc, players)
    requires AccumulatorAt(rules, root, row, hcs, j, regret, acc, players, t)
    requires var k := InfosetOf(rules, root, hcs[j]);
      k in regret && k in acc && S.CanRegretMatch(regret[k][root.player], root) && ReachIndex(rules, hcs[j], |row|).Some?
    ensures var k := InfosetOf(rules, root, hcs[j]);
      var x := row[ReachIndex(rules, hcs[j], |row|).value];
      k in t
      && S.Accumulate(t[k][root.player], Matched(regret, root, players, k), x)
         == S.Accumulate(acc[k][root.player], Matched(regret, root, players, k), ReachSum(rules, root, row, hcs, j + 1, k))
      && (AccumulateFits(rules, root, row, hcs, j + 1, regret, acc, players)
          <==> S.Total(S.Accumulate(t[k][root.player], Matched(regret, root, players, k), x)) != 0.0)
  {
    RowSum(rules, root, row, hcs, j, regret, acc, players, t);
    FitsExtend(rules, root, row, hcs, j, regret, acc, players);
  }

  /** The row after step `j` is the original row plus the summed reach of the first `j + 1` hands. */
  lemma RowSum(rules: GameRules, root: Node, row: seq<real>, hcs: seq<Hand>, j: nat, regret: Table, acc: Table,
               players: nat, t: Table)
    requires root.Action? && root.player < players && TableShape(regret, players) && TableShape(acc, players) && j < |hcs|
    requires AccumulateFits(rules, root, row, hcs, j, regret, acc, players)
    requires AccumulatorAt(rules, root, row, hcs, j, regret, acc, players, t)
    requires var k := InfosetOf(rules, root, hcs[j]);
      k in regret && k in acc && S.CanRegretMatch(regret[k][root.player], root) && ReachIndex(rules, hcs[j], |row|).Some?
    ensures var k := InfosetOf(rules, root, hcs[j]);
      k in t
      && S.Accumulate(t[k][root.player], Matched(regret, root, players, k), row[ReachIndex(rules, hcs[j], |row|).value])
         == S.Accumulate(acc[k][root.player], Matched(regret, root, players, k), ReachSum(rules, root, row, hcs, j + 1, k))
  {
    var k := InfosetOf(rules, root, hcs[j]);
    var probs := Matched(regret, root, players, k);
    var x := row[ReachIndex(rules, hcs[j], |row|).value];
    var sum := ReachSum(rules, root, row, hcs, j, k);
    assert ReachSum(rules, root, row, hcs, j + 1, k) == sum + x;
    assert t[k] == AccumulatedEntry(rules, root, row, hcs, j, regret, acc, players, k);
    if LastWithin(rules, root, hcs, j, k).None? {
      NoOccurrenceNoReach(rules, root, row, hcs, j, k);
    }
    AccumulateShift(acc[k][root.player], t[k][root.player], probs, sum, x);
  }

  /** A row that is the original, with nothing summed yet, or the original plus `sum`, gains `x` to become the original plus `sum + x`. */
  lemma AccumulateShift(orig: seq<real>, now: seq<real>, probs: seq<real>, sum: real, x: real)
    requires |orig| == 3 && |probs| == 3
    requires (now == orig && sum == 0.0) || now == S.Accumulate(orig, probs, sum)
    ensures |now| == 3 && S.Accumulate(now, probs, x) == S.Accumulate(orig, probs, sum + x)
  {
    S.AccumulateTwice(orig, probs, sum, x);
    if sum == 0.0 {
      assert S.Accumulate(orig, probs, 0.0) == orig;
    }
  }

  /** The first `j + 1` steps fit exactly when the first `j` do and step `j` does. */
  lemma FitsExtend(rules: GameRules, root: Node, row: seq<real>, hcs: seq<Hand>, j: nat, regret: Table, acc: Table, players: nat)
    requires root.Action? && root.player < players && TableShape(regret, players) && TableShape(acc, players) && j < |hcs|
    requires AccumulateFits(rules, root, row, hcs, j, regret, acc, players)
    ensures AccumulateFits(rules, root, row, hcs, j + 1, regret, acc, players) <==>
      var k := InfosetOf(rules, root, hcs[j]);
      k in regret && k in acc && S.CanRegretMatch(regret[k][root.player], root)
      && ReachIndex(rules, hcs[j], |row|).Some?
      && S.Total(S.Accumulate(acc[k][root.player], Matched(regret, root, players, k), ReachSum(rules, root, row, hcs, j + 1, k))) != 0.0
  {
  }

  lemma TableStep(rules: GameRules, root: Node, row: seq<real>, hcs: seq<Hand>, j: nat, regret: Table, acc: Table,
                  players: nat, t: Table)
    requires root.Action? && root.player < players && TableShape(regret, players) && TableShape(acc, players) && j < |hcs|
    requires AccumulateFits(rules, root, row, hcs, j, regret, acc, players)
    requires AccumulateFits(rules, root, row, hcs, j + 1, regret, acc, players)
    requires AccumulatorAt(rules, root, row, hcs, j, regret, acc, players, t)
    ensures var k := InfosetOf(rules, root, hcs[j]);
      AccumulatorAt(rules, root, row, hcs, j + 1, regret, acc, players,
        SetRow(t, k, root.player,
               S.Accumulate(acc[k][root.player], Matched(regret, root, players, k), ReachSum(rules, root, row, hcs, j + 1, k))))
  {
    var k := InfosetOf(rules, root, hcs[j]);
    var v := S.Accumulate(acc[k][root.player], Matched(regret, root, players, k), ReachSum(rules, root, row, hcs, j + 1, k));
    var next := SetRow(t, k, root.player, v);
    forall k' | k' in acc
      ensures next[k'] == AccumulatedEntry(rules, root, row, hcs, j + 1, regret, acc, players, k')
    {
      TableStepEntry(rules, root, row, hcs, j, regret, acc, players, t, k');
    }
  }

  /** One information set's entry across one step of the later-sweep loop. */
  lemma TableStepEntry(rules: GameRules, root: Node, row: seq<real>, hcs: seq<Hand>, j: nat, regret: Table, acc: Table,
                       players: nat, t: Table, k': string)
    requires root.Action? && root.player < players && TableShape(regret, players) && TableShape(acc, players) && j < |hcs|
    requires AccumulateFits(rules, root, row, hcs, j, regret, acc, players)
    requires AccumulateFits(rules, root, row, hcs, j + 1, regret, acc, players)
    requires AccumulatorAt(rules, root, row, hcs, j, regret, acc, players, t) && k' in acc
    ensures var k := InfosetOf(rules, root, hcs[j]);
      SetRow(t, k, root.player,
             S.Accumulate(acc[k][root.player], Matched(regret, root, players, k), ReachSum(rules, root, row, hcs, j + 1, k)))[k']
      == AccumulatedEntry(rules, root, row, hcs, j + 1, regret, acc, players, k')
  {
    var k := InfosetOf(rules, root, hcs[j]);
    var v := S.Accumulate(acc[k][root.player], Matched(regret, root, players, k), ReachSum(rules, root, row, hcs, j + 1, k));
    var next := SetRow(t, k, root.player, v);
    LastWithinStep(rules, root, hcs, j, k');
    if k' == k {
      assert next[k] == t[k][root.player := v];
    } else {
      assert ReachSum(rules, root, row, hcs, j + 1, k') == ReachSum(rules, root, row, hcs, j, k');
      assert next[k'] == t[k'];
      assert t[k'] == AccumulatedEntry(rules, root, row, hcs, j, regret, acc, players, k');
    }
  }

  lemma CurrentStep(rules: GameRules, root: Node, hcs: seq<Hand>, j: nat, regret: Table, players: nat,
                    current: Policy, cur: Policy)
    requires root.Action? && root.player < players && TableShape(regret, players) && j < |hcs|
    requires forall i :: 0 <= i <= j ==>
      InfosetOf(rules, root, hcs[i]) in regret && S.CanRegretMatch(regret[InfosetOf(rules, root, hcs[i])][root.player], root)
    requires CurrentAt(rules, root, hcs, j, regret, players, current, cur)
    ensures var k := InfosetOf(rules, root, hcs[j]);
      CurrentAt(rules, root, hcs, j + 1, regret, players, current, cur[k := Matched(regret, root, players, k)])
  {
    var k := InfosetOf(rules, root, hcs[j]);
    var next := cur[k := Matched(regret, root, players, k)];
    forall k' | k' in next
      ensures next[k'] == if LastWithin(rules, root, hcs, j + 1, k').Some? then Matched(regret, root, players, k') else current[k']
    {
      LastWithinStep(rules, root, hcs, j, k');
      if k' != k {
        assert next[k'] == cur[k'];
        assert cur[k'] == if LastWithin(rules, root, hcs, j, k').Some? then Matched(regret, root, players, k') else current[k'];
      }
    }
    forall k'
      ensures k' in next <==> k' in current || LastWithin(rules, root, hcs, j + 1, k').Some?
    {
      LastWithinStep(rules, root, hcs, j, k');
    }
  }

  /** One more hand makes itself the last occurrence of its information set and leaves the others alone. */
  lemma LastWithinStep(rules: GameRules, root: Node, hcs: seq<Hand>, j: nat, k: string)
    requires root.Action? && j < |hcs|
    ensures LastWithin(rules, root, hcs, j + 1, k) ==
      if InfosetOf(rules, root, hcs[j]) == k then Some(j) else LastWithin(rules, root, hcs, j, k)
  {
  }

  lemma ProfileStep(rules: GameRules, root: Node, hcs: seq<Hand>, j: nat, players: nat, profile: Policy, t: Table, prof: Policy,
                    v: seq<real>)
    requires root.Action? && root.player < players && TableShape(t, players) && j < |hcs|
    requires InfosetOf(rules, root, hcs[j]) in t && |v| == 3 && S.Total(v) != 0.0
    requires ProfileAt(rules, root, hcs, j, players, profile, t, prof)
    requires TableShape(SetRow(t, InfosetOf(rules, root, hcs[j]), root.player, v), players)
    ensures var k := InfosetOf(rules, root, hcs[j]);
      ProfileAt(rules, root, hcs, j + 1, players, profile, SetRow(t, k, root.player, v), prof[k := S.Normalize(v)])
  {
    var k := InfosetOf(rules, root, hcs[j]);
    var t2 := SetRow(t, k, root.player, v);
    var next := prof[k := S.Normalize(v)];
    forall k'
      ensures k' in next <==> k' in profile || LastWithin(rules, root, hcs, j + 1, k').Some?
      ensures k' in next && LastWithin(rules, root, hcs, j + 1, k').None? ==> next[k'] == profile[k']
      ensures k' in next && LastWithin(rules, root, hcs, j + 1, k').Some? ==>
        k' in t2 && S.Total(t2[k'][root.player]) != 0.0 && next[k'] == S.Normalize(t2[k'][root.player])
    {
      LastWithinStep(rules, root, hcs, j, k');
      if k' == k {
        assert t2[k][root.player] == v;
      } else {
        assert k' in t2 <==> k' in t;
        if k' in next { assert next[k'] == prof[k']; }
        if k' in t { assert t2[k'] == t[k']; }
      }
    }
  }

  /** A step that raises makes the whole run raise: no regret entry, or regret matching divides by zero. */
  lemma NotFitsRegret(rules: GameRules, root: Node, row: seq<real>, hcs: seq<Hand>, j: nat, regret: Table, acc: Table, players: nat)
    requires root.Action? && root.player < players && TableShape(regret, players) && TableShape(acc, players) && j < |hcs|
    requires var k := InfosetOf(rules, root, hcs[j]); k !in regret || !S.CanRegretMatch(regret[k][root.player], root)
    ensures !AccumulateFits(rules, root, row, hcs, |hcs|, regret, acc, players)
  {
  }

  /** No accumulator entry, or no reach index. */
  lemma NotFitsIndex(rules: GameRules, root: Node, row: seq<real>, hcs: seq<Hand>, j: nat, regret: Table, acc: Table, players: nat)
    requires root.Action? && root.player < players && TableShape(regret, players) && TableShape(acc, players) && j < |hcs|
    requires InfosetOf(rules, root, hcs[j]) !in acc || ReachIndex(rules, hcs[j], |row|).None?
    ensures !AccumulateFits(rules, root, row, hcs, |hcs|, regret, acc, players)
  {
  }

  /** A row to be normalised sums to zero. */
  lemma NotFitsTotal(rules: GameRules, root: Node, row: seq<real>, hcs: seq<Hand>, j: nat, regret: Table, acc: Table, players: nat)
    requires root.Action? && root.player < players && TableShape(regret, players) && TableShape(acc, players) && j < |hcs|
    requires !AccumulateFits(rules, root, row, hcs, j + 1, regret, acc, players)
    ensures !AccumulateFits(rules, root, row, hcs, |hcs|, regret, acc, players)
  {
  }

  /** Hands of other information sets contribute no reach. */
  lemma {:induction false} NoOccurrenceNoReach(rules: GameRules, root: Node, row: seq<real>, hcs: seq<Hand>, n: nat, k: string)
    requires root.Action? && n <= |hcs| && LastWithin(rules, root, hcs, n, k).None?
    ensures ReachSum(rules, root, row, hcs, n, k) == 0.0
  {
    if n > 0 {
      NoOccurrenceNoReach(rules, root, row, hcs, n - 1, k);
    }
  }

  // ---------------------------------------------------------------------
  // The counterfactual regret update
  // ---------------------------------------------------------------------

  /** The immediate counterfactual regret `winnings - ev[hc]` of every hand of one action's child payoffs. */
  function Gains(sub: PlayerPayoffs, ev: PlayerPayoffs): (g: PlayerPayoffs)
    requires sub.Keys <= ev.Keys
    ensures g.Keys == sub.Keys && forall hc :: hc in sub ==> g[hc] == sub[hc] - ev[hc]
  {
    map hc | hc in sub :: sub[hc] - ev[hc]
  }

  /** The hands of `hs` whose information set is `k`. */
  ghost function HandsWith(rules: GameRules, root: Node, hs: set<Hand>, k: string): (r: set<Hand>)
    requires root.Action?
    ensures r <= hs && forall hc :: hc in r <==> hc in hs && InfosetOf(rules, root, hc) == k
  {
    set hc | hc in hs && InfosetOf(rules, root, hc) == k
  }

  /** `v[a] += x` */
  function AddToSlot(v: seq<real>, a: nat, x: real): (r: seq<real>)
    requires a < |v|
    ensures |r| == |v| && r[a] == v[a] + x && forall b :: 0 <= b < |v| && b != a ==> r[b] == v[b]
  {
    v[a := v[a] + x]
  }

  /**
   * The regret gain of information set `k` from one action: the immediate
   * counterfactual regrets summed over the hands with that information
   * set, for those of the child payoffs' hands met so far (`done`).
   */
  ghost function GainOver(rules: GameRules, root: Node, sub: PlayerPayoffs, ev: PlayerPayoffs, done: set<Hand>, k: string): real
    requires root.Action? && sub.Keys <= ev.Keys && done <= sub.Keys
  {
    SumOver(Gains(sub, ev), HandsWith(rules, root, done, k))
  }

  /** One action's regret loop raises nowhere: every hand has a node value and its information set a regret entry. */
  predicate RegretFits(rules: GameRules, root: Node, sub: PlayerPayoffs, ev: PlayerPayoffs, regret: Table)
    requires root.Action?
  {
    sub.Keys <= ev.Keys && forall hc :: hc in sub ==> InfosetOf(rules, root, hc) in regret
  }

  /** The regret table once the hands `done` of one action's child payoffs have been added into slot `a`. */
  ghost function RegretAdded(rules: GameRules, root: Node, sub: PlayerPayoffs, ev: PlayerPayoffs, regret: Table,
                             players: nat, a: nat, done: set<Hand>): (r: Table)
    requires root.Action? && root.player < players && TableShape(regret, players) && a < 3
    requires sub.Keys <= ev.Keys && done <= sub.Keys
    ensures r.Keys == regret.Keys && TableShape(r, players)
  {
    map k | k in regret :: regret[k][root.player := AddToSlot(regret[k][root.player], a, GainOver(rules, root, sub, ev, done, k))]
  }

  /**
   * The loop of cfr_regret_update over one action's child payoffs for the
   * acting player: slot `a` of the acting player's regret row of every
   * information set gains the immediate counterfactual regrets of its
   * hands; every other slot, row and entry is unchanged.
   */
  method AddRegrets(rules: GameRules, root: Node, sub: PlayerPayoffs, ev: PlayerPayoffs, regret: Table, players: nat, a: nat)
    returns (ok: bool, r: Table)
    requires root.Action? && root.player < players && TableShape(regret, players) && a < 3
    ensures ok <==> RegretFits(rules, root, sub, ev, regret)
    ensures ok ==> r == RegretAdded(rules, root, sub, ev, regret, players, a, sub.Keys)
  {
    r := regret;
    if !(sub.Keys <= ev.Keys) {
      // the loop below would raise a KeyError at the first hand without a node value
      return false, r;
    }
    var todo := sub.Keys;
    ghost var done: set<Hand> := {};
    RegretStart(rules, root, sub, ev, regret, players, a);
    while todo != {}
      invariant RegretLoop(rules, root, sub, ev, regret, players, a, done, todo, r)
      decreases todo
    {
      var hc :| hc in todo;
      var added;
      added, r := AddRegret(rules, root, sub, ev, regret, players, a, done, todo, r, hc);
      if !added {
        return false, r;
      }
      done := done + {hc};
      todo := todo - {hc};
    }
    RegretDone(rules, root, sub, ev, regret, players, a, done, todo, r);
    return true, r;
  }

  /** The state of one action's regret loop: the hands `done` are added into `r`, the hands `todo` remain. */
  ghost predicate RegretLoop(rules: GameRules, root: Node, sub: PlayerPayoffs, ev: PlayerPayoffs, regret: Table, players: nat, a: nat,
                             done: set<Hand>, todo: set<Hand>, r: Table)
  {
    && root.Action? && root.player < players && TableShape(regret, players) && a < 3 && sub.Keys <= ev.Keys
    && done + todo == sub.Keys && done !! todo
    && (forall hc :: hc in done ==> InfosetOf(rules, root, hc) in regret)
    && r == RegretAdded(rules, root, sub, ev, regret, players, a, done)
  }

  /** One pass of the regret loop: the hand `hc` adds its immediate regret into its information set's row. */
  method AddRegret(rules: GameRules, root: Node, sub: PlayerPayoffs, ev: PlayerPayoffs, regret: Table, players: nat, a: nat,
                   ghost done: set<Hand>, ghost todo: set<Hand>, r: Table, hc: Hand) returns (ok: bool, next: Table)
    requires RegretLoop(rules, root, sub, ev, regret, players, a, done, todo, r) && hc in todo
    ensures !ok ==> !RegretFits(rules, root, sub, ev, regret)
    ensures ok ==> RegretLoop(rules, root, sub, ev, regret, players, a, done + {hc}, todo - {hc}, next)
  {
    var infoset := InfosetOf(rules, root, hc);
    if infoset !in r {
      assert hc in sub;
      return false, r;
    }
    RegretLoopStep(rules, root, sub, ev, regret, players, a, done, todo, r, hc);
    next := SetRow(r, infoset, root.player, AddToSlot(r[infoset][root.player], a, sub[hc] - ev[hc]));
    return true, next;
  }

  lemma RegretLoopStep(rules: GameRules, root: Node, sub: PlayerPayoffs, ev: PlayerPayoffs, regret: Table, players: nat, a: nat,
                       done: set<Hand>, todo: set<Hand>, r: Table, hc: Hand)
    requires RegretLoop(rules, root, sub, ev, regret, players, a, done, todo, r) && hc in todo
    requires InfosetOf(rules, root, hc) in r
    ensures var k := InfosetOf(rules, root, hc);
      k in r && root.player < |r[k]| &&
      RegretLoop(rules, root, sub, ev, regret, players, a, done + {hc}, todo - {hc},
                 SetRow(r, k, root.player, AddToSlot(r[k][root.player], a, sub[hc] - ev[hc])))
  {
    RegretStep(rules, root, sub, ev, regret, players, a, done, hc);
    assert done + {hc} + (todo - {hc}) == sub.Keys;
  }

  lemma RegretDone(rules: GameRules, root: Node, sub: PlayerPayoffs, ev: PlayerPayoffs, regret: Table, players: nat, a: nat,
                   done: set<Hand>, todo: set<Hand>, r: Table)
    requires RegretLoop(rules, root, sub, ev, regret, players, a, done, todo, r) && todo == {}
    ensures RegretFits(rules, root, sub, ev, regret)
    ensures r == RegretAdded(rules, root, sub, ev, regret, players, a, sub.Keys)
  {
    assert done == sub.Keys;
  }

  lemma RegretStart(rules: GameRules, root: Node, sub: PlayerPayoffs, ev: PlayerPayoffs, regret: Table, players: nat, a: nat)
    requires root.Action? && root.player < players && TableShape(regret, players) && a < 3 && sub.Keys <= ev.Keys
    ensures RegretLoop(rules, root, sub, ev, regret, players, a, {}, sub.Keys, regret)
  {
    var r := RegretAdded(rules, root, sub, ev, regret, players, a, {});
    forall k | k in regret
      ensures r[k] == regret[k]
    {
      assert HandsWith(rules, root, {}, k) == {};
      assert AddToSlot(regret[k][root.player], a, 0.0) == regret[k][root.player];
    }
  }

  /** Adding one more hand changes only its own information set's row, by its immediate regret. */
  lemma RegretStep(rules: GameRules, root: Node, sub: PlayerPayoffs, ev: PlayerPayoffs, regret: Table, players: nat, a: nat,
                   done: set<Hand>, hc: Hand)
    requires root.Action? && root.player < players && TableShape(regret, players) && a < 3
    requires sub.Keys <= ev.Keys && done <= sub.Keys && hc in sub && hc !in done && InfosetOf(rules, root, hc) in regret
    ensures var k := InfosetOf(rules, root, hc);
      var r := RegretAdded(rules, root, sub, ev, regret, players, a, done);
      RegretAdded(rules, root, sub, ev, regret, players, a, done + {hc})
        == SetRow(r, k, root.player, AddToSlot(r[k][root.player], a, sub[hc] - ev[hc]))
  {
    var k := InfosetOf(rules, root, hc);
    var p := root.player;
    var r := RegretAdded(rules, root, sub, ev, regret, players, a, done);
    var next := RegretAdded(rules, root, sub, ev, regret, players, a, done + {hc});
    var stepped := SetRow(r, k, p, AddToSlot(r[k][p], a, sub[hc] - ev[hc]));
    assert next.Keys == stepped.Keys;
    forall k' | k' in next
      ensures next[k'] == stepped[k']
    {
      if k' == k {
        RegretRowSame(rules, root, sub, ev, regret, players, a, done, hc);
      } else {
        GainOther(rules, root, sub, ev, done, hc, k');
      }
    }
  }

  /** The row of the new hand's information set gains its immediate regret. */
  lemma RegretRowSame(rules: GameRules, root: Node, sub: PlayerPayoffs, ev: PlayerPayoffs, regret: Table, players: nat, a: nat,
                      done: set<Hand>, hc: Hand)
    requires root.Action? && root.player < players && TableShape(regret, players) && a < 3
    requires sub.Keys <= ev.Keys && done <= sub.Keys && hc in sub && hc !in done && InfosetOf(rules, root, hc) in regret
    ensures var k := InfosetOf(rules, root, hc);
      var row := RegretAdded(rules, root, sub, ev, regret, players, a, done)[k];
      RegretAdded(rules, root, sub, ev, regret, players, a, done + {hc})[k]
        == row[root.player := AddToSlot(row[root.player], a, sub[hc] - ev[hc])]
  {
    var k := InfosetOf(rules, root, hc);
    GainSame(rules, root, sub, ev, done, hc);
    SlotTwice(regret[k], root.player, a, GainOver(rules, root, sub, ev, done, k), sub[hc] - ev[hc],
              GainOver(rules, root, sub, ev, done + {hc}, k));
  }

  /** Adding x and then y into one slot of one row adds their sum. */
  lemma SlotTwice(row: seq<seq<real>>, p: nat, a: nat, x: real, y: real, sum: real)
    requires p < |row| && a < |row[p]| && sum == y + x
    ensures row[p := AddToSlot(row[p], a, x)][p := AddToSlot(AddToSlot(row[p], a, x), a, y)] == row[p := AddToSlot(row[p], a, sum)]
  {
    assert AddToSlot(AddToSlot(row[p], a, x), a, y) == AddToSlot(row[p], a, sum);
  }

  /** A new hand adds its immediate regret to its own information set's gain. */
  lemma GainSame(rules: GameRules, root: Node, sub: PlayerPayoffs, ev: PlayerPayoffs, done: set<Hand>, hc: Hand)
    requires root.Action? && sub.Keys <= ev.Keys && done <= sub.Keys && hc in sub && hc !in done
    ensures var k := InfosetOf(rules, root, hc);
      GainOver(rules, root, sub, ev, done + {hc}, k) == (sub[hc] - ev[hc]) + GainOver(rules, root, sub, ev, done, k)
  {
    var k := InfosetOf(rules, root, hc);
    var grown := HandsWith(rules, root, done + {hc}, k);
    assert grown - {hc} == HandsWith(rules, root, done, k);
    SumOverRemove(Gains(sub, ev), grown, hc);
  }

  /** A new hand leaves the gain of every other information set alone. */
  lemma GainOther(rules: GameRules, root: Node, sub: PlayerPayoffs, ev: PlayerPayoffs, done: set<Hand>, hc: Hand, k: string)
    requires root.Action? && sub.Keys <= ev.Keys && done <= sub.Keys && hc in sub && InfosetOf(rules, root, hc) != k
    ensures GainOver(rules, root, sub, ev, done + {hc}, k) == GainOver(rules, root, sub, ev, done, k)
  {
    assert HandsWith(rules, root, done + {hc}, k) == HandsWith(rules, root, done, k);
  }

  // ---------------------------------------------------------------------
  // cfr_regret_update over all actions
  // ---------------------------------------------------------------------

  /** The acting player's child payoffs of action `a`. */
  function ActorPayoffs(root: Node, actionPayoffs: seq<Option<seq<PlayerPayoffs>>>, players: nat, a: nat): (sub: PlayerPayoffs)
    requires root.Action? && root.player < players && ActionPayoffsShape(actionPayoffs, players) && a < 3
    requires actionPayoffs[a].Some?
  {
    actionPayoffs[a].value[root.player]
  }

  /** The first `n` actions' regret loops reach no hand without a node value. */
  predicate UpdateValued(root: Node, actionPayoffs: seq<Option<seq<PlayerPayoffs>>>, ev: PlayerPayoffs, players: nat, n: nat)
    requires root.Action? && root.player < players && ActionPayoffsShape(actionPayoffs, players) && n <= 3
  {
    forall a :: 0 <= a < n && actionPayoffs[a].Some? ==> ActorPayoffs(root, actionPayoffs, players, a).Keys <= ev.Keys
  }

  /** cfr_regret_update raises nowhere in its first `n` actions. */
  predicate UpdateFits(rules: GameRules, root: Node, actionPayoffs: seq<Option<seq<PlayerPayoffs>>>, ev: PlayerPayoffs,
                       regret: Table, players: nat, n: nat)
    requires root.Action? && root.player < players && ActionPayoffsShape(actionPayoffs, players) && n <= 3
  {
    forall a :: 0 <= a < n && actionPayoffs[a].Some? ==> RegretFits(rules, root, ActorPayoffs(root, actionPayoffs, players, a), ev, regret)
  }

  /** The regret table after the first `n` actions of cfr_regret_update; a missing action is skipped. */
  ghost function RegretUpdated(rules: GameRules, root: Node, actionPayoffs: seq<Option<seq<PlayerPayoffs>>>, ev: PlayerPayoffs,
                               regret: Table, players: nat, n: nat): (r: Table)
    requires root.Action? && root.player < players && ActionPayoffsShape(actionPayoffs, players) && n <= 3
    requires TableShape(regret, players) && UpdateValued(root, actionPayoffs, ev, players, n)
    ensures r.Keys == regret.Keys && TableShape(r, players)
  {
    if n == 0 then regret
    else
      var before := RegretUpdated(rules, root, actionPayoffs, ev, regret, players, n - 1);
      if actionPayoffs[n - 1].None? then before
      else
        var sub := ActorPayoffs(root, actionPayoffs, players, n - 1);
        RegretAdded(rules, root, sub, ev, before, players, n - 1, sub.Keys)
  }

  /**
   * cfr_regret_update: for every legal action, slot `a` of the acting
   * player's regret row of every information set gains the immediate
   * counterfactual regrets `winnings - ev[hc]` of its hands in that
   * action's child payoffs. It fails where the source raises: a hand
   * without a node value, or an information set without a regret entry.
   */
  method RegretUpdate(rules: GameRules, root: Node, actionPayoffs: seq<Option<seq<PlayerPayoffs>>>, ev: PlayerPayoffs,
                      regret: Table, players: nat) returns (ok: bool, r: Table)
    requires root.Action? && root.player < players && ActionPayoffsShape(actionPayoffs, players) && TableShape(regret, players)
    ensures ok <==> UpdateFits(rules, root, actionPayoffs, ev, regret, players, 3)
    ensures ok ==> UpdateValued(root, actionPayoffs, ev, players, 3)
    ensures ok ==> r == RegretUpdated(rules, root, actionPayoffs, ev, regret, players, 3)
  {
    r := regret;
    var i := 0;
    while i < 3
      invariant 0 <= i <= 3 && r.Keys == regret.Keys && TableShape(r, players)
      invariant UpdateFits(rules, root, actionPayoffs, ev, regret, players, i)
      invariant UpdateValued(root, actionPayoffs, ev, players, i)
      invariant r == RegretUpdated(rules, root, actionPayoffs, ev, regret, players, i)
    {
      if actionPayoffs[i].Some? {
        var sub := actionPayoffs[i].value[root.player];
        var added;
        added, r := AddRegrets(rules, root, sub, ev, r, players, i);
        if !added {
          assert !RegretFits(rules, root, ActorPayoffs(root, actionPayoffs, players, i), ev, regret);
          return false, r;
        }
      }
      i := i + 1;
    }
    return true, r;
  }

  /** The regret gain of information set `k` from action `a`: 0 for an action that is not legal. */
  ghost function ActionGain(rules: GameRules, root: Node, actionPayoffs: seq<Option<seq<PlayerPayoffs>>>, ev: PlayerPayoffs,
                            players: nat, a: nat, k: string): real
    requires root.Action? && root.player < players && ActionPayoffsShape(actionPayoffs, players) && a < 3
    requires UpdateValued(root, actionPayoffs, ev, players, a + 1)
  {
    if actionPayoffs[a].None? then 0.0
    else
      var sub := ActorPayoffs(root, actionPayoffs, players, a);
      GainOver(rules, root, sub, ev, sub.Keys, k)
  }

  /**
   * After the first `n` actions, slot `b` of the acting player's row of
   * information set `k` has gained action b's regret gain if `b < n`, and
   * is unchanged otherwise.
   */
  lemma {:induction false} RegretUpdatedSlot(rules: GameRules, root: Node, actionPayoffs: seq<Option<seq<PlayerPayoffs>>>,
                                             ev: PlayerPayoffs, regret: Table, players: nat, n: nat, k: string, b: nat)
    requires root.Action? && root.player < players && ActionPayoffsShape(actionPayoffs, players) && n <= 3
    requires TableShape(regret, players) && UpdateValued(root, actionPayoffs, ev, players, n) && k in regret && b < 3
    ensures RegretUpdated(rules, root, actionPayoffs, ev, regret, players, n)[k][root.player][b]
      == regret[k][root.player][b] + (if b < n then ActionGain(rules, root, actionPayoffs, ev, players, b, k) else 0.0)
  {
    if n > 0 {
      RegretUpdatedSlot(rules, root, actionPayoffs, ev, regret, players, n - 1, k, b);
      var before := RegretUpdated(rules, root, actionPayoffs, ev, regret, players, n - 1);
      var r := RegretUpdated(rules, root, actionPayoffs, ev, regret, players, n);
      if actionPayoffs[n - 1].Some? {
        var sub := ActorPayoffs(root, actionPayoffs, players, n - 1);
        var gain := GainOver(rules, root, sub, ev, sub.Keys, k);
        RegretAddedAt(rules, root, sub, ev, before, players, n - 1, k);
      }
    }
  }

  /** cfr_regret_update changes only the acting player's rows. */
  lemma {:induction false} RegretUpdatedOthers(rules: GameRules, root: Node, actionPayoffs: seq<Option<seq<PlayerPayoffs>>>,
                                               ev: PlayerPayoffs, regret: Table, players: nat, n: nat, k: string, q: nat)
    requires root.Action? && root.player < players && ActionPayoffsShape(actionPayoffs, players) && n <= 3
    requires TableShape(regret, players) && UpdateValued(root, actionPayoffs, ev, players, n) && k in regret
    requires q < players && q != root.player
    ensures RegretUpdated(rules, root, actionPayoffs, ev, regret, players, n)[k][q] == regret[k][q]
  {
    if n > 0 {
      RegretUpdatedOthers(rules, root, actionPayoffs, ev, regret, players, n - 1, k, q);
    }
  }

  /** Slot `b` of the acting player's row of `k` once one action's hands are all added. */
  lemma RegretAddedAt(rules: GameRules, root: Node, sub: PlayerPayoffs, ev: PlayerPayoffs, regret: Table, players: nat, a: nat, k: string)
    requires root.Action? && root.player < players && TableShape(regret, players) && a < 3
    requires sub.Keys <= ev.Keys && k in regret
    ensures forall b :: 0 <= b < 3 ==>
      RegretAdded(rules, root, sub, ev, regret, players, a, sub.Keys)[k][root.player][b]
        == regret[k][root.player][b] + (if b == a then GainOver(rules, root, sub, ev, sub.Keys, k) else 0.0)
  {
  }

  // ---------------------------------------------------------------------
  // Regret matching's balance: the strategy-weighted regret gain is zero
  // ---------------------------------------------------------------------

  /** `sum over the legal actions a of w[a] * x[a]` */
  function Weighted(w: seq<real>, x: seq<real>, legal: seq<bool>): real
    requires |w| == 3 && |x| == 3 && |legal| == 3
  {
    (if legal[0] then Mul(w[0], x[0]) else 0.0) + (if legal[1] then Mul(w[1], x[1]) else 0.0)
      + (if legal[2] then Mul(w[2], x[2]) else 0.0)
  }

  /** The values of `h` in the three maps, 0 where an action is not legal. */
  function ValuesAt(ms: seq<PlayerPayoffs>, legal: seq<bool>, h: Hand): (x: seq<real>)
    requires |ms| == 3 && |legal| == 3
    requires forall i :: 0 <= i < 3 && legal[i] ==> h in ms[i]
    ensures |x| == 3
  {
    [if legal[0] then ms[0][h] else 0.0, if legal[1] then ms[1][h] else 0.0, if legal[2] then ms[2][h] else 0.0]
  }

  /** The sums of the three maps over `hs`, 0 where an action is not legal. */
  ghost function SumsOver(ms: seq<PlayerPayoffs>, legal: seq<bool>, hs: set<Hand>): (x: seq<real>)
    requires |ms| == 3 && |legal| == 3
    requires forall i :: 0 <= i < 3 && legal[i] ==> hs <= ms[i].Keys
    ensures |x| == 3
  {
    [if legal[0] then SumOver(ms[0], hs) else 0.0, if legal[1] then SumOver(ms[1], hs) else 0.0,
     if legal[2] then SumOver(ms[2], hs) else 0.0]
  }

  /** A weighted sum that vanishes at every hand vanishes summed over the hands. */
  lemma {:induction false} SumOverWeighted(ms: seq<PlayerPayoffs>, w: seq<real>, legal: seq<bool>, hs: set<Hand>)
    requires |ms| == 3 && |w| == 3 && |legal| == 3
    requires forall i :: 0 <= i < 3 && legal[i] ==> hs <= ms[i].Keys
    requires forall h :: h in hs ==> Weighted(w, ValuesAt(ms, legal, h), legal) == 0.0
    ensures Weighted(w, SumsOver(ms, legal, hs), legal) == 0.0
    decreases hs
  {
    var now := SumsOver(ms, legal, hs);
    if hs == {} {
      assert forall i :: 0 <= i < 3 && legal[i] ==> now[i] == 0.0;
      MulZero(w[0]);
      MulZero(w[1]);
      MulZero(w[2]);
    } else {
      var h :| h in hs;
      var rest := hs - {h};
      SumOverWeighted(ms, w, legal, rest);
      var before := SumsOver(ms, legal, rest);
      var here := ValuesAt(ms, legal, h);
      forall i | 0 <= i < 3 && legal[i]
        ensures Mul(w[i], now[i]) == Mul(w[i], here[i]) + Mul(w[i], before[i])
      {
        SumOverRemove(ms[i], hs, h);
        Distribute(w[i], here[i], before[i]);
      }
    }
  }

  lemma MulZero(c: real)
    ensures Mul(c, 0.0) == 0.0
  {
  }

  lemma Distribute(c: real, x: real, y: real)
    ensures Mul(c, x + y) == Mul(c, x) + Mul(c, y)
  {
    assert c * (x + y) == c * x + c * y;
  }

  /**
   * At one hand: when the node value is the weighted payoff over the legal
   * actions and the weights over the legal actions sum to 1, the weighted
   * immediate regrets sum to zero.
   */
  lemma WeightedBalance(w: seq<real>, x: seq<real>, legal: seq<bool>, e: real)
    requires |w| == 3 && |x| == 3 && |legal| == 3
    requires S.Total(w) == 1.0 && forall a :: 0 <= a < 3 && !legal[a] ==> w[a] == 0.0
    requires e == Weighted(w, x, legal)
    ensures Weighted(w, [x[0] - e, x[1] - e, x[2] - e], legal) == 0.0
  {
    var d := [x[0] - e, x[1] - e, x[2] - e];
    WeightedAll(w, x, legal);
    WeightedAll(w, d, legal);
    SubDistribute(w[0], x[0], e);
    SubDistribute(w[1], x[1], e);
    SubDistribute(w[2], x[2], e);
    SumDistribute(w[0], w[1], w[2], e);
  }

  /** With zero weight on the actions that are not legal, the weighted sum runs over all three. */
  lemma WeightedAll(w: seq<real>, y: seq<real>, legal: seq<bool>)
    requires |w| == 3 && |y| == 3 && |legal| == 3
    requires forall a :: 0 <= a < 3 && !legal[a] ==> w[a] == 0.0
    ensures Weighted(w, y, legal) == Mul(w[0], y[0]) + Mul(w[1], y[1]) + Mul(w[2], y[2])
  {
  }

  lemma SubDistribute(c: real, x: real, y: real)
    ensures Mul(c, x - y) == Mul(c, x) - Mul(c, y)
  {
    assert c * (x - y) == c * x - c * y;
  }

  lemma SumDistribute(a: real, b: real, c: real, e: real)
    ensures Mul(a, e) + Mul(b, e) + Mul(c, e) == Mul(a + b + c, e)
  {
    assert (a + b + c) * e == a * e + b * e + c * e;
  }

  /** The acting player's payoff at a hand held in every legal action's child payoffs, as a weighted sum. */
  lemma CombinedWeighted(rules: GameRules, root: Node, actionPayoffs: seq<Option<seq<PlayerPayoffs>>>, players: nat,
                         probs: seq<seq<real>>, h: Hand, ms: seq<PlayerPayoffs>, legal: seq<bool>)
    requires root.Action? && root.player < players && ActionPayoffsShape(actionPayoffs, players) && ThreeColumns(probs)
    requires ReachIndex(rules, h, |probs|).Some?
    requires legal == [actionPayoffs[0].Some?, actionPayoffs[1].Some?, actionPayoffs[2].Some?] && |ms| == 3
    requires forall a :: 0 <= a < 3 && legal[a] ==> ms[a] == ActorPayoffs(root, actionPayoffs, players, a) && h in ms[a]
    ensures Combined(rules, probs, actionPayoffs, root.player, root.player, h)
      == Weighted(probs[ReachIndex(rules, h, |probs|).value], ValuesAt(ms, legal, h), legal)
  {
    var w := probs[ReachIndex(rules, h, |probs|).value];
    var x := ValuesAt(ms, legal, h);
    forall a | 0 <= a < 3
      ensures ActionTerm(rules, probs, actionPayoffs, root.player, root.player, a, h) == (if legal[a] then Mul(w[a], x[a]) else 0.0)
    {
      if legal[a] {
        assert Mul(x[a], w[a]) == Mul(w[a], x[a]);
      }
    }
    assert TermsUpTo(rules, probs, actionPayoffs, root.player, root.player, 1, h)
      == ActionTerm(rules, probs, actionPayoffs, root.player, root.player, 0, h);
    assert TermsUpTo(rules, probs, actionPayoffs, root.player, root.player, 2, h)
      == TermsUpTo(rules, probs, actionPayoffs, root.player, root.player, 1, h)
       + ActionTerm(rules, probs, actionPayoffs, root.player, root.player, 1, h);
    assert Combined(rules, probs, actionPayoffs, root.player, root.player, h)
      == ActionTerm(rules, probs, actionPayoffs, root.player, root.player, 0, h)
       + ActionTerm(rules, probs, actionPayoffs, root.player, root.player, 1, h)
       + ActionTerm(rules, probs, actionPayoffs, root.player, root.player, 2, h);
  }

  /**
   * The balance of regret matching: at an action node whose every legal
   * child payoff map holds the same hands, if all the hands of information
   * set `k` play the same action probabilities `w` (zero on the actions
   * that are not legal) and their node value is the acting player's
   * combined payoff, then the regret gains of `k`, weighted by `w`, sum to
   * zero: the update never increases the regret of the strategy played.
   */
  lemma RegretBalance(rules: GameRules, root: Node, actionPayoffs: seq<Option<seq<PlayerPayoffs>>>, ev: PlayerPayoffs,
                      players: nat, probs: seq<seq<real>>, hands: set<Hand>, k: string, w: seq<real>)
    requires root.Action? && root.player < players && ActionPayoffsShape(actionPayoffs, players) && ThreeColumns(probs)
    requires forall a :: 0 <= a < 3 && actionPayoffs[a].Some? ==> ActorPayoffs(root, actionPayoffs, players, a).Keys == hands
    requires hands <= ev.Keys && UpdateValued(root, actionPayoffs, ev, players, 3)
    requires |w| == 3 && S.Total(w) == 1.0 && forall a :: 0 <= a < 3 && actionPayoffs[a].None? ==> w[a] == 0.0
    requires forall h :: h in hands && InfosetOf(rules, root, h) == k ==>
      && ReachIndex(rules, h, |probs|).Some? && probs[ReachIndex(rules, h, |probs|).value] == w
      && ev[h] == Combined(rules, probs, actionPayoffs, root.player, root.player, h)
    ensures Mul(w[0], ActionGain(rules, root, actionPayoffs, ev, players, 0, k))
      + Mul(w[1], ActionGain(rules, root, actionPayoffs, ev, players, 1, k))
      + Mul(w[2], ActionGain(rules, root, actionPayoffs, ev, players, 2, k)) == 0.0
  {
    var legal := Legal(actionPayoffs);
    var ms := GainMaps(root, actionPayoffs, ev, players);
    var hs := HandsWith(rules, root, hands, k);
    forall h | h in hs
      ensures Weighted(w, ValuesAt(ms, legal, h), legal) == 0.0
    {
      HandBalance(rules, root, actionPayoffs, ev, players, probs, h, w);
    }
    SumOverWeighted(ms, w, legal, hs);
    var gains := SumsOver(ms, legal, hs);
    WeightedAll(w, gains, legal);
    forall a | 0 <= a < 3
      ensures Mul(w[a], gains[a]) == Mul(w[a], ActionGain(rules, root, actionPayoffs, ev, players, a, k))
    {
      if legal[a] {
        assert HandsWith(rules, root, ActorPayoffs(root, actionPayoffs, players, a).Keys, k) == hs;
      }
    }
  }

  /** Which of fold, call and raise are legal. */
  function Legal(actionPayoffs: seq<Option<seq<PlayerPayoffs>>>): (legal: seq<bool>)
    requires |actionPayoffs| == 3
    ensures |legal| == 3 && forall a :: 0 <= a < 3 ==> legal[a] == actionPayoffs[a].Some?
  {
    [actionPayoffs[0].Some?, actionPayoffs[1].Some?, actionPayoffs[2].Some?]
  }

  /** The immediate regrets of the acting player's hands per action, empty where the action is not legal. */
  function GainMaps(root: Node, actionPayoffs: seq<Option<seq<PlayerPayoffs>>>, ev: PlayerPayoffs, players: nat): (ms: seq<PlayerPayoffs>)
    requires root.Action? && root.player < players && ActionPayoffsShape(actionPayoffs, players)
    requires UpdateValued(root, actionPayoffs, ev, players, 3)
    ensures |ms| == 3
    ensures forall a :: 0 <= a < 3 && actionPayoffs[a].Some? ==> ms[a] == Gains(ActorPayoffs(root, actionPayoffs, players, a), ev)
  {
    [GainMap(root, actionPayoffs, ev, players, 0), GainMap(root, actionPayoffs, ev, players, 1),
     GainMap(root, actionPayoffs, ev, players, 2)]
  }

  function GainMap(root: Node, actionPayoffs: seq<Option<seq<PlayerPayoffs>>>, ev: PlayerPayoffs, players: nat, a: nat): PlayerPayoffs
    requires root.Action? && root.player < players && ActionPayoffsShape(actionPayoffs, players) && a < 3
    requires UpdateValued(root, actionPayoffs, ev, players, 3)
  {
    if actionPayoffs[a].Some? then Gains(ActorPayoffs(root, actionPayoffs, players, a), ev) else map[]
  }

  /** The acting player's child payoffs per action, empty where the action is not legal. */
  function ActorMaps(root: Node, actionPayoffs: seq<Option<seq<PlayerPayoffs>>>, players: nat): (ms: seq<PlayerPayoffs>)
    requires root.Action? && root.player < players && ActionPayoffsShape(actionPayoffs, players)
    ensures |ms| == 3
    ensures forall a :: 0 <= a < 3 && actionPayoffs[a].Some? ==> ms[a] == ActorPayoffs(root, actionPayoffs, players, a)
  {
    [ActorMap(root, actionPayoffs, players, 0), ActorMap(root, actionPayoffs, players, 1), ActorMap(root, actionPayoffs, players, 2)]
  }

  function ActorMap(root: Node, actionPayoffs: seq<Option<seq<PlayerPayoffs>>>, players: nat, a: nat): PlayerPayoffs
    requires root.Action? && root.player < players && ActionPayoffsShape(actionPayoffs, players) && a < 3
  {
    if actionPayoffs[a].Some? then ActorPayoffs(root, actionPayoffs, players, a) else map[]
  }

  /** The weighted immediate regrets of one hand of the information set sum to zero. */
  lemma HandBalance(rules: GameRules, root: Node, actionPayoffs: seq<Option<seq<PlayerPayoffs>>>, ev: PlayerPayoffs,
                    players: nat, probs: seq<seq<real>>, h: Hand, w: seq<real>)
    requires root.Action? && root.player < players && ActionPayoffsShape(actionPayoffs, players) && ThreeColumns(probs)
    requires UpdateValued(root, actionPayoffs, ev, players, 3)
    requires forall a :: 0 <= a < 3 && actionPayoffs[a].Some? ==> h in ActorPayoffs(root, actionPayoffs, players, a)
    requires |w| == 3 && S.Total(w) == 1.0 && forall a :: 0 <= a < 3 && actionPayoffs[a].None? ==> w[a] == 0.0
    requires ReachIndex(rules, h, |probs|).Some? && probs[ReachIndex(rules, h, |probs|).value] == w
    requires h in ev && ev[h] == Combined(rules, probs, actionPayoffs, root.player, root.player, h)
    ensures Weighted(w, ValuesAt(GainMaps(root, actionPayoffs, ev, players), Legal(actionPayoffs), h), Legal(actionPayoffs)) == 0.0
  {
    var legal := Legal(actionPayoffs);
    var subs := ActorMaps(root, actionPayoffs, players);
    CombinedWeighted(rules, root, actionPayoffs, players, probs, h, subs, legal);
    var x := ValuesAt(subs, legal, h);
    var e := ev[h];
    WeightedBalance(w, x, legal, e);
    var g := ValuesAt(GainMaps(root, actionPayoffs, ev, players), legal, h);
    forall a | 0 <= a < 3 && legal[a]
      ensures g[a] == [x[0] - e, x[1] - e, x[2] - e][a]
    {
      assert g[a] == GainMaps(root, actionPayoffs, ev, players)[a][h];
      assert x[a] == ActorPayoffs(root, actionPayoffs, players, a)[h];
    }
    WeightedOnLegal(w, g, [x[0] - e, x[1] - e, x[2] - e], legal);
  }

  /** Only the legal entries count in a weighted sum. */
  lemma WeightedOnLegal(w: seq<real>, x: seq<real>, y: seq<real>, legal: seq<bool>)
    requires |w| == 3 && |x| == 3 && |y| == 3 && |legal| == 3
    requires forall a :: 0 <= a < 3 && legal[a] ==> x[a] == y[a]
    ensures Weighted(w, x, legal) == Weighted(w, y, legal)
  {
  }
}

=== FILE: hand_ranges.dfy ===
/**
 * The hand-range indexer: a dense numbering of private holdings. One-card
 * holdings are numbered by their position in the game's deck; two-card
 * holdings by their position in the enumeration of all unordered pairs of
 * the 52-card space, which gives C(52, 2) = 1326 slots.
 */
module HandRanges {
  import opened Wrappers
  import opened Cards

  /** Number of unordered pairs of distinct cards in the 52-card space. */
  const PairCount: nat := 1326

  /**
   * sort_cards: a one-card hand is returned as it is, two cards are put
   * larger sort key first, and any other length is a failed assertion.
   */
  function SortCards(cards: seq<Card>): (r: Option<seq<Card>>)
    ensures r.Some? <==> |cards| == 1 || |cards| == 2
    ensures |cards| == 1 ==> r == Some(cards)
    ensures |cards| == 2 ==> |r.value| == 2 && multiset(r.value) == multiset(cards)
    ensures |cards| == 2 ==> SortKey(r.value[0]) >= SortKey(r.value[1])
    ensures |cards| == 2 && SortKey(cards[0]) > SortKey(cards[1]) ==> r.value == cards
  {
    if |cards| == 1 then Some(cards)
    else if |cards| == 2 then
      if SortKey(cards[0]) > SortKey(cards[1]) then Some(cards)
      else
        var swapped := [cards[1], cards[0]];
        assert multiset(swapped) == multiset(cards) by { assert cards == [cards[0], cards[1]]; }
        Some(swapped)
    else None
  }

  /**
   * Number of pairs `(i, j)`, `i < j < 52`, whose first ordinal is below
   * `lo`: the sum of `51 - k` for `k < lo`.
   */
  function Offset(lo: nat): nat
    requires lo <= 52
  {
    if lo == 0 then 0 else Offset(lo - 1) + (52 - lo)
  }

  /**
   * The closed form of the counting loops: the position of the pair of
   * ordinals `lo < hi` in the nested enumeration `for i, for j > i`.
   */
  function PairIndex(lo: int, hi: int): (k: nat)
    requires 0 <= lo < hi < 52
    ensures Offset(lo) <= k < Offset(lo + 1)
    ensures k < PairCount
  {
    OffsetBelowTotal(lo + 1);
    Offset(lo) + (hi - lo - 1)
  }

  /** The closed form of Offset: `lo * (103 - lo) / 2`. */
  lemma {:induction false} OffsetClosedForm(lo: nat)
    requires lo <= 52
    ensures 2 * Offset(lo) == lo * (103 - lo)
  {
    if lo > 0 {
      OffsetClosedForm(lo - 1);
      assert (lo - 1) * (103 - (lo - 1)) + 2 * (52 - lo) == lo * (103 - lo);
    }
  }

  /** All 1326 pairs are counted once the first ordinal reaches 52. */
  lemma OffsetTotal()
    ensures Offset(52) == PairCount
  {
    OffsetClosedForm(52);
  }

  lemma {:induction false} OffsetBelowTotal(lo: nat)
    requires lo <= 52
    ensures Offset(lo) <= PairCount
    decreases 52 - lo
  {
    if lo < 52 {
      OffsetBelowTotal(lo + 1);
    } else {
      OffsetTotal();
    }
  }

  lemma {:induction false} OffsetMonotone(a: nat, b: nat)
    requires a <= b <= 52
    ensures Offset(a) <= Offset(b)
  {
    if a < b {
      OffsetMonotone(a, b - 1);
    }
  }

  /** Different pairs of ordinals have different positions. */
  lemma PairIndexInjective(a: int, b: int, c: int, d: int)
    requires 0 <= a < b < 52 && 0 <= c < d < 52
    requires PairIndex(a, b) == PairIndex(c, d)
    ensures a == c && b == d
  {
    if a < c {
      OffsetMonotone(a + 1, c);
    } else if c < a {
      OffsetMonotone(c + 1, a);
    }
  }

  /**
   * The pair of ordinals at position `k`, searched from first ordinal `lo`
   * upwards: the inverse of PairIndex.
   */
  function UnpairFrom(lo: nat, k: nat): (p: (int, int))
    requires lo < 52 && Offset(lo) <= k < PairCount
    ensures 0 <= p.0 < p.1 < 52 && PairIndex(p.0, p.1) == k
    decreases 52 - lo
  {
    if k < Offset(lo + 1) then (lo, lo + 1 + (k - Offset(lo)))
    else
      OffsetTotal();
      UnpairFrom(lo + 1, k)
  }

  function Unpair(k: nat): (p: (int, int))
    requires k < PairCount
    ensures 0 <= p.0 < p.1 < 52 && PairIndex(p.0, p.1) == k
  {
    UnpairFrom(0, k)
  }

  lemma UnpairPairIndex(lo: int, hi: int)
    requires 0 <= lo < hi < 52
    ensures Unpair(PairIndex(lo, hi)) == (lo, hi)
  {
    var p := Unpair(PairIndex(lo, hi));
    PairIndexInjective(p.0, p.1, lo, hi);
  }

  lemma DecodePairIndex(lo: int, hi: int)
    requires 0 <= lo < hi < 52
    ensures CardsOfPairIndex(PairIndex(lo, hi)) == Some([OfOrdinal(lo), OfOrdinal(hi)])
  {
    UnpairPairIndex(lo, hi);
  }

  /**
   * What the two loop nests of cards_to_range_index_2 find for the ordinals
   * `first` and `second`, taken in the order given: the first nest matches
   * `first < second`, the second nest `second < first`; equal or
   * out-of-range ordinals match neither.
   */
  function OrdinalPairIndex(first: int, second: int): (r: Option<nat>)
    ensures r.Some? <==> first != second && 0 <= first < 52 && 0 <= second < 52
    ensures r.Some? ==> r.value < PairCount
  {
    if 0 <= first < second < 52 then Some(PairIndex(first, second))
    else if 0 <= second < first < 52 then Some(PairIndex(second, first))
    else None
  }

  /** The index cards_to_range_index_2 gives a two-card holding, or None where it fails. */
  function PairIndexOf(cards: seq<Card>): Option<nat>
  {
    match SortCards(cards)
    case None => None
    case Some(sorted) =>
      if |sorted| != 2 then None else OrdinalPairIndex(Ordinal(sorted[0]), Ordinal(sorted[1]))
  }

  /** The holding range_index_to_cards_2 decodes from `index`: lower ordinal first. */
  function CardsOfPairIndex(index: int): Option<seq<Card>>
  {
    if 0 <= index < PairCount then
      var p := Unpair(index);
      Some([OfOrdinal(p.0), OfOrdinal(p.1)])
    else None
  }

  /**
   * cards_to_range_index_2: sort, take the two ordinals, and count through
   * the two loop nests until the pair is met.
   */
  method CardsToRangeIndex2(cards: seq<Card>) returns (r: Option<nat>)
    ensures r == PairIndexOf(cards)
  {
    var sorted := SortCards(cards);
    if sorted.None? || |sorted.value| != 2 {
      // the assertion in sort_cards, or the missing second ordinal
      return None;
    }
    var first, second := Ordinal(sorted.value[0]), Ordinal(sorted.value[1]);
    var count: nat := 0;
    for i := 0 to 52
      invariant count == Offset(i)
      invariant !(0 <= first < i && first < second < 52)
    {
      for j := i + 1 to 52
        invariant count == Offset(i) + (j - i - 1)
        invariant !(first == i && i < second < j)
      {
        if first == i && second == j {
          return Some(count);
        }
        count := count + 1;
      }
    }
    count := 0;
    for j := 0 to 52
      invariant count == Offset(j)
      invariant !(0 <= second < j && second < first < 52)
    {
      for i := j + 1 to 52
        invariant count == Offset(j) + (i - j - 1)
        invariant !(second == j && j < first < i)
      {
        if first == i && second == j {
          return Some(count);
        }
        count := count + 1;
      }
    }
    return None;
  }

  /**
   * range_index_to_cards_2 (the definition that takes effect): count through
   * the pairs `i < j` and decode the pair met at `index`. The second loop
   * nest runs only for an index outside 0..1325, where it cannot match
   * either, and the function falls off its end (None).
   */
  method RangeIndexToCards2(index: int) returns (r: Option<seq<Card>>)
    ensures r == CardsOfPairIndex(index)
  {
    var count := 0;
    for i := 0 to 52
      invariant count == Offset(i)
      invariant !(0 <= index < count)
    {
      for j := i + 1 to 52
        invariant count == Offset(i) + (j - i - 1)
        invariant !(0 <= index < count)
      {
        assert count == PairIndex(i, j);
        if count == index {
          DecodePairIndex(i, j);
          return Some([OfOrdinal(i), OfOrdinal(j)]);
        }
        count := count + 1;
      }
    }
    OffsetTotal();
    count := 0;
    for j := 0 to 52
      invariant count == Offset(j)
    {
      for i := j + 1 to 52
        invariant count == Offset(j) + (i - j - 1)
      {
        assert count == PairIndex(j, i);
        if count == index {
          return Some([OfOrdinal(i), OfOrdinal(j)]);
        }
        count := count + 1;
      }
    }
    return None;
  }

  /** The first position of `c` in `deck`, if any. */
  function DeckIndex(deck: seq<Card>, c: Card): (r: Option<nat>)
    ensures r.Some? <==> c in deck
    ensures r.Some? ==> r.value < |deck| && deck[r.value] == c
    ensures r.Some? ==> forall j :: 0 <= j < r.value ==> deck[j] != c
  {
    if deck == [] then None
    else if deck[0] == c then Some(0)
    else match DeckIndex(deck[1..], c)
      case None => None
      case Some(k) => Some(k + 1)
  }

  /**
   * cards_to_range_index_1: scan the deck for the (first) card of the
   * holding and return the first position holding it.
   */
  method CardsToRangeIndex1(rules: GameRules, cards: seq<Card>) returns (r: Option<nat>)
    ensures cards == [] ==> r.None?
    ensures cards != [] ==> r == DeckIndex(rules.deck, cards[0])
  {
    if cards == [] {
      return None;
    }
    var card := cards[0];
    for i := 0 to |rules.deck|
      invariant card !in rules.deck[..i]
    {
      if rules.deck[i] == card {
        return Some(i);
      }
    }
    return None;
  }

  /**
   * range_index_to_cards_1: the one-card holding `(deck[index],)`, with
   * Python's indexing from the end for negative indices.
   */
  function RangeIndexToCards1(rules: GameRules, index: int): (r: Option<seq<Card>>)
    ensures r.Some? <==> -|rules.deck| <= index < |rules.deck|
    ensures r.Some? ==> |r.value| == 1 && r.value[0] in rules.deck
  {
    if 0 <= index < |rules.deck| then Some([rules.deck[index]])
    else if -|rules.deck| <= index < 0 then Some([rules.deck[|rules.deck| + index]])
    else None
  }

  /** range_size: the deck size for one hole card, 1326 for two, a failed assertion otherwise. */
  function RangeSize(rules: GameRules): (r: Option<nat>)
    ensures r.Some? <==> rules.holecardCount == 1 || rules.holecardCount == 2
    ensures rules.holecardCount == 1 ==> r == Some(|rules.deck|)
    ensures rules.holecardCount == 2 ==> r == Some(PairCount)
  {
    if rules.holecardCount == 1 then Some(|rules.deck|)
    else if rules.holecardCount == 2 then Some(PairCount)
    else None
  }

  /** A Python number: an int, or a float as `/` yields even for whole quotients. */
  datatype PyNumber = PyInt(i: int) | PyFloat(f: real)

  function PyValue(n: PyNumber): real
  {
    match n
    case PyInt(i) => i as real
    case PyFloat(f) => f
  }

  /**
   * range_size as written: `len(deck)` is an int, but `(52*51)/2` is true
   * division and yields the float 1326.0.
   */
  function RangeSizeAsWritten(rules: GameRules): (r: Option<PyNumber>)
    ensures r.Some? <==> rules.holecardCount == 1 || rules.holecardCount == 2
    ensures rules.holecardCount == 2 ==> r.value.PyFloat?
  {
    if rules.holecardCount == 1 then Some(PyInt(|rules.deck|))
    else if rules.holecardCount == 2 then Some(PyFloat(52.0 * 51.0 / 2.0))
    else None
  }

  /** A size passed to `range(...)` or `np.zeros(...)`: an int is accepted, a float raises TypeError. */
  function SizeArgument(n: PyNumber): Option<int>
  {
    match n
    case PyInt(i) => Some(i)
    case PyFloat(_) => None
  }

  /**
   * range_size as written has the value of RangeSize wherever it returns,
   * but for two hole cards it is a float, which the constructor's
   * `np.zeros` and `range` reject; RangeSize, the integer 1326, is the
   * evidently intended result and the one the rest of the model uses.
   */
  lemma RangeSizeAsWrittenIsFloat(rules: GameRules)
    ensures RangeSizeAsWritten(rules).Some? <==> RangeSize(rules).Some?
    ensures RangeSize(rules).Some? ==> PyValue(RangeSizeAsWritten(rules).value) == RangeSize(rules).value as real
    ensures RangeSize(rules).Some? ==>
      (SizeArgument(RangeSizeAsWritten(rules).value).Some? <==> rules.holecardCount == 1)
  {
  }

  /** cards_to_range_index: dispatch on the number of cards held. */
  function CardsToRangeIndex(rules: GameRules, cards: seq<Card>): (r: Option<nat>)
    ensures |cards| != 1 && |cards| != 2 ==> r.None?
    ensures |cards| == 1 ==> (r.Some? <==> cards[0] in rules.deck)
    ensures |cards| == 1 && r.Some? ==> r.value < |rules.deck| && rules.deck[r.value] == cards[0]
    ensures |cards| == 2 && r.Some? ==> r.value < PairCount
  {
    if |cards| == 2 then PairIndexOf(cards)
    else if |cards| == 1 then DeckIndex(rules.deck, cards[0])
    else None
  }

  /** range_index_to_cards: dispatch on the game's hole-card count. */
  function RangeIndexToCards(rules: GameRules, index: int): (r: Option<seq<Card>>)
    ensures rules.holecardCount == 2 ==> (r.Some? <==> 0 <= index < PairCount)
    ensures rules.holecardCount == 1 ==> (r.Some? <==> -|rules.deck| <= index < |rules.deck|)
    ensures rules.holecardCount != 1 && rules.holecardCount != 2 ==> r.None?
    ensures r.Some? ==> |r.value| == rules.holecardCount
    ensures rules.holecardCount == 1 && r.Some? ==> r.value[0] in rules.deck
  {
    if rules.holecardCount == 2 then CardsOfPairIndex(index)
    else if rules.holecardCount == 1 then RangeIndexToCards1(rules, index)
    else None
  }

  // ---------------------------------------------------------------------
  // Properties of the two-card indexer
  // ---------------------------------------------------------------------

  /** Sorting puts the larger ordinal first, so the first loop nest never matches. */
  lemma SortedOrdinalsDescending(cards: seq<Card>)
    requires |cards| == 2
    ensures Ordinal(SortCards(cards).value[0]) >= Ordinal(SortCards(cards).value[1])
  {
  }

  /** The index does not depend on the order the two cards are given in. */
  lemma PairIndexOrderIndependent(a: Card, b: Card)
    ensures PairIndexOf([a, b]) == PairIndexOf([b, a])
  {
  }

  /**
   * Two valid cards have an index exactly when they differ, and it is the
   * closed form `Offset(lo) + (hi - lo - 1)` of their ordinals `lo < hi`.
   */
  lemma PairIndexOfValid(a: Card, b: Card)
    requires IsValid(a) && IsValid(b)
    ensures PairIndexOf([a, b]).Some? <==> a != b
    ensures a != b && Ordinal(a) < Ordinal(b) ==> PairIndexOf([a, b]) == Some(PairIndex(Ordinal(a), Ordinal(b)))
    ensures a != b && Ordinal(b) < Ordinal(a) ==> PairIndexOf([a, b]) == Some(PairIndex(Ordinal(b), Ordinal(a)))
  {
    OrdinalInjective(a, b);
  }

  /** Decoding a position in 0..1325 and indexing the decoded pair gives the position back. */
  lemma PairRoundTrip(k: int)
    requires 0 <= k < PairCount
    ensures CardsOfPairIndex(k).Some?
    ensures PairIndexOf(CardsOfPairIndex(k).value) == Some(k)
  {
    var p := Unpair(k);
    var a, b := OfOrdinal(p.0), OfOrdinal(p.1);
    assert CardsOfPairIndex(k).value == [a, b];
    assert SortKey(a) < SortKey(b);
    assert SortCards([a, b]) == Some([b, a]);
    assert OrdinalPairIndex(Ordinal(b), Ordinal(a)) == Some(PairIndex(p.0, p.1));
  }

  /**
   * Indexing two distinct valid cards and decoding the index gives them
   * back, lower ordinal first: the reverse of the sorted order.
   */
  lemma PairRoundTripCards(a: Card, b: Card)
    requires IsValid(a) && IsValid(b) && a != b
    ensures PairIndexOf([a, b]).Some?
    ensures CardsOfPairIndex(PairIndexOf([a, b]).value)
         == Some([SortCards([a, b]).value[1], SortCards([a, b]).value[0]])
  {
    PairIndexOfValid(a, b);
    OrdinalInjective(a, b);
    var lo, hi := if Ordinal(a) < Ordinal(b) then a else b, if Ordinal(a) < Ordinal(b) then b else a;
    UnpairPairIndex(Ordinal(lo), Ordinal(hi));
    OrdinalRoundTrip(lo);
    OrdinalRoundTrip(hi);
  }

  /** Two unordered pairs of distinct valid cards with the same index are the same pair. */
  lemma PairIndexInjectiveOnCards(a: Card, b: Card, c: Card, d: Card)
    requires IsValid(a) && IsValid(b) && IsValid(c) && IsValid(d)
    requires a != b && c != d
    requires PairIndexOf([a, b]) == PairIndexOf([c, d])
    ensures multiset{a, b} == multiset{c, d}
  {
    PairRoundTripCards(a, b);
    PairRoundTripCards(c, d);
    var sab := SortCards([a, b]).value;
    var scd := SortCards([c, d]).value;
    assert [sab[1], sab[0]] == [scd[1], scd[0]];
    assert multiset(sab) == multiset{a, b};
    assert multiset(scd) == multiset{c, d};
    assert sab == [sab[0], sab[1]] && scd == [scd[0], scd[1]];
  }

  /** Every position in 0..1325 is the index of some pair of distinct valid cards. */
  lemma PairIndexSurjective(k: int)
    requires 0 <= k < PairCount
    ensures exists a: Card, b: Card :: IsValid(a) && IsValid(b) && a != b && PairIndexOf([a, b]) == Some(k)
  {
    PairRoundTrip(k);
    var p := Unpair(k);
    var a, b := OfOrdinal(p.0), OfOrdinal(p.1);
    assert CardsOfPairIndex(k).value == [a, b];
    assert IsValid(a) && IsValid(b) && a != b && PairIndexOf([a, b]) == Some(k);
  }

  /** Identical cards have no index: no iteration of either loop nest matches. */
  lemma IdenticalCardsHaveNoIndex(c: Card)
    ensures PairIndexOf([c, c]).None?
  {
  }

  /** range_index_to_cards_2 yields None for every index outside 0..1325. */
  lemma DecodeOutOfRange(index: int)
    requires index < 0 || PairCount <= index
    ensures CardsOfPairIndex(index).None?
  {
  }

  // ---------------------------------------------------------------------
  // Properties of the one-card indexer and the dispatchers
  // ---------------------------------------------------------------------

  predicate DistinctCards(deck: seq<Card>)
  {
    forall i, j :: 0 <= i < j < |deck| ==> deck[i] != deck[j]
  }

  /** Over a deck without repeated cards the one-card index and lookup are inverse. */
  lemma DeckRoundTrip(rules: GameRules, i: int)
    requires DistinctCards(rules.deck) && 0 <= i < |rules.deck|
    ensures RangeIndexToCards1(rules, i) == Some([rules.deck[i]])
    ensures DeckIndex(rules.deck, rules.deck[i]) == Some(i)
  {
    var r := DeckIndex(rules.deck, rules.deck[i]);
    assert r.Some?;
  }

  /** Looking up a deck card's position gives that card back. */
  lemma DeckRoundTripCard(rules: GameRules, c: Card)
    requires c in rules.deck
    ensures RangeIndexToCards1(rules, DeckIndex(rules.deck, c).value) == Some([c])
  {
  }

  /**
   * Every index below range_size decodes to a holding, and that holding
   * indexes back to a position below range_size (the same position for
   * two cards, and for one card when the deck has no repeated card).
   */
  lemma RangeRoundTrip(rules: GameRules, i: int)
    requires RangeSize(rules).Some? && 0 <= i < RangeSize(rules).value
    ensures RangeIndexToCards(rules, i).Some?
    ensures |RangeIndexToCards(rules, i).value| == rules.holecardCount
    ensures CardsToRangeIndex(rules, RangeIndexToCards(rules, i).value).Some?
    ensures CardsToRangeIndex(rules, RangeIndexToCards(rules, i).value).value < RangeSize(rules).value
    ensures rules.holecardCount == 2 || DistinctCards(rules.deck)
        ==> CardsToRangeIndex(rules, RangeIndexToCards(rules, i).value) == Some(i)
  {
    if rules.holecardCount == 2 {
      PairRoundTrip(i);
    } else {
      var c := rules.deck[i];
      assert RangeIndexToCards(rules, i) == Some([c]);
      var k := DeckIndex(rules.deck, c);
      assert k.Some? && k.value <= i;
      if DistinctCards(rules.deck) {
        DeckRoundTrip(rules, i);
      }
    }
  }
}

=== FILE: poker_games.dfy ===
/**
 * The game definitions' pure parts: the hand evaluators of Kuhn, Leduc and
 * "royal" poker, the information-set key formats, and the canonical
 * 52-card deck of hold'em.
 */
module PokerGames {
  import opened Wrappers
  import opened Cards

  /** Rank constants of the card module (the ace ranks 14, as in every deck of these games). */
  const RankJack: int := 11
  const RankQueen: int := 12
  const RankKing: int := 13
  const RankAce: int := 14

  /** Card.RANK_TO_STRING and Card.SUIT_TO_STRING, whose tables are not part of this model. */
  datatype CardNames = CardNames(rankName: int -> string, suitName: int -> string)

  predicate ValidRanks(hand: seq<Card>)
  {
    forall i :: 0 <= i < |hand| ==> 2 <= hand[i].rank <= 14
  }

  // ---------------------------------------------------------------------
  // The deck of holdem_rules
  // ---------------------------------------------------------------------

  /**
   * The deck holdem_rules builds: ranks 2..14 in the outer loop, suits
   * 1..4 in the inner one, so the card at position k has ordinal k.
   */
  method HoldemDeck() returns (deck: seq<Card>)
    ensures |deck| == 52
    ensures forall k :: 0 <= k < 52 ==> IsValid(deck[k]) && Ordinal(deck[k]) == k
    ensures forall c :: IsValid(c) ==> c in deck
    ensures forall i, j :: 0 <= i < j < |deck| ==> deck[i] != deck[j]
  {
    deck := [];
    for rank := 2 to 15
      invariant |deck| == (rank - 2) * 4
      invariant forall k :: 0 <= k < |deck| ==> IsValid(deck[k]) && Ordinal(deck[k]) == k
    {
      for suit := 1 to 5
        invariant |deck| == (rank - 2) * 4 + (suit - 1)
        invariant forall k :: 0 <= k < |deck| ==> IsValid(deck[k]) && Ordinal(deck[k]) == k
      {
        deck := deck + [Card(rank, suit)];
      }
    }
    forall c | IsValid(c)
      ensures c in deck
    {
      OrdinalInjective(c, deck[Ordinal(c)]);
    }
  }

  // ---------------------------------------------------------------------
  // Hand evaluators
  // ---------------------------------------------------------------------

  /** holdem_eval is not supported: its assertion always fails. */
  function HoldemEval(hc: seq<Card>, board: seq<Card>): (r: Option<int>)
    ensures r.None?
  {
    None
  }

  /** kuhn_eval: the rank of the first hole card; None (an IndexError) without one. */
  function KuhnEval(hc: seq<Card>, board: seq<Card>): (r: Option<int>)
    ensures r.None? <==> |hc| == 0
  {
    if |hc| == 0 then None else Some(hc[0].rank)
  }

  /** Kuhn poker ranks a hand by its hole card alone: the board is ignored. */
  lemma KuhnEvalIgnoresBoard(hc: seq<Card>, board1: seq<Card>, board2: seq<Card>)
    requires |hc| >= 1
    ensures KuhnEval(hc, board1) == KuhnEval(hc, board2) == Some(hc[0].rank)
  {
  }

  function Max(a: int, b: int): int { if a < b then b else a }
  function Min(a: int, b: int): int { if a < b then a else b }

  /**
   * leduc_eval: the first two cards of hole cards followed by board; a pair
   * scores `15 * 14 + rank`, anything else `max * 14 + min`. None (an
   * IndexError) with fewer than two cards.
   */
  function LeducEval(hc: seq<Card>, board: seq<Card>): (r: Option<int>)
    ensures r.None? <==> |hc| + |board| < 2
  {
    var hand := hc + board;
    if |hand| < 2 then None
    else if hand[0].rank == hand[1].rank then Some(15 * 14 + hand[0].rank)
    else Some(Max(hand[0].rank, hand[1].rank) * 14 + Min(hand[0].rank, hand[1].rank))
  }

  /** Which card is the hole card and which the board card does not matter. */
  lemma LeducEvalSymmetric(a: Card, b: Card)
    ensures LeducEval([a], [b]) == LeducEval([b], [a])
    ensures LeducEval([a], [b]).Some?
  {
  }

  /**
   * The ranking Leduc poker intends for a hole card `a` and a board card
   * `b` against `c` and `d`: a pair beats a non-pair, pairs compare by
   * rank, and non-pairs compare by their higher rank and then their lower.
   */
  predicate LeducBeats(a: Card, b: Card, c: Card, d: Card)
  {
    var pair1, pair2 := a.rank == b.rank, c.rank == d.rank;
    if pair1 && pair2 then a.rank > c.rank
    else if pair1 || pair2 then pair1
    else
      var hi1, lo1 := Max(a.rank, b.rank), Min(a.rank, b.rank);
      var hi2, lo2 := Max(c.rank, d.rank), Min(c.rank, d.rank);
      hi1 > hi2 || (hi1 == hi2 && lo1 > lo2)
  }

  /**
   * For ranks 2..14, leduc_eval orders hands exactly as LeducBeats says:
   * every pair (212 and up) outscores every non-pair (209 at most), and the
   * encoding `max * 14 + min` is lexicographic because `min < 14`.
   */
  lemma LeducEvalRanksHands(a: Card, b: Card, c: Card, d: Card)
    requires 2 <= a.rank <= 14 && 2 <= b.rank <= 14 && 2 <= c.rank <= 14 && 2 <= d.rank <= 14
    ensures LeducEval([a], [b]).value > LeducEval([c], [d]).value <==> LeducBeats(a, b, c, d)
  {
    var hi1, lo1 := Max(a.rank, b.rank), Min(a.rank, b.rank);
    var hi2, lo2 := Max(c.rank, d.rank), Min(c.rank, d.rank);
    if a.rank != b.rank && c.rank != d.rank {
      assert LeducEval([a], [b]).value == hi1 * 14 + lo1;
      assert LeducEval([c], [d]).value == hi2 * 14 + lo2;
      if hi1 > hi2 {
        assert hi1 * 14 >= hi2 * 14 + 14;
      } else if hi1 < hi2 {
        assert hi2 * 14 >= hi1 * 14 + 14;
      }
    } else if a.rank != b.rank {
      assert LeducEval([a], [b]).value == hi1 * 14 + lo1;
      assert hi1 * 14 <= 14 * 14;
    } else if c.rank != d.rank {
      assert LeducEval([c], [d]).value == hi2 * 14 + lo2;
      assert hi2 * 14 <= 14 * 14;
    }
  }

  /** The categories of royal_eval, strongest first: flush, straight, hole-card pair, high card. */
  function RoyalCategory(hc: seq<Card>, board: seq<Card>): nat
    requires |hc| + |board| >= 3
  {
    var hand := hc + board;
    if hand[0].suit == hand[1].suit && hand[0].suit == hand[2].suit then 3
    else if HasRank(hand, RankQueen) && HasRank(hand, RankKing)
         && (HasRank(hand, RankAce) || HasRank(hand, RankJack)) then 2
    else if hand[0].rank == hand[1].rank || hand[0].rank == hand[2].rank then 1
    else 0
  }

  predicate HasRank(hand: seq<Card>, rank: int)
  {
    exists i :: 0 <= i < |hand| && hand[i].rank == rank
  }

  /** The list `[h.rank for h in hand]`. */
  function Ranks(hand: seq<Card>): (ranks: seq<int>)
    ensures |ranks| == |hand|
    ensures forall i :: 0 <= i < |hand| ==> ranks[i] == hand[i].rank
  {
    if hand == [] then [] else [hand[0].rank] + Ranks(hand[1..])
  }

  /**
   * The one hand of fewer than three cards royal_eval scores: two cards of
   * different suits and equal rank. The flush test stops at the suits of
   * the first two cards, the straight test needs three distinct ranks, and
   * the pair test stops at its first comparison, so `hand[2]` is never read.
   */
  predicate TwoCardPair(hand: seq<Card>)
  {
    |hand| == 2 && hand[0].suit != hand[1].suit && hand[0].rank == hand[1].rank
  }

  /**
   * royal_eval: a three-suited flush scores 10000 plus the hole rank; a
   * queen and a king with an ace or a jack are a straight (1014 or 1011);
   * the first card paired with either next card scores 100 plus its rank;
   * otherwise the first card's rank. None (an IndexError) where the
   * short-circuiting tests read a card the hand lacks: with fewer than two
   * cards, with two cards unless they are a `TwoCardPair`, and on a flush
   * without a hole card.
   */
  function RoyalEval(hc: seq<Card>, board: seq<Card>): (r: Option<int>)
    ensures |hc| + |board| < 2 ==> r.None?
    ensures |hc| + |board| == 2 ==> (r.Some? <==> TwoCardPair(hc + board))
    ensures TwoCardPair(hc + board) ==> r == Some(100 + (hc + board)[0].rank)
    ensures |hc| >= 1 ==> (r.None? <==> |hc| + |board| < 3 && !TwoCardPair(hc + board))
    ensures |hc| == 0 && |board| >= 3 ==> (r.None? <==> RoyalCategory(hc, board) == 3)
    ensures |hc| + |board| >= 3 && RoyalCategory(hc, board) < 3 ==> r.Some?
  {
    var hand := hc + board;
    if |hand| < 2 then None
    else if |hand| == 2 then
      if TwoCardPair(hand) then Some(100 + hand[0].rank) else None
    else if hand[0].suit == hand[1].suit && hand[0].suit == hand[2].suit then
      if |hc| == 0 then None else Some(10000 + hc[0].rank)
    else
      var ranks := Ranks(hand);
      if RankQueen in ranks && RankKing in ranks && RankAce in ranks then Some(1000 + RankAce)
      else if RankQueen in ranks && RankKing in ranks && RankJack in ranks then Some(1000 + RankJack)
      else if hand[0].rank == hand[1].rank || hand[0].rank == hand[2].rank then Some(100 + hand[0].rank)
      else Some(hand[0].rank)
  }

  /** Two cards never hold a queen, a king and an ace or a jack, so the straight test cannot fire on them. */
  lemma RoyalTwoCardsNoStraight(hand: seq<Card>)
    requires |hand| == 2
    ensures !(HasRank(hand, RankQueen) && HasRank(hand, RankKing) && (HasRank(hand, RankAce) || HasRank(hand, RankJack)))
  {
    if HasRank(hand, RankQueen) && HasRank(hand, RankKing) {
      var i :| 0 <= i < 2 && hand[i].rank == RankQueen;
      var j :| 0 <= j < 2 && hand[j].rank == RankKing;
      assert i != j;
      assert hand[0].rank in {RankQueen, RankKing} && hand[1].rank in {RankQueen, RankKing};
    }
  }

  lemma RanksHasRank(hand: seq<Card>, rank: int)
    ensures rank in Ranks(hand) <==> HasRank(hand, rank)
  {
    if HasRank(hand, rank) {
      var i :| 0 <= i < |hand| && hand[i].rank == rank;
      assert Ranks(hand)[i] == rank;
    }
  }

  /** Each royal_eval category occupies its own band of scores. */
  lemma RoyalEvalBands(hc: seq<Card>, board: seq<Card>)
    requires |hc| >= 1 && |hc| + |board| >= 3 && ValidRanks(hc + board)
    ensures RoyalEval(hc, board).Some?
    ensures RoyalCategory(hc, board) == 3 ==> 10002 <= RoyalEval(hc, board).value <= 10014
    ensures RoyalCategory(hc, board) == 2 ==>
      RoyalEval(hc, board).value == 1000 + RankAce || RoyalEval(hc, board).value == 1000 + RankJack
    ensures RoyalCategory(hc, board) == 1 ==> 102 <= RoyalEval(hc, board).value <= 114
    ensures RoyalCategory(hc, board) == 0 ==> 2 <= RoyalEval(hc, board).value <= 14
  {
    var hand := hc + board;
    assert hand[0] == hc[0];
    assert 2 <= hand[0].rank <= 14;
    RanksHasRank(hand, RankQueen);
    RanksHasRank(hand, RankKing);
    RanksHasRank(hand, RankAce);
    RanksHasRank(hand, RankJack);
  }

  /** For valid ranks the royal_eval tiers are strictly ordered: flush > straight > pair > high card. */
  lemma RoyalTiersOrdered(hc1: seq<Card>, board1: seq<Card>, hc2: seq<Card>, board2: seq<Card>)
    requires |hc1| >= 1 && |hc1| + |board1| >= 3 && ValidRanks(hc1 + board1)
    requires |hc2| >= 1 && |hc2| + |board2| >= 3 && ValidRanks(hc2 + board2)
    requires RoyalCategory(hc1, board1) > RoyalCategory(hc2, board2)
    ensures RoyalEval(hc1, board1).value > RoyalEval(hc2, board2).value
  {
    RoyalEvalBands(hc1, board1);
    RoyalEvalBands(hc2, board2);
  }

  // ---------------------------------------------------------------------
  // Information-set key formats
  // ---------------------------------------------------------------------

  /**
   * leduc_format: the hole card's rank name, then the first board card's
   * rank name if there is a board, then `:history:`. None (an IndexError)
   * without a hole card.
   */
  function LeducFormat(names: CardNames, player: nat, hc: seq<Card>, board: seq<Card>, history: string): (r: Option<string>)
    ensures r.None? <==> |hc| == 0
  {
    if |hc| == 0 then None
    else
      var cards := names.rankName(hc[0].rank) + (if |board| > 0 then names.rankName(board[0].rank) else "");
      Some(cards + ":" + history + ":")
  }

  /** Renames every suit through `perm`, keeping ranks. */
  function Resuit(cards: seq<Card>, perm: int -> int): (r: seq<Card>)
    ensures |r| == |cards|
    ensures forall i :: 0 <= i < |cards| ==> r[i] == Card(cards[i].rank, perm(cards[i].suit))
  {
    if cards == [] then [] else [Card(cards[0].rank, perm(cards[0].suit))] + Resuit(cards[1..], perm)
  }

  /**
   * A Leduc key depends only on ranks: renaming the suits in any way, and
   * which player asks, leave it unchanged.
   */
  lemma LeducFormatIgnoresSuits(names: CardNames, p1: nat, p2: nat, hc: seq<Card>, board: seq<Card>,
                                perm: int -> int, history: string)
    ensures LeducFormat(names, p1, hc, board, history)
         == LeducFormat(names, p2, Resuit(hc, perm), Resuit(board, perm), history)
  {
  }

  /** One board card of a royal key: its rank name, then 's' if it shares the hole card's suit, else 'o'. */
  function RoyalPiece(names: CardNames, holeSuit: int, c: Card): string
  {
    names.rankName(c.rank) + (if c.suit == holeSuit then "s" else "o")
  }

  /** The board part of a royal key, card by card. */
  function RoyalBoard(names: CardNames, holeSuit: int, board: seq<Card>): string
  {
    if board == [] then ""
    else RoyalBoard(names, holeSuit, board[..|board| - 1]) + RoyalPiece(names, holeSuit, board[|board| - 1])
  }

  /**
   * royal_format: append the pieces board card by board card after the hole
   * card's rank name. None (an IndexError) without a hole card.
   */
  method RoyalFormat(names: CardNames, player: nat, hc: seq<Card>, board: seq<Card>, history: string)
    returns (key: Option<string>)
    ensures key.None? <==> |hc| == 0
    ensures key.Some? ==> key.value == names.rankName(hc[0].rank) + RoyalBoard(names, hc[0].suit, board) + ":" + history + ":"
  {
    if |hc| == 0 {
      return None;
    }
    var cards := names.rankName(hc[0].rank);
    for i := 0 to |board|
      invariant cards == names.rankName(hc[0].rank) + RoyalBoard(names, hc[0].suit, board[..i])
    {
      assert board[..i + 1][..i] == board[..i];
      cards := cards + names.rankName(board[i].rank);
      if board[i].suit == hc[0].suit {
        cards := cards + "s";
      } else {
        cards := cards + "o";
      }
    }
    assert board[..|board|] == board;
    key := Some(cards + ":" + history + ":");
  }

  /**
   * A royal key is blind to which suits are held, only to whether each
   * board card matches the hole card's suit: any one-to-one renaming of
   * suits leaves the board part unchanged.
   */
  lemma {:induction false} RoyalBoardSuitSymmetric(names: CardNames, holeSuit: int, board: seq<Card>, perm: int -> int)
    requires forall s, t :: perm(s) == perm(t) ==> s == t
    ensures RoyalBoard(names, perm(holeSuit), Resuit(board, perm)) == RoyalBoard(names, holeSuit, board)
  {
    if board != [] {
      var n := |board| - 1;
      assert Resuit(board, perm)[..n] == Resuit(board[..n], perm);
      RoyalBoardSuitSymmetric(names, holeSuit, board[..n], perm);
    }
  }

  /** The card part of a hold'em key: rank name then suit name, for every card. */
  function HoldemCards(names: CardNames, cards: seq<Card>): string
  {
    if cards == [] then ""
    else HoldemCards(names, cards[..|cards| - 1])
         + names.rankName(cards[|cards| - 1].rank) + names.suitName(cards[|cards| - 1].suit)
  }

  /** holdem_format: append every hole and board card's rank and suit names, then `:history:`. */
  method HoldemFormat(names: CardNames, player: nat, hc: seq<Card>, board: seq<Card>, history: string)
    returns (key: string)
    ensures key == HoldemCards(names, hc + board) + ":" + history + ":"
  {
    var all := hc + board;
    var cards := "";
    for i := 0 to |all|
      invariant cards == HoldemCards(names, all[..i])
    {
      assert all[..i + 1][..i] == all[..i];
      cards := cards + names.rankName(all[i].rank) + names.suitName(all[i].suit);
    }
    assert all[..|all|] == all;
    key := cards + ":" + history + ":";
  }

  /** Card names of one character each, different for different valid ranks and suits. */
  predicate OneCharNames(names: CardNames)
  {
    && (forall r :: 2 <= r <= 14 ==> |names.rankName(r)| == 1)
    && (forall s :: 1 <= s <= 4 ==> |names.suitName(s)| == 1)
    && (forall r1, r2 :: 2 <= r1 <= 14 && 2 <= r2 <= 14 && names.rankName(r1) == names.rankName(r2) ==> r1 == r2)
    && (forall s1, s2 :: 1 <= s1 <= 4 && 1 <= s2 <= 4 && names.suitName(s1) == names.suitName(s2) ==> s1 == s2)
  }

  predicate AllValid(cards: seq<Card>)
  {
    forall i :: 0 <= i < |cards| ==> IsValid(cards[i])
  }

  lemma {:induction false} HoldemCardsLength(names: CardNames, cards: seq<Card>)
    requires OneCharNames(names) && AllValid(cards)
    ensures |HoldemCards(names, cards)| == 2 * |cards|
  {
    if cards != [] {
      HoldemCardsLength(names, cards[..|cards| - 1]);
    }
  }

  /**
   * With one-character names, different sequences of valid cards give
   * different hold'em card strings, so hold'em keys tell hands apart.
   */
  lemma {:induction false} HoldemCardsInjective(names: CardNames, x: seq<Card>, y: seq<Card>)
    requires OneCharNames(names) && AllValid(x) && AllValid(y)
    requires HoldemCards(names, x) == HoldemCards(names, y)
    ensures x == y
  {
    HoldemCardsLength(names, x);
    HoldemCardsLength(names, y);
    if x != [] {
      var n := |x| - 1;
      var sx, sy := HoldemCards(names, x[..n]), HoldemCards(names, y[..n]);
      HoldemCardsLength(names, x[..n]);
      HoldemCardsLength(names, y[..n]);
      var rx, ux := names.rankName(x[n].rank), names.suitName(x[n].suit);
      var ry, uy := names.rankName(y[n].rank), names.suitName(y[n].suit);
      var whole := HoldemCards(names, x);
      assert whole == sx + rx + ux && whole == sy + ry + uy;
      assert sx == whole[..2 * n] == sy;
      assert rx == whole[2 * n..2 * n + 1] == ry;
      assert ux == whole[2 * n + 1..] == uy;
      HoldemCardsInjective(names, x[..n], y[..n]);
      assert x == x[..n] + [x[n]] && y == y[..n] + [y[n]];
    }
  }
}

=== FILE: pokercfr.dfy ===
/**
 * The vanilla counterfactual regret minimizer of pokercfr.py: the allowed
 * hands mask, the minimizer's state (regret and average-strategy
 * accumulators, the average and current profiles, the sweep counter) and
 * the recursive sweep over the public tree.
 *
 * The tree and the default strategies (`Strategy.build_default`) are
 * inputs. Every Python exception on the way is a failed result; the state
 * a failed sweep leaves behind is only known to keep the minimizer's
 * invariant.
 */
module PokerCfr {
  import opened Wrappers
  import opened Cards
  import opened HandRanges
  import opened PublicTree
  import opened CfrNodes
  import opened CfrUpdates
  import S = Strategies

  // ---------------------------------------------------------------------
  // The allowed hands mask
  // ---------------------------------------------------------------------

  /** Every card of the holding is in the deck. */
  predicate InDeck(deck: seq<Card>, cards: seq<Card>)
  {
    forall i :: 0 <= i < |cards| ==> cards[i] in deck
  }

  /** hand_valid: the holding is made of deck cards; it stops at the first card that is not. */
  method HandValid(deck: seq<Card>, cards: seq<Card>) returns (valid: bool)
    ensures valid <==> InDeck(deck, cards)
  {
    for i := 0 to |cards|
      invariant forall j :: 0 <= j < i ==> cards[j] in deck
    {
      if cards[i] !in deck {
        return false;
      }
    }
    return true;
  }

  /** Mask entry `index`: the range index decodes to a holding of deck cards. */
  predicate AllowedAt(rules: GameRules, index: nat)
  {
    match RangeIndexToCards(rules, index)
    case None => false
    case Some(cards) => InDeck(rules.deck, cards)
  }

  /**
   * The allowed hands loop of the constructor: one entry per range index,
   * set exactly where the decoded holding is made of deck cards.
   */
  method BuildAllowedHands(rules: GameRules) returns (allowed: seq<bool>)
    requires RangeSize(rules).Some?
    ensures |allowed| == RangeSize(rules).value
    ensures forall i :: 0 <= i < |allowed| ==> (allowed[i] <==> AllowedAt(rules, i))
    ensures MaskDecodes(rules, allowed)
  {
    var size := RangeSize(rules).value;
    allowed := [];
    for index := 0 to size
      invariant |allowed| == index && MaskUpTo(rules, allowed)
    {
      IndexDecodes(rules, index);
      var cards := RangeIndexToCards(rules, index).value;
      var valid := HandValid(rules.deck, cards);
      MaskStep(rules, allowed, cards, valid);
      allowed := allowed + [valid];
    }
  }

  /** Every entry of the mask so far decodes and is set exactly where the holding is in the deck. */
  predicate MaskUpTo(rules: GameRules, allowed: seq<bool>)
  {
    forall i :: 0 <= i < |allowed| ==> RangeIndexToCards(rules, i).Some? && (allowed[i] <==> AllowedAt(rules, i))
  }

  lemma MaskStep(rules: GameRules, allowed: seq<bool>, cards: seq<Card>, valid: bool)
    requires MaskUpTo(rules, allowed)
    requires RangeIndexToCards(rules, |allowed|) == Some(cards) && (valid <==> InDeck(rules.deck, cards))
    ensures MaskUpTo(rules, allowed + [valid])
  {
    var next := allowed + [valid];
    forall i | 0 <= i < |next|
      ensures RangeIndexToCards(rules, i).Some? && (next[i] <==> AllowedAt(rules, i))
    {
      if i < |allowed| {
        assert next[i] == allowed[i];
      } else {
        assert i == |allowed| && next[i] == valid;
        assert AllowedAt(rules, i) == InDeck(rules.deck, cards);
      }
    }
  }

  /** Every index below range_size decodes to a holding. */
  lemma IndexDecodes(rules: GameRules, index: nat)
    requires RangeSize(rules).Some? && index < RangeSize(rules).value
    ensures RangeIndexToCards(rules, index).Some?
  {
    RangeRoundTrip(rules, index);
  }

  /** With one hole card every range index is a deck position, so the mask admits every index. */
  lemma OneCardMaskFull(rules: GameRules, allowed: seq<bool>)
    requires rules.holecardCount == 1
    requires forall i :: 0 <= i < |allowed| ==> (allowed[i] <==> AllowedAt(rules, i))
    requires |allowed| == RangeSize(rules).value
    ensures forall i :: 0 <= i < |allowed| ==> allowed[i]
  {
    forall i | 0 <= i < |allowed|
      ensures allowed[i]
    {
      var cards := RangeIndexToCards1(rules, i).value;
      assert cards == [cards[0]];
    }
  }

  /**
   * With two hole cards the mask admits the index of a pair of distinct
   * valid cards exactly when both cards are in the deck.
   */
  lemma TwoCardMaskExact(rules: GameRules, allowed: seq<bool>, a: Card, b: Card)
    requires rules.holecardCount == 2
    requires forall i :: 0 <= i < |allowed| ==> (allowed[i] <==> AllowedAt(rules, i))
    requires |allowed| == RangeSize(rules).value
    requires IsValid(a) && IsValid(b) && a != b
    ensures PairIndexOf([a, b]).Some? && PairIndexOf([a, b]).value < |allowed|
    ensures allowed[PairIndexOf([a, b]).value] <==> a in rules.deck && b in rules.deck
  {
    PairRoundTripCards(a, b);
    var i := PairIndexOf([a, b]).value;
    var sorted := SortCards([a, b]).value;
    assert RangeIndexToCards(rules, i) == CardsOfPairIndex(i) == Some([sorted[1], sorted[0]]);
    assert i < PairCount;
    assert |allowed| == PairCount;
    PairOfSameCards(sorted, a, b);
    AllowedAtDecoded(rules, i, [sorted[1], sorted[0]]);
    InDeckPair(rules.deck, sorted[1], sorted[0]);
  }

  lemma InDeckPair(deck: seq<Card>, x: Card, y: Card)
    ensures InDeck(deck, [x, y]) <==> x in deck && y in deck
  {
    assert [x, y][0] == x && [x, y][1] == y;
  }

  /** A mask entry whose index decodes to `cards` is set exactly when `cards` are deck cards. */
  lemma AllowedAtDecoded(rules: GameRules, index: nat, cards: seq<Card>)
    requires RangeIndexToCards(rules, index) == Some(cards)
    ensures AllowedAt(rules, index) == InDeck(rules.deck, cards)
  {
  }

  /** A two-card sequence with the cards of `[a, b]` is `[a, b]` or `[b, a]`. */
  lemma PairOfSameCards(s: seq<Card>, a: Card, b: Card)
    requires |s| == 2 && multiset(s) == multiset([a, b])
    ensures (s[0] == a && s[1] == b) || (s[0] == b && s[1] == a)
  {
    assert s == [s[0], s[1]];
    assert multiset(s) == multiset{s[0], s[1]};
    assert multiset([a, b]) == multiset{a, b};
    assert s[0] in multiset{a, b};
    if s[0] == a {
      assert multiset{s[1]} == multiset{b};
    } else {
      assert multiset{s[1]} == multiset{a};
    }
  }

  // ---------------------------------------------------------------------
  // The accumulator tables of the constructor
  // ---------------------------------------------------------------------

  /** `np.zeros((players, 3))` */
  function ZeroRows(players: nat): (rows: seq<seq<real>>)
    ensures |rows| == players && forall q :: 0 <= q < players ==> rows[q] == [0.0, 0.0, 0.0]
  {
    seq(players, _ => [0.0, 0.0, 0.0])
  }

  /** `np.zeros((players, 3)) + 1e-10` */
  function InitialRows(players: nat): (rows: seq<seq<real>>)
    ensures |rows| == players && forall q :: 0 <= q < players ==> rows[q] == S.InitialAccumulator()
  {
    seq(players, _ => S.InitialAccumulator())
  }

  /** The information sets of the first `n` default policies. */
  function UnionKeys(defaults: seq<Policy>, n: nat): set<string>
    requires n <= |defaults|
  {
    if n == 0 then {} else UnionKeys(defaults, n - 1) + defaults[n - 1].Keys
  }

  /**
   * The inner loop of the constructor for one policy: an information set
   * not yet in the tables gets zero regrets and fresh accumulator rows; the
   * entries already there are left alone.
   */
  method AddInfosets(regret: Table, acc: Table, keys: set<string>, players: nat) returns (r: Table, a: Table)
    requires regret.Keys == acc.Keys
    ensures r.Keys == regret.Keys + keys && a.Keys == r.Keys
    ensures forall k :: k in r ==> r[k] == if k in regret then regret[k] else ZeroRows(players)
    ensures forall k :: k in a ==> a[k] == if k in acc then acc[k] else InitialRows(players)
  {
    r, a := regret, acc;
    var todo := keys;
    while todo != {}
      invariant todo <= keys && r.Keys == regret.Keys + (keys - todo) && a.Keys == r.Keys
      invariant forall k :: k in r ==> r[k] == if k in regret then regret[k] else ZeroRows(players)
      invariant forall k :: k in a ==> a[k] == if k in acc then acc[k] else InitialRows(players)
      decreases todo
    {
      var infoset :| infoset in todo;
      if infoset !in r {
        r := r[infoset := ZeroRows(players)];
        a := a[infoset := InitialRows(players)];
      }
      todo := todo - {infoset};
    }
  }

  /**
   * The accumulator loop of the constructor: every information set of every
   * default policy has zero regrets and accumulator rows at 1e-10.
   */
  method DefaultTables(defaults: seq<Policy>, players: nat) returns (regret: Table, acc: Table)
    ensures regret.Keys == UnionKeys(defaults, |defaults|) && acc.Keys == regret.Keys
    ensures forall k :: k in regret ==> regret[k] == ZeroRows(players)
    ensures forall k :: k in acc ==> acc[k] == InitialRows(players)
  {
    regret, acc := map[], map[];
    for q := 0 to |defaults|
      invariant regret.Keys == UnionKeys(defaults, q) && acc.Keys == regret.Keys
      invariant forall k :: k in regret ==> regret[k] == ZeroRows(players)
      invariant forall k :: k in acc ==> acc[k] == InitialRows(players)
    {
      regret, acc := AddInfosets(regret, acc, defaults[q].Keys, players);
    }
  }

  // ---------------------------------------------------------------------
  // Boardcard payoffs
  // ---------------------------------------------------------------------

  /** Player `q`'s payoff of hand `h` summed over the children's payoffs, 0 where a child has none. */
  function ChildSum(kids: seq<Trace>, q: nat, h: Hand): real
  {
    if |kids| == 0 then 0.0
    else
      var last := kids[|kids| - 1].payoffs;
      ChildSum(kids[..|kids| - 1], q, h) + (if q < |last| && h in last[q] then last[q][h] else 0.0)
  }

  /** The hole-card tuples of a list, as a set of keys. */
  function HandSet(hands: seq<Hand>): set<Hand>
  {
    set h | h in hands
  }

  // ---------------------------------------------------------------------
  // What a sweep computes
  // ---------------------------------------------------------------------

  /**
   * The record of one call of cfr_helper: the node, the reach it was given
   * and the payoffs it returned; for an action node also the policy its
   * probability table was read from and that table. `kids` holds the
   * records of the recursive calls: one per child of a chance node, one
   * per action slot of an action node (meaningful where the action is
   * legal).
   */
  datatype Trace = Trace(node: Node, reach: Reach, payoffs: seq<PlayerPayoffs>, policy: Policy,
                         probs: seq<seq<real>>, kids: seq<Trace>)

  /** Every player's reach is 1 at every hand: the reach cfr starts a sweep from. */
  predicate UnitReach(reach: Reach, players: nat, hands: nat)
  {
    IsReach(reach, players, hands) && forall q, i :: 0 <= q < players && 0 <= i < hands ==> reach[q][i] == 1.0
  }

  /** The children's payoffs of an action node's record, one per action slot, None where the action is not legal. */
  function KidPayoffs(node: Node, kids: seq<Trace>): (ap: seq<Option<seq<PlayerPayoffs>>>)
    requires node.Action? && |kids| == 3
    ensures |ap| == 3
    ensures forall a :: 0 <= a < 3 ==> ap[a] == if ActionChild(node, a).Some? then Some(kids[a].payoffs) else None
  {
    seq(3, a requires 0 <= a < 3 => if ActionChild(node, a).Some? then Some(kids[a].payoffs) else None)
  }

  /**
   * What cfr_helper returns at the node of `t`, given the reach of `t`,
   * recursively: at a terminal node every player's terminal payoffs; at a
   * hole-card node the collapse of the only child's payoffs, that child
   * swept with the reach divided by the number of deals; at a board-card
   * node the per-hand sums of the children's payoffs, each child swept with
   * the divided reach and holding only hands of the node; at an action node the payoffs combined from the
   * legal actions' children under the probability table read from the
   * policy, each child swept with the acting row scaled by its action's
   * probabilities.
   */
  ghost predicate Sound(rules: GameRules, allowed: seq<bool>, t: Trace)
    decreases t
  {
    && |t.payoffs| == rules.players
    && match t.node
       case Terminal(_, _) =>
         forall q :: 0 <= q < rules.players ==> PlayerTerminal(rules, t.reach, t.node, q) == Some(t.payoffs[q])
       case HolecardChance(holecards, deckSize, todeal, children) =>
         && |children| == 1 && |t.kids| == 1 && Choose(deckSize, todeal) > 0 && |holecards| >= rules.players
         && t.kids[0].node == children[0]
         && t.kids[0].reach == DivideReach(t.reach, Choose(deckSize, todeal) as real)
         && Sound(rules, allowed, t.kids[0]) && |t.kids[0].payoffs| == rules.players
         && (forall q :: 0 <= q < rules.players && t.kids[0].payoffs[q] != map[] ==> [] in holecards[q])
         && forall q :: 0 <= q < rules.players ==>
              t.payoffs[q] == if t.kids[0].payoffs[q] == map[] then ZeroPayoffs(holecards[q])
                              else ZeroPayoffs(holecards[q])[[] := Total(t.kids[0].payoffs[q])]
       case BoardcardChance(holecards, deckSize, todeal, children) =>
         && |t.kids| == |children| && |holecards| >= rules.players
         && (|children| > 0 ==> Choose(deckSize, todeal) > 0)
         && (forall c :: 0 <= c < |children| ==>
               && t.kids[c].node == children[c]
               && t.kids[c].reach == DivideReach(t.reach, Choose(deckSize, todeal) as real)
               && Sound(rules, allowed, t.kids[c]))
         && (forall c, q :: 0 <= c < |t.kids| && 0 <= q < rules.players && q < |t.kids[c].payoffs| ==>
               t.kids[c].payoffs[q].Keys <= HandSet(holecards[q]))
         && (forall q :: 0 <= q < rules.players ==> t.payoffs[q].Keys == HandSet(holecards[q]))
         && forall q, h :: 0 <= q < rules.players && h in t.payoffs[q] ==> t.payoffs[q][h] == ChildSum(t.kids, q, h)
       case Action(holecards, player, _, _, _, _, _, _) =>
         && player < rules.players && player < |holecards| && player < |t.reach| && |t.reach[player]| == |allowed|
         && |t.kids| == 3 && |t.probs| == |allowed| && ThreeColumns(t.probs)
         && (forall i :: 0 <= i < |allowed| ==> ProbsRow(rules, allowed, t.policy, t.node, i) == Some(t.probs[i]))
         && (forall a :: 0 <= a < 3 && ActionChild(t.node, a).Some? ==>
               && t.kids[a].node == ActionChild(t.node, a).value
               && ActingRowScaled(t.reach, player, allowed, t.probs, a, t.kids[a].reach)
               && Sound(rules, allowed, t.kids[a]))
         && (forall a :: 0 <= a < 3 && ActionChild(t.node, a).Some? ==> |t.kids[a].payoffs| == rules.players)
         && MaskDecodes(rules, allowed) && PayoffsCombined(rules, allowed, t.node, t.probs, t.kids, t.payoffs)
  }

  /** The payoff loop of cfr_action_node raises nowhere: every player's payoffs combine without a KeyError. */
  predicate CombineFits(rules: GameRules, allowed: seq<bool>, probs: seq<seq<real>>,
                        children: seq<Option<seq<PlayerPayoffs>>>, actor: nat)
    requires MaskDecodes(rules, allowed) && |children| == 3
  {
    forall pl :: 0 <= pl < rules.players ==> PlayerFits(rules, probs, children, pl, actor, AllowedKeys(rules, allowed))
  }

  /**
   * The payoff loop of cfr_action_node over an action node's record: every
   * player's payoffs are keyed by the allowed hands and combine the legal
   * actions' children's payoffs under the probability table.
   */
  predicate PayoffsCombined(rules: GameRules, allowed: seq<bool>, node: Node, probs: seq<seq<real>>, kids: seq<Trace>,
                            payoffs: seq<PlayerPayoffs>)
    requires node.Action? && |kids| == 3 && ThreeColumns(probs) && |payoffs| == rules.players && MaskDecodes(rules, allowed)
    requires forall a :: 0 <= a < 3 && ActionChild(node, a).Some? ==> |kids[a].payoffs| == rules.players
  {
    var ap := KidPayoffs(node, kids);
    && (forall pl :: 0 <= pl < rules.players ==> payoffs[pl].Keys == AllowedKeys(rules, allowed))
    && forall pl, h :: 0 <= pl < rules.players && h in payoffs[pl] ==>
         payoffs[pl][h] == Combined(rules, probs, ap, pl, node.player, h)
  }

  /**
   * What cfr_strategy_update does to the acting player's entries, from the
   * accumulator, current and average policies before (`acc`, `cur`,
   * `prof`) to those after (`acc'`, `cur'`, `prof'`). On the first sweep it
   * seeds the accumulator from the default strategy and returns that
   * strategy, policies unchanged; later it regret-matches, accumulates and
   * normalises, and returns the new current policy. `ok` is whether it
   * completes without raising.
   */
  ghost predicate StrategyStep(rules: GameRules, node: Node, reach: Reach, first: bool, regret: Table,
                               acc: Table, cur: Policy, prof: Policy, acc': Table, cur': Policy, prof': Policy,
                               policy: Policy, ok: bool)
    requires node.Action? && node.player < rules.players && node.player < |node.holecards| && node.player < |reach|
    requires TableShape(regret, rules.players) && TableShape(acc, rules.players) && TableShape(acc', rules.players)
    requires ThreeSlots(prof)
  {
    var p := node.player;
    var hcs := node.holecards[p];
    if first then
      && (ok <==> SeedFits(rules, node, reach[p], hcs, |hcs|, prof, acc))
      && (ok ==> Seeded(rules, node, reach[p], hcs, |hcs|, prof, acc, rules.players, acc')
                 && cur' == cur && prof' == prof && policy == prof)
    else
      && (ok <==> AccumulateFits(rules, node, reach[p], hcs, |hcs|, regret, acc, rules.players))
      && (ok ==> && AccumulatorAt(rules, node, reach[p], hcs, |hcs|, regret, acc, rules.players, acc')
                 && CurrentAt(rules, node, hcs, |hcs|, regret, rules.players, cur, cur')
                 && ProfileAt(rules, node, hcs, |hcs|, rules.players, prof, acc', prof')
                 && policy == cur')
  }

  // ---------------------------------------------------------------------
  // The minimizer
  // ---------------------------------------------------------------------

  /**
   * CounterfactualRegretMinimizer. `infosets` is the fixed key set of both
   * accumulator tables: no sweep adds or removes an information set.
   */
  class CounterfactualRegretMinimizer {
    const rules: GameRules
    const root: Node
    const allowedHands: seq<bool>
    ghost const infosets: set<string>
    var iterations: nat
    var counterfactualRegret: Table
    var actionReachprobs: Table
    var profile: seq<Policy>
    var currentProfile: seq<Policy>

    /**
     * One profile entry per player; both tables keyed by the information
     * sets, one three-slot row per player; accumulator and policies
     * non-negative; the mask covers the hand range and admits only hands
     * that decode.
     */
    ghost predicate Valid()
      reads this
    {
      && |profile| == rules.players && |currentProfile| == rules.players
      && counterfactualRegret.Keys == infosets && actionReachprobs.Keys == infosets
      && TableShape(counterfactualRegret, rules.players) && TableShape(actionReachprobs, rules.players)
      && TableNonNegative(actionReachprobs)
      && (forall q :: 0 <= q < rules.players ==> ThreeSlots(profile[q]) && PolicyNonNegative(profile[q]))
      && (forall q :: 0 <= q < rules.players ==> ThreeSlots(currentProfile[q]) && PolicyNonNegative(currentProfile[q]))
      && RangeSize(rules).Some? && |allowedHands| == RangeSize(rules).value
      && MaskDecodes(rules, allowedHands)
    }

    /**
     * The constructor: the allowed hands mask, and for every information
     * set of the default strategies a zero regret table and an accumulator
     * at 1e-10. The average profile is the default strategies, the current
     * profile empty.
     */
    constructor(rules: GameRules, tree: Node, defaults: seq<Policy>)
      requires rules.holecardCount == 1 || rules.holecardCount == 2
      requires |defaults| == rules.players
      requires forall q :: 0 <= q < |defaults| ==> ThreeSlots(defaults[q]) && PolicyNonNegative(defaults[q])
      ensures Valid()
      ensures this.rules == rules && root == tree && iterations == 0
      ensures profile == defaults && currentProfile == seq(rules.players, _ => map[])
      ensures infosets == UnionKeys(defaults, |defaults|)
      ensures forall k :: k in counterfactualRegret ==> counterfactualRegret[k] == ZeroRows(rules.players)
      ensures forall k :: k in actionReachprobs ==> actionReachprobs[k] == InitialRows(rules.players)
      ensures forall i :: 0 <= i < |allowedHands| ==> (allowedHands[i] <==> AllowedAt(rules, i))
    {
      var mask := BuildAllowedHands(rules);
      var regret, acc := DefaultTables(defaults, rules.players);
      this.rules := rules;
      root := tree;
      allowedHands := mask;
      infosets := regret.Keys;
      iterations := 0;
      counterfactualRegret := regret;
      actionReachprobs := acc;
      profile := defaults;
      currentProfile := seq(rules.players, _ => map[]);
    }

    /**
     * run: `n` sweeps, counting each. `sweeps` records the sweeps that
     * completed, each from the root with reach 1; a sweep that fails stops
     * the run before it is counted.
     */
    method Run(n: nat) returns (ok: bool, ghost sweeps: seq<Trace>)
      requires Valid()
      modifies this
      ensures Valid()
      ensures iterations == old(iterations) + |sweeps| && |sweeps| <= n
      ensures ok <==> |sweeps| == n
      ensures forall t :: t in sweeps ==>
        t.node == root && UnitReach(t.reach, rules.players, |allowedHands|) && Sound(rules, allowedHands, t)
    {
      sweeps := [];
      for i := 0 to n
        invariant Valid() && iterations == old(iterations) + i && |sweeps| == i
        invariant forall t :: t in sweeps ==>
          t.node == root && UnitReach(t.reach, rules.players, |allowedHands|) && Sound(rules, allowedHands, t)
      {
        var swept, t := Cfr();
        if !swept {
          return false, sweeps;
        }
        sweeps := sweeps + [t];
        iterations := iterations + 1;
      }
      return true, sweeps;
    }

    /** cfr: one sweep from the root with every reach probability 1. */
    method Cfr() returns (ok: bool, ghost t: Trace)
      requires Valid()
      modifies this
      ensures Valid() && iterations == old(iterations)
      ensures ok ==> t.node == root && UnitReach(t.reach, rules.players, |allowedHands|) && Sound(rules, allowedHands, t)
    {
      var width := |allowedHands|;
      var reach: Reach := seq(rules.players, _ => seq(width, _ => 1.0));
      var payoffs;
      ok, payoffs, t := CfrHelper(root, reach);
    }

    /**
     * cfr_helper: dispatch on the kind of node; an action node is the
     * fallback. A completed call returns what `Sound` says the node's
     * payoffs are, given the reach; a terminal node fails exactly where a
     * player's terminal payoffs are undefined.
     */
    method CfrHelper(node: Node, reach: Reach) returns (ok: bool, r: seq<PlayerPayoffs>, ghost t: Trace)
      requires Valid() && IsReach(reach, rules.players, |allowedHands|) && NonNegativeReach(reach)
      modifies this
      ensures Valid() && iterations == old(iterations)
      ensures ok ==> |r| == rules.players
      ensures ok ==> t.node == node && t.reach == reach && t.payoffs == r && Sound(rules, allowedHands, t)
      ensures node.Terminal? ==> (ok <==> forall q :: 0 <= q < rules.players ==> PlayerTerminal(rules, reach, node, q).Some?)
      decreases node, 2
    {
      match node
      case Terminal(_, _) =>
        ok, r := TerminalNode(node, reach);
        t := Trace(node, reach, r, map[], [], []);
      case HolecardChance(_, _, _, _) =>
        ghost var kid;
        ok, r, kid := HolecardNode(node, reach);
        t := Trace(node, reach, r, map[], [], [kid]);
      case BoardcardChance(_, _, _, _) =>
        ghost var kids;
        ok, r, kids := BoardcardNode(node, reach);
        t := Trace(node, reach, r, map[], [], kids);
      case Action(_, _, _, _, _, _, _, _) =>
        ghost var policy, probs, actionPayoffs, kids, regretBefore, accMid, curMid, profMid;
        ok, r, policy, probs, actionPayoffs, kids, regretBefore, accMid, curMid, profMid := ActionNode(node, reach);
        t := Trace(node, reach, r, policy, probs, kids);
    }

    /** cfr_terminal_node: every player's averaged, reach-weighted winnings per hand. */
    method TerminalNode(node: Node, reach: Reach) returns (ok: bool, r: seq<PlayerPayoffs>)
      requires node.Terminal?
      ensures ok <==> forall q :: 0 <= q < rules.players ==> PlayerTerminal(rules, reach, node, q).Some?
      ensures ok ==> |r| == rules.players
      ensures ok ==> forall q :: 0 <= q < rules.players ==> PlayerTerminal(rules, reach, node, q) == Some(r[q])
    {
      var payoffs := TerminalPayoffs(rules, reach, node);
      if payoffs.None? {
        return false, [];
      }
      return true, payoffs.value;
    }

    /**
     * cfr_holecard_node: the only child is swept with every reach divided
     * by the number of possible deals, and every child payoff of a player
     * is added into that player's empty tuple. `kid` records the child's
     * sweep.
     */
    method HolecardNode(node: Node, reach: Reach) returns (ok: bool, r: seq<PlayerPayoffs>, ghost kid: Trace)
      requires Valid() && node.HolecardChance? && IsReach(reach, rules.players, |allowedHands|) && NonNegativeReach(reach)
      modifies this
      ensures Valid() && iterations == old(iterations)
      ensures ok ==> |node.children| == 1 && Choose(node.deckSize, node.todeal) > 0
      ensures ok ==> |kid.payoffs| == rules.players && |r| == rules.players && |node.holecards| >= rules.players
      ensures ok ==> kid.node == node.children[0] && kid.reach == DivideReach(reach, Choose(node.deckSize, node.todeal) as real)
      ensures ok ==> Sound(rules, allowedHands, kid)
      ensures ok ==> forall q :: 0 <= q < rules.players && kid.payoffs[q] != map[] ==> [] in node.holecards[q]
      ensures ok ==> forall q :: 0 <= q < rules.players ==>
        r[q] == if kid.payoffs[q] == map[] then ZeroPayoffs(node.holecards[q])
                else ZeroPayoffs(node.holecards[q])[[] := Total(kid.payoffs[q])]
      decreases node, 0
    {
      kid := Trace(node, reach, [], map[], [], []);
      if |node.children| != 1 {
        return false, [], kid;
      }
      var deals := Choose(node.deckSize, node.todeal);
      if deals == 0 {
        return false, [], kid;
      }
      var next := DivideReach(reach, deals as real);
      DivideReachKeepsProbabilities(reach, deals as real);
      var childOk, childPayoffs, childTrace := CfrHelper(node.children[0], next);
      if !childOk {
        return false, [], kid;
      }
      kid := childTrace;
      var collapsed := CollapseToEmptyHand(node.holecards, childPayoffs, rules.players);
      if collapsed.None? {
        return false, [], kid;
      }
      return true, collapsed.value, kid;
    }

    /**
     * cfr_boardcard_node: every child is swept with every reach divided by
     * the number of possible deals, and each player's payoff of a hand is
     * the sum of the children's payoffs of that hand. `kids` records the
     * children's sweeps.
     */
    method BoardcardNode(node: Node, reach: Reach) returns (ok: bool, r: seq<PlayerPayoffs>, ghost kids: seq<Trace>)
      requires Valid() && node.BoardcardChance? && IsReach(reach, rules.players, |allowedHands|) && NonNegativeReach(reach)
      modifies this
      ensures Valid() && iterations == old(iterations)
      ensures ok ==> |node.holecards| >= rules.players && (|node.children| > 0 ==> Choose(node.deckSize, node.todeal) > 0)
      ensures ok ==> |kids| == |node.children|
      ensures ok ==> forall c :: 0 <= c < |kids| ==>
        && kids[c].node == node.children[c]
        && kids[c].reach == DivideReach(reach, Choose(node.deckSize, node.todeal) as real)
        && Sound(rules, allowedHands, kids[c])
      ensures ok ==> forall c, q :: 0 <= c < |kids| && 0 <= q < rules.players && q < |kids[c].payoffs| ==>
        kids[c].payoffs[q].Keys <= HandSet(node.holecards[q])
      ensures ok ==> |r| == rules.players
      ensures ok ==> forall q :: 0 <= q < rules.players ==> r[q].Keys == HandSet(node.holecards[q])
      ensures ok ==> forall q, h :: 0 <= q < rules.players && h in r[q] ==> r[q][h] == ChildSum(kids, q, h)
      decreases node, 0
    {
      kids := [];
      var deals := Choose(node.deckSize, node.todeal);
      if |node.holecards| < rules.players {
        return false, [], kids;
      }
      var payoffs := seq(rules.players, q requires 0 <= q < rules.players => ZeroPayoffs(node.holecards[q]));
      for c := 0 to |node.children|
        invariant Valid() && iterations == old(iterations)
        invariant c > 0 ==> deals > 0
        invariant |kids| == c
        invariant c > 0 ==> ChildrenSwept(rules, allowedHands, node.children, reach, deals, kids)
        invariant SumsChildren(node.holecards, rules.players, payoffs, kids)
      {
        if deals == 0 {
          return false, [], kids;
        }
        var next := DivideReach(reach, deals as real);
        DivideReachKeepsProbabilities(reach, deals as real);
        var childOk, sub, kid := CfrHelper(node.children[c], next);
        if !childOk {
          return false, [], kids;
        }
        var merged := AddChildPayoffs(payoffs, sub);
        if merged.None? {
          return false, [], kids;
        }
        SumsChildrenStep(node.holecards, rules.players, payoffs, kids, kid, merged.value);
        ChildrenSweptStep(rules, allowedHands, node.children, reach, deals, kids, kid);
        payoffs := merged.value;
        kids := kids + [kid];
      }
      return true, payoffs, kids;
    }

    /**
     * cfr_action_node: the strategy update gives the acting player's
     * policy; its vectors form the action probability table; each legal
     * action's child is swept with the acting player's reach scaled by the
     * action's probability; the players' payoffs combine the children's;
     * the regret update runs against the acting player's payoffs. `kids`
     * records the children's sweeps; `accMid`, `curMid` and `profMid` are
     * the accumulator and the acting player's policies right after the
     * strategy update, whose returned policy is `policy`.
     */
    method ActionNode(node: Node, reach: Reach)
      returns (ok: bool, r: seq<PlayerPayoffs>, ghost policy: Policy, ghost probs: seq<seq<real>>,
               ghost actionPayoffs: seq<Option<seq<PlayerPayoffs>>>, ghost kids: seq<Trace>, ghost regretBefore: Table,
               ghost accMid: Table, ghost curMid: Policy, ghost profMid: Policy)
      requires Valid() && node.Action? && IsReach(reach, rules.players, |allowedHands|) && NonNegativeReach(reach)
      modifies this
      ensures Valid() && iterations == old(iterations)
      ensures ok ==> node.player < rules.players && node.player < |node.holecards|
      ensures ok ==> TableShape(accMid, rules.players)
      ensures ok ==> StrategyStep(rules, node, reach, old(iterations) == 0, old(counterfactualRegret),
                                  old(actionReachprobs), old(currentProfile[node.player]), old(profile[node.player]),
                                  accMid, curMid, profMid, policy, true)
      ensures ok ==> |probs| == |allowedHands| && ThreeColumns(probs)
      ensures ok ==> forall i :: 0 <= i < |allowedHands| ==> ProbsRow(rules, allowedHands, policy, node, i) == Some(probs[i])
      ensures ok ==> |kids| == 3 && actionPayoffs == KidPayoffs(node, kids)
      ensures ok ==> forall a :: 0 <= a < 3 && ActionChild(node, a).Some? ==>
        && kids[a].node == ActionChild(node, a).value
        && ActingRowScaled(reach, node.player, allowedHands, probs, a, kids[a].reach)
        && Sound(rules, allowedHands, kids[a]) && |kids[a].payoffs| == rules.players
      ensures ok ==> ActionPayoffsShape(actionPayoffs, rules.players)
      ensures ok ==> forall a :: 0 <= a < 3 ==> (actionPayoffs[a].Some? <==> ActionChild(node, a).Some?)
      ensures ok ==> |r| == rules.players
      ensures ok ==> forall pl :: 0 <= pl < rules.players ==> r[pl].Keys == AllowedKeys(rules, allowedHands)
      ensures ok ==> forall pl, h :: 0 <= pl < rules.players && h in r[pl] ==>
        r[pl][h] == Combined(rules, probs, actionPayoffs, pl, node.player, h)
      ensures ok ==>
        && node.player < rules.players && ActionPayoffsShape(actionPayoffs, rules.players)
        && TableShape(regretBefore, rules.players) && |r| == rules.players
        && UpdateValued(node, actionPayoffs, r[node.player], rules.players, 3)
        && counterfactualRegret == RegretUpdated(rules, node, actionPayoffs, r[node.player], regretBefore, rules.players, 3)
      decreases node, 1
    {
      policy, probs, actionPayoffs, kids, regretBefore := map[], [], [], [], map[];
      accMid, curMid, profMid := map[], map[], map[];
      if node.player >= rules.players || node.player >= |node.holecards| {
        return false, [], policy, probs, actionPayoffs, kids, regretBefore, accMid, curMid, profMid;
      }
      var strategyOk, strategy := StrategyUpdate(node, reach);
      if !strategyOk {
        return false, [], policy, probs, actionPayoffs, kids, regretBefore, accMid, curMid, profMid;
      }
      policy := strategy;
      accMid, curMid, profMid := actionReachprobs, currentProfile[node.player], profile[node.player];
      var table := ActionProbs(rules, allowedHands, strategy, node);
      if table.None? {
        return false, [], policy, probs, actionPayoffs, kids, regretBefore, accMid, curMid, profMid;
      }
      probs := table.value;
      var swept, children, sweptKids := SweepActions(node, reach, table.value);
      if !swept {
        return false, [], policy, probs, actionPayoffs, kids, regretBefore, accMid, curMid, profMid;
      }
      actionPayoffs, kids := children, sweptKids;
      var finished, payoffs, before, combined := FinishAction(node, children, table.value);
      regretBefore := before;
      if !finished {
        return false, [], policy, probs, actionPayoffs, kids, regretBefore, accMid, curMid, profMid;
      }
      return true, payoffs, policy, probs, actionPayoffs, kids, regretBefore, accMid, curMid, profMid;
    }

    /**
     * The three action branches of cfr_action_node: each legal action's
     * child is swept with the acting player's reach of every allowed hand
     * scaled by the hand's probability of that action. `kids` records the
     * children's sweeps.
     */
    method SweepActions(node: Node, reach: Reach, actionProbs: seq<seq<real>>)
      returns (ok: bool, children: seq<Option<seq<PlayerPayoffs>>>, ghost kids: seq<Trace>)
      requires Valid() && node.Action? && node.player < rules.players
      requires IsReach(reach, rules.players, |allowedHands|) && NonNegativeReach(reach)
      requires |actionProbs| == |allowedHands| && ThreeColumns(actionProbs)
      requires forall i :: 0 <= i < |actionProbs| ==> S.NonNegative(actionProbs[i])
      modifies this
      ensures Valid() && iterations == old(iterations)
      ensures ok ==> ActionPayoffsShape(children, rules.players)
      ensures ok ==> forall a :: 0 <= a < 3 ==> (children[a].Some? <==> ActionChild(node, a).Some?)
      ensures ok ==> |kids| == 3 && children == KidPayoffs(node, kids)
      ensures ok ==> forall a :: 0 <= a < 3 && ActionChild(node, a).Some? ==>
        && kids[a].node == ActionChild(node, a).value
        && ActingRowScaled(reach, node.player, allowedHands, actionProbs, a, kids[a].reach)
        && Sound(rules, allowedHands, kids[a]) && |kids[a].payoffs| == rules.players
      decreases node, 0
    {
      children := [None, None, None];
      var unswept := Trace(node, reach, [], map[], [], []);
      kids := [unswept, unswept, unswept];
      for a := 0 to 3
        invariant Valid() && iterations == old(iterations)
        invariant ActionPayoffsShape(children, rules.players) && |kids| == 3
        invariant forall b :: 0 <= b < 3 ==>
          children[b] == if b < a && ActionChild(node, b).Some? then Some(kids[b].payoffs) else None
        invariant BranchesSwept(rules, allowedHands, node, reach, actionProbs, kids, a)
      {
        var child := ActionChild(node, a);
        if child.Some? {
          var next := ScaleActingRow(reach, node.player, allowedHands, actionProbs, a);
          var childOk, sub, kid := CfrHelper(child.value, next);
          if !childOk {
            return false, children, kids;
          }
          BranchesSweptStep(rules, allowedHands, node, reach, actionProbs, kids, a, kid);
          children := children[a := Some(sub)];
          kids := kids[a := kid];
        }
      }
      KidPayoffsAre(node, kids, children);
      return true, children, kids;
    }

    /**
     * The payoff loop and the regret update of cfr_action_node: every
     * player's payoffs combine the children's, and the regret table takes
     * the acting player's immediate counterfactual regrets against them.
     * `combined` is the combined payoffs whenever every player's combine
     * fits; the call fails exactly where a combine or the regret update
     * raises.
     */
    method FinishAction(node: Node, children: seq<Option<seq<PlayerPayoffs>>>, actionProbs: seq<seq<real>>)
      returns (ok: bool, r: seq<PlayerPayoffs>, ghost regretBefore: Table, ghost combined: seq<PlayerPayoffs>)
      requires Valid() && node.Action? && node.player < rules.players
      requires ActionPayoffsShape(children, rules.players) && ThreeColumns(actionProbs)
      modifies this
      ensures Valid() && iterations == old(iterations) && regretBefore == old(counterfactualRegret)
      ensures CombineFits(rules, allowedHands, actionProbs, children, node.player) ==>
        && |combined| == rules.players
        && forall pl :: 0 <= pl < rules.players ==>
             PlayerCombined(rules, actionProbs, children, pl, node.player, AllowedKeys(rules, allowedHands), combined[pl])
      ensures ok <==>
        && CombineFits(rules, allowedHands, actionProbs, children, node.player)
        && UpdateFits(rules, node, children, combined[node.player], regretBefore, rules.players, 3)
      ensures ok ==> r == combined
      ensures ok ==> |r| == rules.players
      ensures ok ==> forall pl :: 0 <= pl < rules.players ==> r[pl].Keys == AllowedKeys(rules, allowedHands)
      ensures ok ==> forall pl, h :: 0 <= pl < rules.players && h in r[pl] ==>
        r[pl][h] == Combined(rules, actionProbs, children, pl, node.player, h)
      ensures ok ==>
        && |r| == rules.players && TableShape(regretBefore, rules.players)
        && UpdateValued(node, children, r[node.player], rules.players, 3)
        && counterfactualRegret == RegretUpdated(rules, node, children, r[node.player], regretBefore, rules.players, 3)
    {
      regretBefore := counterfactualRegret;
      combined := [];
      var fits := CombineActionPayoffs(rules, rules.players, node.player, allowedHands, children, actionProbs);
      if fits.None? {
        return false, [], regretBefore, combined;
      }
      var payoffs := fits.value;
      combined := payoffs;
      var regretOk := RegretUpdate(node, children, payoffs[node.player]);
      if !regretOk {
        return false, [], regretBefore, combined;
      }
      return true, payoffs, regretBefore, combined;
    }

    /**
     * cfr_regret_update on the minimizer's regret table: every legal
     * action's slot of the acting player's regret rows gains the immediate
     * counterfactual regrets of that action's hands against `ev`.
     */
    method RegretUpdate(node: Node, actionPayoffs: seq<Option<seq<PlayerPayoffs>>>, ev: PlayerPayoffs) returns (ok: bool)
      requires Valid() && node.Action? && node.player < rules.players && ActionPayoffsShape(actionPayoffs, rules.players)
      modifies this
      ensures Valid() && iterations == old(iterations)
      ensures ok <==> UpdateFits(rules, node, actionPayoffs, ev, old(counterfactualRegret), rules.players, 3)
      ensures ok ==>
        && UpdateValued(node, actionPayoffs, ev, rules.players, 3)
        && counterfactualRegret == RegretUpdated(rules, node, actionPayoffs, ev, old(counterfactualRegret), rules.players, 3)
    {
      var regret;
      ok, regret := CfrUpdates.RegretUpdate(rules, node, actionPayoffs, ev, counterfactualRegret, rules.players);
      if ok {
        counterfactualRegret := regret;
      }
    }

    /**
     * cfr_strategy_update. On the first sweep the accumulator rows of the
     * acting player's information sets are seeded from the default
     * strategy, which is returned; on later sweeps the current policy is
     * regret-matched, accumulated and normalised into the average policy,
     * and the current policy is returned.
     */
    method StrategyUpdate(node: Node, reach: Reach) returns (ok: bool, policy: Policy)
      requires Valid() && node.Action? && node.player < rules.players && node.player < |node.holecards|
      requires IsReach(reach, rules.players, |allowedHands|) && NonNegativeReach(reach)
      modifies this
      ensures Valid() && iterations == old(iterations) && counterfactualRegret == old(counterfactualRegret)
      ensures ok ==> ThreeSlots(policy) && PolicyNonNegative(policy)
      ensures StrategyStep(rules, node, reach, old(iterations) == 0, counterfactualRegret,
                           old(actionReachprobs), old(currentProfile[node.player]), old(profile[node.player]),
                           actionReachprobs, currentProfile[node.player], profile[node.player], policy, ok)
      ensures forall q :: 0 <= q < rules.players && q != node.player ==>
        profile[q] == old(profile[q]) && currentProfile[q] == old(currentProfile[q])
    {
      if iterations == 0 {
        ok, policy := FirstSweepUpdate(node, reach);
      } else {
        ok, policy := LaterSweepUpdate(node, reach);
      }
    }

    /** The first-sweep branch of cfr_strategy_update: seed the accumulator, return the default strategy. */
    method FirstSweepUpdate(node: Node, reach: Reach) returns (ok: bool, policy: Policy)
      requires Valid() && node.Action? && node.player < rules.players && node.player < |node.holecards|
      requires IsReach(reach, rules.players, |allowedHands|) && NonNegativeReach(reach)
      modifies this
      ensures Valid() && iterations == old(iterations) && counterfactualRegret == old(counterfactualRegret)
      ensures ok ==> ThreeSlots(policy) && PolicyNonNegative(policy)
      ensures ok <==> SeedFits(rules, node, reach[node.player], node.holecards[node.player], |node.holecards[node.player]|,
                               old(profile[node.player]), old(actionReachprobs))
      ensures profile == old(profile) && currentProfile == old(currentProfile)
      ensures ok ==>
        && SeedFits(rules, node, reach[node.player], node.holecards[node.player], |node.holecards[node.player]|,
                    old(profile[node.player]), old(actionReachprobs))
        && Seeded(rules, node, reach[node.player], node.holecards[node.player], |node.holecards[node.player]|,
                  old(profile[node.player]), old(actionReachprobs), rules.players, actionReachprobs)
        && policy == profile[node.player]
    {
      var p := node.player;
      var row := reach[p];
      assert RowNonNegative(row);
      var seeded := SeedAccumulators(rules, node, row, node.holecards[p], profile[p], actionReachprobs, rules.players);
      if seeded.None? {
        return false, map[];
      }
      actionReachprobs := seeded.value;
      return true, profile[p];
    }

    /**
     * The later-sweep branch of cfr_strategy_update: regret-match the
     * current policy, accumulate it, normalise the average policy, return
     * the current policy.
     */
    method LaterSweepUpdate(node: Node, reach: Reach) returns (ok: bool, policy: Policy)
      requires Valid() && node.Action? && node.player < rules.players && node.player < |node.holecards|
      requires IsReach(reach, rules.players, |allowedHands|) && NonNegativeReach(reach)
      modifies this
      ensures Valid() && iterations == old(iterations) && counterfactualRegret == old(counterfactualRegret)
      ensures ok ==> ThreeSlots(policy) && PolicyNonNegative(policy)
      ensures ok <==> AccumulateFits(rules, node, reach[node.player], node.holecards[node.player], |node.holecards[node.player]|,
                                     counterfactualRegret, old(actionReachprobs), rules.players)
      ensures ok ==>
        && AccumulateFits(rules, node, reach[node.player], node.holecards[node.player], |node.holecards[node.player]|,
                          counterfactualRegret, old(actionReachprobs), rules.players)
        && AccumulatorAt(rules, node, reach[node.player], node.holecards[node.player], |node.holecards[node.player]|,
                         counterfactualRegret, old(actionReachprobs), rules.players, actionReachprobs)
        && CurrentAt(rules, node, node.holecards[node.player], |node.holecards[node.player]|, counterfactualRegret,
                     rules.players, old(currentProfile[node.player]), currentProfile[node.player])
        && ProfileAt(rules, node, node.holecards[node.player], |node.holecards[node.player]|, rules.players,
                     old(profile[node.player]), actionReachprobs, profile[node.player])
        && policy == currentProfile[node.player]
      ensures forall q :: 0 <= q < rules.players && q != node.player ==>
        profile[q] == old(profile[q]) && currentProfile[q] == old(currentProfile[q])
    {
      var p := node.player;
      var row := reach[p];
      var hcs := node.holecards[p];
      assert RowNonNegative(row);
      var accOk, t, cur, prof := AccumulateStrategies(rules, node, row, hcs, counterfactualRegret, actionReachprobs,
                                                      currentProfile[p], profile[p], rules.players);
      if !accOk {
        return false, map[];
      }
      PoliciesKept(rules, node, row, hcs, counterfactualRegret, actionReachprobs, currentProfile[p], profile[p],
                   rules.players, t, cur, prof);
      actionReachprobs := t;
      currentProfile := currentProfile[p := cur];
      profile := profile[p := prof];
      return true, cur;
    }

  }

  /** The policies the later sweep writes keep three non-negative slots. */
  lemma PoliciesKept(rules: GameRules, node: Node, row: seq<real>, hcs: seq<Hand>, regret: Table, acc: Table,
                     current: Policy, profile: Policy, players: nat, t: Table, cur: Policy, prof: Policy)
    requires node.Action? && node.player < players && TableShape(regret, players) && TableShape(acc, players)
    requires AccumulateFits(rules, node, row, hcs, |hcs|, regret, acc, players)
    requires CurrentAt(rules, node, hcs, |hcs|, regret, players, current, cur)
    requires TableShape(t, players) && ProfileAt(rules, node, hcs, |hcs|, players, profile, t, prof)
    requires ThreeSlots(current) && PolicyNonNegative(current) && ThreeSlots(profile) && PolicyNonNegative(profile)
    requires forall k :: k in prof && LastWithin(rules, node, hcs, |hcs|, k).Some? ==> S.IsDistribution(prof[k])
    ensures ThreeSlots(cur) && PolicyNonNegative(cur) && ThreeSlots(prof) && PolicyNonNegative(prof)
  {
    forall k | k in cur
      ensures |cur[k]| == 3 && S.NonNegative(cur[k])
    {
      if LastWithin(rules, node, hcs, |hcs|, k).None? {
        assert cur[k] == current[k];
      }
    }
    forall k | k in prof
      ensures |prof[k]| == 3 && S.NonNegative(prof[k])
    {
      if LastWithin(rules, node, hcs, |hcs|, k).None? {
        assert prof[k] == profile[k];
      }
    }
  }

  /** The first |kids| children of a chance node were swept with the reach divided by `deals`, as `kids` records. */
  ghost predicate ChildrenSwept(rules: GameRules, allowed: seq<bool>, children: seq<Node>, reach: Reach, deals: nat,
                                kids: seq<Trace>)
    requires deals > 0
  {
    && |kids| <= |children|
    && forall d :: 0 <= d < |kids| ==>
         kids[d].node == children[d] && kids[d].reach == DivideReach(reach, deals as real) && Sound(rules, allowed, kids[d])
  }

  /** One more child swept extends the record. */
  lemma ChildrenSweptStep(rules: GameRules, allowed: seq<bool>, children: seq<Node>, reach: Reach, deals: nat,
                          kids: seq<Trace>, kid: Trace)
    requires deals > 0 && |kids| < |children|
    requires |kids| > 0 ==> ChildrenSwept(rules, allowed, children, reach, deals, kids)
    requires kid.node == children[|kids|] && kid.reach == DivideReach(reach, deals as real) && Sound(rules, allowed, kid)
    ensures ChildrenSwept(rules, allowed, children, reach, deals, kids + [kid])
  {
  }

  /** A per-slot list of the legal actions' children's payoffs is the one `KidPayoffs` reads off the record. */
  lemma KidPayoffsAre(node: Node, kids: seq<Trace>, children: seq<Option<seq<PlayerPayoffs>>>)
    requires node.Action? && |kids| == 3 && |children| == 3
    requires forall b :: 0 <= b < 3 ==> children[b] == if ActionChild(node, b).Some? then Some(kids[b].payoffs) else None
    ensures children == KidPayoffs(node, kids)
  {
  }

  /** The legal actions below `a` of an action node were swept as `kids` records, each with its scaled reach. */
  ghost predicate BranchesSwept(rules: GameRules, allowed: seq<bool>, node: Node, reach: Reach, probs: seq<seq<real>>,
                                kids: seq<Trace>, a: nat)
    requires node.Action? && node.player < |reach| && |reach[node.player]| == |allowed| == |probs| && ThreeColumns(probs)
    requires |kids| == 3 && a <= 3
  {
    forall b :: 0 <= b < a && ActionChild(node, b).Some? ==>
      && kids[b].node == ActionChild(node, b).value
      && ActingRowScaled(reach, node.player, allowed, probs, b, kids[b].reach)
      && Sound(rules, allowed, kids[b]) && |kids[b].payoffs| == rules.players
  }

  /** Recording the sweep of action `a` extends the record to the actions below `a + 1`. */
  lemma BranchesSweptStep(rules: GameRules, allowed: seq<bool>, node: Node, reach: Reach, probs: seq<seq<real>>,
                          kids: seq<Trace>, a: nat, kid: Trace)
    requires node.Action? && node.player < |reach| && |reach[node.player]| == |allowed| == |probs| && ThreeColumns(probs)
    requires |kids| == 3 && a < 3 && BranchesSwept(rules, allowed, node, reach, probs, kids, a)
    requires ActionChild(node, a).Some? && kid.node == ActionChild(node, a).value
    requires ActingRowScaled(reach, node.player, allowed, probs, a, kid.reach)
    requires Sound(rules, allowed, kid) && |kid.payoffs| == rules.players
    ensures BranchesSwept(rules, allowed, node, reach, probs, kids[a := kid], a + 1)
  {
  }

  /** Each player's payoffs are keyed by the node's hands and hold the per-hand sums of the children's payoffs, whose hands are all among the node's. */
  predicate SumsChildren(holecards: seq<seq<Hand>>, players: nat, payoffs: seq<PlayerPayoffs>, kids: seq<Trace>)
    requires |holecards| >= players
  {
    && |payoffs| == players
    && (forall q :: 0 <= q < players ==> payoffs[q].Keys == HandSet(holecards[q]))
    && (forall d, q :: 0 <= d < |kids| && 0 <= q < players && q < |kids[d].payoffs| ==>
          kids[d].payoffs[q].Keys <= HandSet(holecards[q]))
    && forall q, h :: 0 <= q < players && h in payoffs[q] ==> payoffs[q][h] == ChildSum(kids, q, h)
  }

  /** Adding one more child's payoffs into the sums keeps them the sums over one more child. */
  lemma SumsChildrenStep(holecards: seq<seq<Hand>>, players: nat, payoffs: seq<PlayerPayoffs>, kids: seq<Trace>,
                         kid: Trace, merged: seq<PlayerPayoffs>)
    requires |holecards| >= players && SumsChildren(holecards, players, payoffs, kids)
    requires |kid.payoffs| == players && |merged| == players
    requires forall q :: 0 <= q < players ==> kid.payoffs[q].Keys <= payoffs[q].Keys
    requires forall q :: 0 <= q < players ==> AddedTo(payoffs[q], kid.payoffs[q], merged[q])
    ensures SumsChildren(holecards, players, merged, kids + [kid])
  {
    ChildSumStep(kids, kid);
  }

  /** Appending a child's payoffs adds its payoff of each hand to the sum. */
  lemma ChildSumStep(kids: seq<Trace>, kid: Trace)
    ensures forall q: nat, h: Hand ::
      ChildSum(kids + [kid], q, h) == ChildSum(kids, q, h) + (if q < |kid.payoffs| && h in kid.payoffs[q] then kid.payoffs[q][h] else 0.0)
  {
    assert (kids + [kid])[..|kids|] == kids;
  }
}

=== FILE: public_tree.dfy ===
/**
 * The public game tree the CFR engine walks. The tree builder (pokertrees)
 * is not part of this model; the tree is an input, with the four node kinds
 * as a closed datatype.
 */
module PublicTree {
  import opened Wrappers
  import opened Cards

  /** A hole-card tuple of one player. */
  type Hand = seq<Card>

  /** Action slots of the three-entry regret and probability vectors. */
  const FOLD: nat := 0
  const CALL: nat := 1
  const RAISE: nat := 2

  /** One item of a terminal node's payoff table: all players' hole cards and all players' winnings. */
  datatype PayoffEntry = PayoffEntry(hands: seq<Hand>, winnings: seq<real>)

  /**
   * Every node lists, per player, the hole-card tuples still possible there
   * (`holecards[player]`). A chance node records the size of the deck it
   * deals from and how many cards it deals; an action node its player, the
   * board, the bet history, the length of its children list and the child
   * reached by each of fold, call and raise, where legal.
   */
  datatype Node =
    | Terminal(holecards: seq<seq<Hand>>, payoffs: seq<PayoffEntry>)
    | HolecardChance(holecards: seq<seq<Hand>>, deckSize: nat, todeal: nat, children: seq<Node>)
    | BoardcardChance(holecards: seq<seq<Hand>>, deckSize: nat, todeal: nat, children: seq<Node>)
    | Action(holecards: seq<seq<Hand>>, player: nat, board: seq<Card>, history: string, childCount: nat,
             foldAction: Option<Node>, callAction: Option<Node>, raiseAction: Option<Node>)

  /** The child an action slot leads to, if that action is legal. */
  function ActionChild(n: Node, a: nat): (r: Option<Node>)
    requires n.Action? && a < 3
    ensures r.Some? ==> r.value < n
  {
    if a == FOLD then n.foldAction else if a == CALL then n.callAction else n.raiseAction
  }

  /** Number of legal actions at an action node. */
  function LegalCount(n: Node): (k: nat)
    requires n.Action?
    ensures k <= 3
  {
    (if n.foldAction.Some? then 1 else 0) + (if n.callAction.Some? then 1 else 0)
      + (if n.raiseAction.Some? then 1 else 0)
  }

  /** The binomial coefficient `choose(n, k)`: the number of ways to deal k cards from n. */
  function Choose(n: nat, k: nat): nat
  {
    if k == 0 then 1
    else if n == 0 then 0
    else Choose(n - 1, k - 1) + Choose(n - 1, k)
  }

  /** Dealing no more cards than remain can be done in at least one way, so the chance nodes never divide by zero. */
  lemma {:induction false} ChoosePositive(n: nat, k: nat)
    requires k <= n
    ensures Choose(n, k) > 0
  {
    if k > 0 {
      ChoosePositive(n - 1, k - 1);
    }
  }

  /** Dealing one card from n can be done in n ways. */
  lemma {:induction false} ChooseOne(n: nat)
    ensures Choose(n, 1) == n
  {
    if n > 0 {
      ChooseOne(n - 1);
    }
  }
}

=== FILE: strategies.dfy ===
/**
 * Three-entry action vectors (fold, call, raise): regret matching, the
 * uniform fallback, and the average-strategy accumulator with its
 * normalisation. Numbers are reals; numpy's long doubles are not modelled.
 */
module Strategies {
  import opened PublicTree

  /** `np.sum` of a three-entry vector. */
  function Total(v: seq<real>): real
    requires |v| == 3
  {
    v[0] + v[1] + v[2]
  }

  predicate NonNegative(v: seq<real>)
  {
    forall i :: 0 <= i < |v| ==> v[i] >= 0.0
  }

  /** A probability vector over the three action slots. */
  predicate IsDistribution(v: seq<real>)
  {
    |v| == 3 && NonNegative(v) && Total(v) == 1.0
  }

  function Positive(x: real): real
  {
    if x < 0.0 then 0.0 else x
  }

  /** `np.clip(v, 0, ...)`: negative entries become 0, the others stay. */
  function Clip(v: seq<real>): (r: seq<real>)
    requires |v| == 3
    ensures |r| == 3 && NonNegative(r)
    ensures forall i :: 0 <= i < 3 ==> (v[i] >= 0.0 ==> r[i] == v[i]) && (v[i] <= 0.0 ==> r[i] == 0.0)
  {
    [Positive(v[0]), Positive(v[1]), Positive(v[2])]
  }

  /** `v / d`, entry by entry. */
  function DivideBy(v: seq<real>, d: real): (r: seq<real>)
    requires |v| == 3 && d != 0.0
    ensures |r| == 3 && forall i :: 0 <= i < 3 ==> r[i] == v[i] / d
  {
    [v[0] / d, v[1] / d, v[2] / d]
  }

  /** Division by a positive number undoes multiplication, keeps the sign and maps exactly 0 to 0. */
  lemma Quotient(x: real, d: real)
    requires d > 0.0
    ensures (x / d) * d == x
    ensures x >= 0.0 ==> x / d >= 0.0
    ensures x / d == 0.0 <==> x == 0.0
  {
  }

  /** Dividing a non-negative vector by a positive number keeps it non-negative. */
  lemma DivideByNonNegative(v: seq<real>, d: real)
    requires |v| == 3 && NonNegative(v) && d > 0.0
    ensures NonNegative(DivideBy(v, d))
  {
    Quotient(v[0], d);
    Quotient(v[1], d);
    Quotient(v[2], d);
  }

  /** `v * w` for a scalar w, entry by entry. */
  function Times(v: seq<real>, w: real): (r: seq<real>)
    requires |v| == 3
    ensures |r| == 3 && forall i :: 0 <= i < 3 ==> r[i] == v[i] * w
  {
    [v[0] * w, v[1] * w, v[2] * w]
  }

  /** `a + b`, entry by entry. */
  function Plus(a: seq<real>, b: seq<real>): (r: seq<real>)
    requires |a| == 3 && |b| == 3
    ensures |r| == 3 && forall i :: 0 <= i < 3 ==> r[i] == a[i] + b[i]
  {
    [a[0] + b[0], a[1] + b[1], a[2] + b[2]]
  }

  /** The precondition of equal_probs: it divides by the length of the children list whenever an action is legal. */
  predicate CanShareEqually(n: Node)
  {
    n.Action? && (LegalCount(n) > 0 ==> n.childCount > 0)
  }

  /** equal_probs: `1 / len(children)` for every legal action, 0 for the others. */
  function EqualProbs(n: Node): (probs: seq<real>)
    requires CanShareEqually(n)
    ensures |probs| == 3 && NonNegative(probs)
    ensures forall a :: 0 <= a < 3 ==>
      probs[a] == (if ActionChild(n, a).Some? then 1.0 / n.childCount as real else 0.0)
  {
    var share := if n.childCount == 0 then 0.0 else 1.0 / n.childCount as real;
    [if n.foldAction.Some? then share else 0.0,
     if n.callAction.Some? then share else 0.0,
     if n.raiseAction.Some? then share else 0.0]
  }

  /**
   * When the children list holds exactly the legal actions, equal_probs
   * is a probability vector.
   */
  lemma EqualProbsDistribution(n: Node)
    requires n.Action? && n.childCount == LegalCount(n) && n.childCount > 0
    ensures IsDistribution(EqualProbs(n))
  {
    var p := EqualProbs(n);
    var k := n.childCount as real;
    assert Total(p) == LegalCount(n) as real * (1.0 / k);
  }

  /**
   * Regret matching raises only when it falls back to equal_probs and
   * equal_probs divides by zero.
   */
  predicate CanRegretMatch(regret: seq<real>, n: Node)
  {
    |regret| == 3 && n.Action? && (Total(Clip(regret)) == 0.0 ==> CanShareEqually(n))
  }

  /**
   * Regret matching: clip the accumulated regrets at 0; with no positive
   * regret fall back to equal_probs, otherwise divide by the positive sum.
   */
  function RegretMatch(regret: seq<real>, n: Node): (probs: seq<real>)
    requires CanRegretMatch(regret, n)
    ensures |probs| == 3 && NonNegative(probs)
  {
    var clipped := Clip(regret);
    var positiveSum := Total(clipped);
    if positiveSum == 0.0 then EqualProbs(n)
    else
      DivideByNonNegative(clipped, positiveSum);
      DivideBy(clipped, positiveSum)
  }

  /**
   * With some positive regret, each action's probability is its clipped
   * regret over the positive sum: a probability vector that is zero
   * exactly where the regret is not positive.
   */
  lemma RegretMatchProportional(regret: seq<real>, n: Node)
    requires |regret| == 3 && n.Action? && Total(Clip(regret)) > 0.0
    ensures IsDistribution(RegretMatch(regret, n))
    ensures forall a :: 0 <= a < 3 ==> RegretMatch(regret, n)[a] == Positive(regret[a]) / Total(Clip(regret))
    ensures forall a :: 0 <= a < 3 ==> (RegretMatch(regret, n)[a] == 0.0 <==> regret[a] <= 0.0)
  {
    var c := Clip(regret);
    var s := Total(c);
    var p := RegretMatch(regret, n);
    assert c == [Positive(regret[0]), Positive(regret[1]), Positive(regret[2])];
    assert p == DivideBy(c, s);
    QuotientsSum(c, s);
    Quotient(c[0], s);
    Quotient(c[1], s);
    Quotient(c[2], s);
  }

  /** Dividing every entry by the total gives entries summing to 1. */
  lemma QuotientsSum(v: seq<real>, s: real)
    requires |v| == 3 && s == Total(v) && s != 0.0
    ensures Total(DivideBy(v, s)) == 1.0
  {
    var r := DivideBy(v, s);
    assert r[0] == v[0] / s && r[1] == v[1] / s && r[2] == v[2] / s;
    calc {
      Total(r);
      v[0] / s + v[1] / s + v[2] / s;
      (v[0] + v[1] + v[2]) / s;
      1.0;
    }
  }

  /** With no positive regret the result is the uniform fallback, a probability vector when the children list is exact. */
  lemma RegretMatchFallback(regret: seq<real>, n: Node)
    requires |regret| == 3 && CanShareEqually(n)
    requires forall a :: 0 <= a < 3 ==> regret[a] <= 0.0
    ensures RegretMatch(regret, n) == EqualProbs(n)
    ensures n.childCount == LegalCount(n) ==> (LegalCount(n) > 0 <==> IsDistribution(RegretMatch(regret, n)))
  {
    if n.childCount == LegalCount(n) && LegalCount(n) > 0 {
      EqualProbsDistribution(n);
    }
  }

  /** Regret matching always yields a probability vector when the children list holds exactly the legal actions. */
  lemma RegretMatchDistribution(regret: seq<real>, n: Node)
    requires |regret| == 3 && n.Action? && n.childCount == LegalCount(n) && n.childCount > 0
    ensures IsDistribution(RegretMatch(regret, n))
  {
    if Total(Clip(regret)) == 0.0 {
      EqualProbsDistribution(n);
    } else {
      RegretMatchProportional(regret, n);
    }
  }

  /** Every accumulator slot starts at 1e-10. */
  const InitialReach: real := 0.0000000001

  /** The fresh average-strategy accumulator row. */
  function InitialAccumulator(): (v: seq<real>)
    ensures |v| == 3 && NonNegative(v) && Total(v) > 0.0
  {
    [InitialReach, InitialReach, InitialReach]
  }

  /** `acc += probs * reach`: the average-strategy accumulation step. */
  function Accumulate(acc: seq<real>, probs: seq<real>, reach: real): (r: seq<real>)
    requires |acc| == 3 && |probs| == 3
    ensures |r| == 3
  {
    Plus(acc, Times(probs, reach))
  }

  /** Accumulating the same probabilities twice is accumulating them once with the summed weight. */
  lemma AccumulateTwice(acc: seq<real>, probs: seq<real>, x: real, y: real)
    requires |acc| == 3 && |probs| == 3
    ensures Accumulate(Accumulate(acc, probs, x), probs, y) == Accumulate(acc, probs, x + y)
  {
    var twice := Accumulate(Accumulate(acc, probs, x), probs, y);
    var once := Accumulate(acc, probs, x + y);
    forall i | 0 <= i < 3
      ensures twice[i] == once[i]
    {
      assert probs[i] * x + probs[i] * y == probs[i] * (x + y);
    }
  }

  /** Accumulating a non-negative weight keeps every slot non-negative and a positive total positive. */
  lemma AccumulateKeepsPositive(acc: seq<real>, probs: seq<real>, reach: real)
    requires |acc| == 3 && |probs| == 3 && NonNegative(acc) && NonNegative(probs) && reach >= 0.0
    ensures NonNegative(Accumulate(acc, probs, reach))
    ensures Total(Accumulate(acc, probs, reach)) >= Total(acc)
  {
    var w := Times(probs, reach);
    assert w[0] >= 0.0 && w[1] >= 0.0 && w[2] >= 0.0;
  }

  /** The profile policy: the accumulator divided by its sum. */
  function Normalize(acc: seq<real>): (r: seq<real>)
    requires |acc| == 3 && Total(acc) != 0.0
    ensures |r| == 3
  {
    DivideBy(acc, Total(acc))
  }

  /** A non-negative accumulator with positive sum normalises to a probability vector proportional to it. */
  lemma NormalizeDistribution(acc: seq<real>)
    requires |acc| == 3 && NonNegative(acc) && Total(acc) > 0.0
    ensures IsDistribution(Normalize(acc))
    ensures forall a :: 0 <= a < 3 ==> Normalize(acc)[a] * Total(acc) == acc[a]
  {
    var s := Total(acc);
    var r := Normalize(acc);
    QuotientsSum(acc, s);
    DivideByNonNegative(acc, s);
    Quotient(acc[0], s);
    Quotient(acc[1], s);
    Quotient(acc[2], s);
  }
}
